=== FILE: README.md ===
# MultiQC CMGG plugin modules in Dafny

This project models the parsing and decision logic of the MultiQC_CMGG plugin.
The plugin adds quality-control report sections for the CMGG sequencing
pipelines. Each module reads the text reports of one tool and turns them into
per-sample tables. This model covers:

- **coverage** (`CoverageConfig`, `CoverageDist`, `CoverageButtons`,
  `CoverageContigs`). It covers:
  - the mosdepth configuration defaults of `read_config`;
  - the cumulative coverage distribution read from a mosdepth `*.dist.txt`
    file, the `N_x_pc` threshold percentages and the median coverage;
  - the show/hide buttons and their colours;
  - the per-contig abundance cutoff with its "subtract 1" correction.
- **sample_gender** (`SampleGender`). It parses one-line TSV sex-prediction
  reports of three methods (XY, HETX, SRY), merges them per sample, and takes
  a majority vote with a certainty.
- **MSH2_hotspot_varcount** (`Msh2Hotspot`). It parses a variant-count report.
  Each MSH2 c.942+3 splice variant gets its frequency against the wild type
  and a Sanger-confirmation flag.
- **msi_sensor_pro** (`MsiSensorPro`). It covers the summary table (sites,
  unstable sites, percentage) and the per-site table of MSIsensor-pro.
- **demultiplex** (`Demultiplex`). It covers `read_histogram`, which finds the
  `## HISTOGRAM` block of a Picard metrics file, checks its header line, and
  reads the rows up to a blank line.
- **ngsbits sex calling** (`NgsbitsGender`). It covers:
  - `gender_xy`, the ratio of Y to X reads;
  - `gender_hetx`, the fraction of heterozygous X variants;
  - `gender_sry`, the mean depth over the SRY gene.

Shared modules:

- `Wrappers` gives Option and Result. Its error values stand for the Python
  exceptions the code can raise: ValueError, IndexError, KeyError,
  ZeroDivisionError, AssertionError, TypeError, and MultiQC's
  ModuleNoSamplesFound.
- `PyStr` models the Python string operations the parsers use: `split`,
  `strip`, `rstrip`, `splitlines`, `replace`, `startswith`, slicing, `zip`,
  and int-to-text.
- `Dicts` models Python dict assignment. It folds a sequence of steps
  (raise, skip, or assign a key) into a map, or into an insertion-ordered
  dictionary where the order is observable. It also proves once what such a
  fold means: the first error wins, and the last assignment to a key wins.

Methods with loops and in-place updates are proved equal to these
specification functions. The lemmas then state what the functions mean:
- which inputs raise and with which error;
- which keys are present;
- which line or file supplies each value.

Python's numeral grammars are parameters of the model: `toInt` and `toReal`
(None where `int()`/`float()` raise ValueError), and `toFloat` for the NaN
check. So are `round`, `isIgnored` (MultiQC's `--ignore-samples`), the
sample-name reader and the pileup.

## Model

| member | source | states |
|---|---|---|
| CoverageConfig.ContigList | multiqc_cmgg/modules/coverage/coverage.py:21-27 | an include/exclude entry is the configured list when it is a list, and [] when it is missing or not a list |
| CoverageConfig.Float | multiqc_cmgg/modules/coverage/coverage.py:47-50 | `float()` of a config value: ValueError exactly for unparseable text, TypeError exactly for None, a list or a dict |
| CoverageConfig.Cutoff | multiqc_cmgg/modules/coverage/coverage.py:46-53 | the cutoff defaults to 0.0 when missing and becomes 0.0 when its text does not parse; it raises only on a TypeError |
| CoverageConfig.ReadConfigDict | multiqc_cmgg/modules/coverage/coverage.py:16-55 | include/exclude become lists; every other key except the cutoff is unchanged; TypeError iff a list joins a non-string or the cutoff has the wrong type; on success the cutoff is stored as a float |
| CoverageConfig.UnparseableCutoffIsZero | multiqc_cmgg/modules/coverage/coverage.py:46-53 | an unparseable cutoff text is stored as 0.0 |
| CoverageConfig.ReadConfigIdempotent | multiqc_cmgg/modules/coverage/coverage.py:16-55 | reading an already-read configuration changes nothing and does not raise |
| CoverageConfig.HostConfig.DefaultShowHide | multiqc_cmgg/modules/coverage/coverage.py:330-334 | the loop leaves the show/hide attributes as the defaulting over the listed names gives; the MosDepth configuration is unchanged |
| CoverageConfig.DefaultAttrsSpec | multiqc_cmgg/modules/coverage/coverage.py:332-334 | each listed attribute ends set, to {} when it was missing or None and to its old value otherwise; an unlisted attribute is neither added nor changed |
| CoverageConfig.DefaultAttrsIdempotent | multiqc_cmgg/modules/coverage/coverage.py:332-334 | defaulting twice gives what defaulting once gives |
| CoverageConfig.ShowHideDefaults | multiqc_cmgg/modules/coverage/coverage.py:330-334 | show_hide_buttons and show_hide_mode end set and not None; because the last literal fuses two names, show_hide_patterns and show_hide_color keep whatever they were, missing or None included |
| CoverageConfig.HostConfig.ReadConfig | multiqc_cmgg/modules/coverage/coverage.py:16-55 | a missing configuration reads as an empty dict, a non-dict returns {}, a dict is updated in place as ReadConfigDict says; the result is ReadConfigValue; the show/hide attributes are untouched |
| CoverageConfig.HostConfig.SetShowHide | multiqc_cmgg/modules/coverage/coverage.py:357-362 | buttons and patterns both become the name list; mode and colour become their lists; every other attribute is unchanged |
| CoverageDist.ThresholdKeyDistinct | multiqc_cmgg/modules/coverage/coverage.py:61 | distinct thresholds give distinct `"{t}_x_pc"` keys |
| CoverageDist.GenstatsHasEveryThreshold | multiqc_cmgg/modules/coverage/coverage.py:58-62 | every threshold t has key `"{t}_x_pc"`, holding 100 × the fraction at depth t, or 0 when t is absent |
| CoverageDist.GenstatsOnlyThresholds | multiqc_cmgg/modules/coverage/coverage.py:58-62 | every key is the key of some threshold |
| CoverageDist.GenstatsKeyCount | multiqc_cmgg/modules/coverage/coverage.py:58-62 | there is exactly one key per distinct threshold |
| CoverageDist.SortedDesc | multiqc_cmgg/modules/coverage/coverage.py:67 | the depths in strictly decreasing order, the same set as the keys |
| CoverageDist.FirstAtLeastHalf | multiqc_cmgg/modules/coverage/coverage.py:67-70 | the scan gives None iff no scanned depth has fraction ≥ 0.5; otherwise it gives the first depth in scan order that does |
| CoverageDist.MedianScan | multiqc_cmgg/modules/coverage/coverage.py:65-71 | scanning the depths in decreasing order finds the largest depth with fraction ≥ 0.5, and None iff there is none |
| CoverageDist.CalcMedianCoverage | multiqc_cmgg/modules/coverage/coverage.py:65-71 | None iff every fraction is < 0.5; otherwise a depth with fraction ≥ 0.5 above which every fraction is < 0.5 |
| CoverageDist.ReadLine | multiqc_cmgg/modules/coverage/coverage.py:451-457 | ValueError unless there are exactly 3 tab fields; a `"0.00\n"` fraction or a non-`total` contig is skipped, and only those are; any other `total` row is recorded with its parsed depth and fraction iff both parse, and raises ValueError otherwise |
| CoverageDist.ReadDistribution | multiqc_cmgg/modules/coverage/coverage.py:448-457 | the line loop fills the distribution as the fold of its lines does |
| CoverageDist.DistributionFails | multiqc_cmgg/modules/coverage/coverage.py:450-457 | a file raises iff one of its lines does, and then with ValueError |
| CoverageDist.DistributionRows | multiqc_cmgg/modules/coverage/coverage.py:450-457 | a depth is present iff some line records it, with the fraction of the last such line: a repeated depth overwrites |
| CoverageDist.ParseCovDist | multiqc_cmgg/modules/coverage/coverage.py:439-489 | the file loop builds the per-sample statistics as CovDist specifies |
| CoverageDist.CovDistSamples | multiqc_cmgg/modules/coverage/coverage.py:439-489 | ValueError iff some file fails; otherwise a sample is present iff some file has its name, and its statistics (thresholds plus `median_coverage`) come from the last such file |
| CoverageDist.CoverageSamples | multiqc_cmgg/modules/coverage/coverage.py:181-193 | runs read_config on the host configuration first, updating it in place, and then returns what ModuleSamples gives for read_config's outcome |
| CoverageDist.ModuleSamplesSpec | multiqc_cmgg/modules/coverage/coverage.py:181-193 | a TypeError from read_config comes first; then a ValueError iff some distribution line fails; then a KeyError iff `mosdepth_config` is set to something other than a mapping, from the cutoff lookup at coverage.py:508; then ModuleNoSamplesFound iff every file's sample is ignored; otherwise exactly the files' samples that are not ignored remain |
| CoverageDist.ModuleSamplesOf | multiqc_cmgg/modules/coverage/coverage.py:181-193 | for any outcome of read_config: its error first; then a parse ValueError; then a KeyError iff the configuration lacks the cutoff key (coverage.py:508); then ModuleNoSamplesFound iff every sample is ignored |
| CoverageDist.CovDistNames | multiqc_cmgg/modules/coverage/coverage.py:439-489 | parse_cov_dist raises only ValueError, iff some line fails; otherwise its samples are exactly the files' sample names |
| CoverageConfig.ReadConfigValue | multiqc_cmgg/modules/coverage/coverage.py:16-19 | a missing attribute reads as an empty mapping, a non-mapping returns {}, a mapping is read as ReadConfigDict says |
| CoverageConfig.ReadConfigHasCutoff | multiqc_cmgg/modules/coverage/coverage.py:16-55 | read_config raises only TypeError; when it returns, the cutoff key is present iff the attribute was missing or a mapping |
| CoverageButtons.ButtonName | multiqc_cmgg/modules/coverage/coverage.py:343 | the button name is the prefix of the sample name before its first `_`, or the whole name when it has none |
| CoverageButtons.ColorFor | multiqc_cmgg/modules/coverage/coverage.py:351-355 | red iff `20_x_pc` < 90, green iff ≥ 90 |
| CoverageButtons.TrackColor | multiqc_cmgg/modules/coverage/coverage.py:349-355 | a new name is appended to the colour dict; a value under 90 makes the name red; red is never overwritten; other names are unchanged |
| CoverageButtons.ColorValues | multiqc_cmgg/modules/coverage/coverage.py:360-361 | the colour list is the dict's values in insertion order |
| CoverageButtons.AddButton | multiqc_cmgg/modules/coverage/coverage.py:344-346 | the name list stays the first-seen de-duplication of the names so far, each with mode "show" |
| CoverageButtons.ColorSample | multiqc_cmgg/modules/coverage/coverage.py:348-355 | KeyError iff an underscore-free, known sample lacks `20_x_pc`; otherwise the colour dict still agrees with the samples tracked so far |
| CoverageButtons.ShowHideLists | multiqc_cmgg/modules/coverage/coverage.py:340-361 | KeyError iff some tracked sample lacks `20_x_pc`; otherwise the names are the de-duplicated button names, all "show", and the colours are those of the de-duplicated tracked samples |
| CoverageButtons.ButtonsOncePerName | multiqc_cmgg/modules/coverage/coverage.py:343-346 | every button name appears once, every sample's name is listed, and every listed name comes from a sample |
| CoverageButtons.ColorIsRedIffUnder90 | multiqc_cmgg/modules/coverage/coverage.py:348-355 | a tracked name's colour is red iff its `20_x_pc` is < 90 and green iff it is ≥ 90 |
| CoverageContigs.AddSampleSums | multiqc_cmgg/modules/coverage/coverage.py:503-505 | one sample's contigs are added to the per-contig totals (missing ones counting from 0) and to the grand total |
| CoverageContigs.ContigTotals | multiqc_cmgg/modules/coverage/coverage.py:500-505 | each contig's total is its sum over all samples; the grand total is the sum of everything; a contig has a total iff it appears |
| CoverageContigs.ContigTotalAbsent | multiqc_cmgg/modules/coverage/coverage.py:500 | a contig that appears nowhere totals 0 |
| CoverageContigs.AddPassing | multiqc_cmgg/modules/coverage/coverage.py:511-514 | the passing set gains exactly the sample's contigs whose total exceeds the required coverage |
| CoverageContigs.PassingContigs | multiqc_cmgg/modules/coverage/coverage.py:508-514 | a contig passes iff it appears and its total is strictly greater than the required coverage |
| CoverageContigs.FilterSample | multiqc_cmgg/modules/coverage/coverage.py:519-523 | one sample keeps exactly its passing contigs, in order, and rejects the others |
| CoverageContigs.FilterContigs | multiqc_cmgg/modules/coverage/coverage.py:516-524 | the filtered map is Filtered; the rejected set is exactly the appearing contigs that did not pass |
| CoverageContigs.SubtractOne | multiqc_cmgg/modules/coverage/coverage.py:559-561 | every value is decreased by 1 in place |
| CoverageContigs.Decremented | multiqc_cmgg/modules/coverage/coverage.py:559-561 | the same samples and contigs, in the same shape |
| CoverageContigs.ContigCutoff | multiqc_cmgg/modules/coverage/coverage.py:500-561 | rejected contigs are exactly those that appear and fail the cutoff; the result is the filtered map with every value decreased by 1 |
| CoverageContigs.KeptContigsSpec | multiqc_cmgg/modules/coverage/coverage.py:519-523 | a (contig, value) pair is kept iff it was in the sample and the contig passes |
| CoverageContigs.FilteredRowsSpec | multiqc_cmgg/modules/coverage/coverage.py:516-524 | an entry survives iff it was there and its contig passes |
| CoverageContigs.FilteredRowsNonEmpty | multiqc_cmgg/modules/coverage/coverage.py:517-523 | no sample is left with an empty contig map: a sample without a passing contig disappears |
| CoverageContigs.ContigSurvives | multiqc_cmgg/modules/coverage/coverage.py:508-524 | a contig survives in a sample, with its original value, iff it was there and its total across samples exceeds cutoff × grand total |
| CoverageContigs.DecrementedEntries | multiqc_cmgg/modules/coverage/coverage.py:559-561 | the corrected map holds v − 1 exactly where the input held v |
| SampleGender.Fields | multiqc_cmgg/modules/sample_gender/sample_gender.py:149-150 | fields 2-6 of a stripped tab-split line: at most five |
| SampleGender.Abbreviate | multiqc_cmgg/modules/sample_gender/sample_gender.py:153-156 | "male" becomes "M", "female" becomes "F", anything else is unchanged |
| SampleGender.RenameFirstSpec | multiqc_cmgg/modules/sample_gender/sample_gender.py:159-162 | the first header becomes the method name of the last metric, in the order reads_chry, het_fraction, coverage_sry, that appears among the later headers; when none does, the method name of the first header's own metric; otherwise it is unchanged. The other headers are unchanged |
| SampleGender.Coerce | multiqc_cmgg/modules/sample_gender/sample_gender.py:165-170 | a numeric value becomes a number, NaN becomes "N/A", and a value `float()` rejects is kept as text |
| SampleGender.ParseFile | multiqc_cmgg/modules/sample_gender/sample_gender.py:138-172 | fewer than 2 lines give {}; IndexError iff line 2 has no field after the first; at most five entries |
| SampleGender.ParseColumns | multiqc_cmgg/modules/sample_gender/sample_gender.py:149-172 | IndexError iff there are no values; at most as many entries as values |
| SampleGender.ParseColumnsEntries | multiqc_cmgg/modules/sample_gender/sample_gender.py:164-170 | a key is present iff some zipped pair has it; it holds the coerced value of the last such pair |
| SampleGender.KeepNotIgnored | multiqc_cmgg/modules/sample_gender/sample_gender.py:40 | exactly the samples not ignored remain, with their records |
| SampleGender.MergeFromAppend | multiqc_cmgg/modules/sample_gender/sample_gender.py:26-40 | merging two runs of files is merging the first, then the second |
| SampleGender.MergeFromErr | multiqc_cmgg/modules/sample_gender/sample_gender.py:32 | once a report raises, the merge keeps that error |
| SampleGender.MergeFromSamples | multiqc_cmgg/modules/sample_gender/sample_gender.py:26-40 | a sample is present iff it is not ignored and it was present before or some file has its name with the method suffix removed |
| SampleGender.MergeFromKeys | multiqc_cmgg/modules/sample_gender/sample_gender.py:34-38 | a sample's record has a key iff it had it before or some file of that sample provides it |
| SampleGender.MergeFromOverrides | multiqc_cmgg/modules/sample_gender/sample_gender.py:34-38 | a provided key is present and comes from the last file that provides it: later reports override |
| SampleGender.MergeFromKept | multiqc_cmgg/modules/sample_gender/sample_gender.py:34-38 | a key that no later file provides keeps its earlier value |
| SampleGender.MergeReports | multiqc_cmgg/modules/sample_gender/sample_gender.py:25-40 | the loops over the three methods and their files give MergeAll |
| SampleGender.MergeFiles | multiqc_cmgg/modules/sample_gender/sample_gender.py:28-40 | the loop over one method's files merges them in order |
| SampleGender.MergeInto | multiqc_cmgg/modules/sample_gender/sample_gender.py:34-40 | one file's record is inserted or merged, then ignored samples are dropped |
| SampleGender.UpdateSelf | multiqc_cmgg/modules/sample_gender/sample_gender.py:35-38 | updating a new entry with its own record changes nothing |
| SampleGender.CountOf | multiqc_cmgg/modules/sample_gender/sample_gender.py:48-52 | the number of methods voting for an answer is at most 3, and 0 iff none does |
| SampleGender.CountsBounded | multiqc_cmgg/modules/sample_gender/sample_gender.py:46-52 | M votes plus F votes are at most the number of methods |
| SampleGender.CountVotes | multiqc_cmgg/modules/sample_gender/sample_gender.py:46-52 | KeyError iff a record lacks one of gender_xy, gender_hetx, gender_sry; otherwise the M and F counts |
| SampleGender.Decide | multiqc_cmgg/modules/sample_gender/sample_gender.py:53-58 | "M" iff #M ≥ #F (ties, including 0-0, go to M); certainty × 3 is the winner's count |
| SampleGender.Voted | multiqc_cmgg/modules/sample_gender/sample_gender.py:59-60 | exactly `certainty` and `calc_gender` are added; every other key is unchanged; the call is M or F |
| SampleGender.VoteOutcome | multiqc_cmgg/modules/sample_gender/sample_gender.py:53-60 | calc_gender is M iff #M ≥ #F; certainty is the winner's count / 3, one of 0, 1/3, 2/3, 1 |
| SampleGender.MajorityWins | multiqc_cmgg/modules/sample_gender/sample_gender.py:53-58 | an answer with two or more votes wins with certainty at least 2/3 |
| SampleGender.VoteIdempotent | multiqc_cmgg/modules/sample_gender/sample_gender.py:44-60 | voting again on a voted record changes nothing |
| SampleGender.VoteAll | multiqc_cmgg/modules/sample_gender/sample_gender.py:45-60 | KeyError iff some sample lacks a method's call; otherwise every sample gets its vote and no sample is added or lost |
| SampleGender.SexPrediction | multiqc_cmgg/modules/sample_gender/sample_gender.py:23-60 | merge errors propagate; otherwise the merged samples are voted, with KeyError iff one lacks a call |
| Msh2Hotspot.Fields | multiqc_cmgg/modules/MSH2_hotspot_varcount/MSH2_hotspot_varcount.py:107-108 | fields 2-6 of a stripped space-split line: at most five |
| Msh2Hotspot.RawTableSpec | multiqc_cmgg/modules/MSH2_hotspot_varcount/MSH2_hotspot_varcount.py:110-111 | the raw dict has the zipped headers in first-seen order, each with the value of its last pair |
| Msh2Hotspot.ZipIntoDict | multiqc_cmgg/modules/MSH2_hotspot_varcount/MSH2_hotspot_varcount.py:110-111 | the zip loop builds the raw table |
| Msh2Hotspot.Lift | multiqc_cmgg/modules/MSH2_hotspot_varcount/MSH2_hotspot_varcount.py:110-111 | the same keys, every cell still raw text |
| Msh2Hotspot.Score | multiqc_cmgg/modules/MSH2_hotspot_varcount/MSH2_hotspot_varcount.py:114-123 | wt stays its text; otherwise ValueError on a non-integer count, KeyError without a wt column, ValueError on a non-integer wt count, ZeroDivisionError iff both parse and wt + count = 0; else Ok with freq = round(count/(wt+count)·100, 2), flagged iff freq ≥ threshold |
| Msh2Hotspot.ScoreUpTo | multiqc_cmgg/modules/MSH2_hotspot_varcount/MSH2_hotspot_varcount.py:114-123 | the in-place rewrite keeps the keys and their order |
| Msh2Hotspot.Hotspot | multiqc_cmgg/modules/MSH2_hotspot_varcount/MSH2_hotspot_varcount.py:96-125 | fewer than 3 lines give {}; exactly 3 lines raise IndexError, since line index 3 is read; a result has at most five keys |
| Msh2Hotspot.ParseFile | multiqc_cmgg/modules/MSH2_hotspot_varcount/MSH2_hotspot_varcount.py:96-125 | the two loops compute Hotspot |
| Msh2Hotspot.ScoreStops | multiqc_cmgg/modules/MSH2_hotspot_varcount/MSH2_hotspot_varcount.py:114-123 | the first error ends the rewrite |
| Msh2Hotspot.ScoreUpToAlone | multiqc_cmgg/modules/MSH2_hotspot_varcount/MSH2_hotspot_varcount.py:114-123 | the rewrite agrees with scoring each column on its own against the raw wt, since the wt cell is never rewritten |
| Msh2Hotspot.TableFails | multiqc_cmgg/modules/MSH2_hotspot_varcount/MSH2_hotspot_varcount.py:114-123 | the rewrite fails iff some column fails on its own |
| Msh2Hotspot.TableCells | multiqc_cmgg/modules/MSH2_hotspot_varcount/MSH2_hotspot_varcount.py:114-123 | same keys; wt kept verbatim; every other cell is a frequency with its count text, flagged iff freq ≥ threshold |
| Msh2Hotspot.TableFrequencies | multiqc_cmgg/modules/MSH2_hotspot_varcount/MSH2_hotspot_varcount.py:114-121 | when the rewrite succeeds, a wt column exists beside any variant, and every variant cell is round(count/(wt+count)·100, 2) of the integers of its own and the wt text, flagged iff ≥ threshold |
| Msh2Hotspot.HotspotTable | multiqc_cmgg/modules/MSH2_hotspot_varcount/MSH2_hotspot_varcount.py:96-123 | four lines or more: raises iff some column of the table zipped from lines 3 and 4 fails on its own; otherwise the keys are line 3's headers in first-occurrence order, wt keeps its text and every variant holds its frequency against the wt count of line 4 |
| Msh2Hotspot.FrequencyBounds | multiqc_cmgg/modules/MSH2_hotspot_varcount/MSH2_hotspot_varcount.py:116 | with non-negative counts and a monotone rounding, a frequency lies in [0, 100] |
| MsiSensorPro.SummaryLine | multiqc_cmgg/modules/msi_sensor_pro/msi_sensor_pro.py:74-80 | a line equal to the header is skipped; any other line needs exactly 3 tab fields read as int, int, float, else ValueError |
| MsiSensorPro.SummarySteps | multiqc_cmgg/modules/msi_sensor_pro/msi_sensor_pro.py:71-80 | an empty file raises IndexError at `lines[0]`; otherwise one step per line |
| MsiSensorPro.SummaryStepsLines | multiqc_cmgg/modules/msi_sensor_pro/msi_sensor_pro.py:72-80 | each line is compared against the first line, wherever it occurs |
| MsiSensorPro.ParseSummary | multiqc_cmgg/modules/msi_sensor_pro/msi_sensor_pro.py:64-82 | the file and line loops compute SummaryTable |
| MsiSensorPro.ReadSummaryFile | multiqc_cmgg/modules/msi_sensor_pro/msi_sensor_pro.py:70-80 | one file's lines are folded into the table |
| MsiSensorPro.ReadSummaryLines | multiqc_cmgg/modules/msi_sensor_pro/msi_sensor_pro.py:73-80 | the line loop folds the file's steps |
| MsiSensorPro.SummaryFileSpec | multiqc_cmgg/modules/msi_sensor_pro/msi_sensor_pro.py:71-80 | empty file → IndexError; else ValueError iff a data line is malformed; the sample gets the row of its last data line, and nothing when every line repeats the header |
| MsiSensorPro.CombinedFails | multiqc_cmgg/modules/msi_sensor_pro/msi_sensor_pro.py:69-80 | the whole table fails iff some file does |
| MsiSensorPro.CombinedKeys | multiqc_cmgg/modules/msi_sensor_pro/msi_sensor_pro.py:69-80 | a sample is present iff some file gives it a row, and the last such file wins |
| MsiSensorPro.SummaryTableCombined | multiqc_cmgg/modules/msi_sensor_pro/msi_sensor_pro.py:68-82 | the table is the per-file summaries combined in order |
| MsiSensorPro.SiteLine | multiqc_cmgg/modules/msi_sensor_pro/msi_sensor_pro.py:96-113 | lines with fewer than 10 fields or equal to the header are skipped (the field count first); otherwise a site keyed `"{chrom}_{pos}"` from the first ten fields, or ValueError |
| MsiSensorPro.SiteSteps | multiqc_cmgg/modules/msi_sensor_pro/msi_sensor_pro.py:92-113 | an empty file raises IndexError; otherwise one step per line |
| MsiSensorPro.ParseAll | multiqc_cmgg/modules/msi_sensor_pro/msi_sensor_pro.py:85-115 | the loops compute SitesTable |
| MsiSensorPro.ReadSitesFile | multiqc_cmgg/modules/msi_sensor_pro/msi_sensor_pro.py:90-113 | one file's sites are added to its sample's map |
| MsiSensorPro.AddSitesStep | multiqc_cmgg/modules/msi_sensor_pro/msi_sensor_pro.py:102 | assigning into the defaultdict entry of a sample is assigning into that sample's map |
| MsiSensorPro.SiteFileSpec | multiqc_cmgg/modules/msi_sensor_pro/msi_sensor_pro.py:92-113 | empty file → IndexError; else ValueError iff a line fails; a key is present iff some line is a site with it, holding the last such site |
| MsiSensorPro.NestedFails | multiqc_cmgg/modules/msi_sensor_pro/msi_sensor_pro.py:89-113 | the table fails iff some file does |
| MsiSensorPro.NestedSamples | multiqc_cmgg/modules/msi_sensor_pro/msi_sensor_pro.py:89-113 | a sample is present iff one of its files has a site |
| MsiSensorPro.NestedKeys | multiqc_cmgg/modules/msi_sensor_pro/msi_sensor_pro.py:89-113 | a sample holds a site key iff one of its files gives it, with the value of the last such file |
| Demultiplex.MarkerIndex | multiqc_cmgg/modules/demultiplex/demultiplex.py:96-98 | the first line from a position that starts with `## HISTOGRAM`, and None iff there is none |
| Demultiplex.BlankIffStripsEmpty | multiqc_cmgg/modules/demultiplex/demultiplex.py:106-107 | a row line ends the block iff it is empty after rstrip |
| Demultiplex.IsBlank | multiqc_cmgg/modules/demultiplex/demultiplex.py:107 | tests the blank-line condition |
| Demultiplex.BlockEndSpec | multiqc_cmgg/modules/demultiplex/demultiplex.py:106-114 | the block ends at the first blank line or at the end of input |
| Demultiplex.FormatFieldsSpec | multiqc_cmgg/modules/demultiplex/demultiplex.py:110-111 | formatting raises iff some format does, with the first such error; otherwise field i becomes formats[i](field i) |
| Demultiplex.FormatFieldsStops | multiqc_cmgg/modules/demultiplex/demultiplex.py:110-111 | the first format error ends the loop |
| Demultiplex.MakeRow | multiqc_cmgg/modules/demultiplex/demultiplex.py:113 | the row is the dict zipped from headers and values, with the headers as keys in order of first occurrence |
| Demultiplex.ZippedKeys | multiqc_cmgg/modules/demultiplex/demultiplex.py:113 | the row's keys are exactly the headers |
| Demultiplex.ZippedLastWins | multiqc_cmgg/modules/demultiplex/demultiplex.py:113 | a repeated header holds the value of its last column |
| Demultiplex.RowStep | multiqc_cmgg/modules/demultiplex/demultiplex.py:108-113 | a row line never leaves the block unchanged |
| Demultiplex.RowStepSpec | multiqc_cmgg/modules/demultiplex/demultiplex.py:108-113 | AssertionError iff the field count differs from the headers; else a format error iff some field's format fails; else the row is keyed by the formatted first field, maps each header to its formatted field and lists the headers in order of first occurrence |
| Demultiplex.FileHistogram | multiqc_cmgg/modules/demultiplex/demultiplex.py:94-117 | no marker line means the file contributes nothing |
| Demultiplex.RowsFail | multiqc_cmgg/modules/demultiplex/demultiplex.py:106-114 | the block raises iff a row does, with the first such error |
| Demultiplex.RowsKeys | multiqc_cmgg/modules/demultiplex/demultiplex.py:113 | a key is present iff some row has it, holding the last such row: a repeated key overwrites but keeps its first place; the keys are in order of their first row |
| Demultiplex.FormatRow | multiqc_cmgg/modules/demultiplex/demultiplex.py:110-111 | the in-place format loop computes FormatFields |
| Demultiplex.ReadRow | multiqc_cmgg/modules/demultiplex/demultiplex.py:108-113 | reading one row line computes RowStep |
| Demultiplex.ReadRows | multiqc_cmgg/modules/demultiplex/demultiplex.py:106-114 | the slurp loop computes the rows up to the first blank line |
| Demultiplex.ReadRowsTo | multiqc_cmgg/modules/demultiplex/demultiplex.py:106-114 | the while loop over the block computes Rows |
| Demultiplex.ReadFileHistogram | multiqc_cmgg/modules/demultiplex/demultiplex.py:94-117 | the marker search, header check and slurp compute FileHistogram |
| Demultiplex.FileHistogramSpec | multiqc_cmgg/modules/demultiplex/demultiplex.py:94-117 | when the file has a marker and the line after the first one has exactly the headers as stripped tab fields, the result is the block after that line; otherwise it is an empty histogram and nothing raises |
| Demultiplex.FileStepSpec | multiqc_cmgg/modules/demultiplex/demultiplex.py:88-121 | a file without a readable sample name is skipped; one raises iff its histogram raises; it is stored iff it has at least one row |
| Demultiplex.KeepNotIgnored | multiqc_cmgg/modules/demultiplex/demultiplex.py:123 | exactly the samples not ignored remain, with their histograms, in their order |
| Demultiplex.Histograms | multiqc_cmgg/modules/demultiplex/demultiplex.py:66-123 | AssertionError when formats and headers differ in length |
| Demultiplex.HistogramsFail | multiqc_cmgg/modules/demultiplex/demultiplex.py:82-121 | read_histogram raises iff some file raises, with the first such error |
| Demultiplex.HistogramsKeys | multiqc_cmgg/modules/demultiplex/demultiplex.py:82-123 | a sample is present iff it is not ignored and some file stores rows under it, holding the last such histogram; the samples are in the order of their first file |
| Demultiplex.ReadFileInto | multiqc_cmgg/modules/demultiplex/demultiplex.py:83-121 | one pass of the file loop |
| Demultiplex.ReadHistogram | multiqc_cmgg/modules/demultiplex/demultiplex.py:66-123 | the file loop computes Histograms |
| NgsbitsGender.GenderName | multiqc_cmgg/modules/ngsbits/sample_gender.py:30-35 | the call is "female", "male" or "unknown" |
| NgsbitsGender.Ratio | multiqc_cmgg/modules/ngsbits/sample_gender.py:28 | a / b, and 0 when b is 0 |
| NgsbitsGender.RatioAtMostOne | multiqc_cmgg/modules/ngsbits/sample_gender.py:66 | a count over a larger count is at most 1 |
| NgsbitsGender.XyCall | multiqc_cmgg/modules/ngsbits/sample_gender.py:30-35 | female iff ratio ≤ max_female; male iff above it and ≥ min_male; unknown otherwise |
| NgsbitsGender.XyCallMonotone | multiqc_cmgg/modules/ngsbits/sample_gender.py:30-35 | a lower ratio never turns female into something else, and a higher one never turns male into something else |
| NgsbitsGender.XyReportSpec | multiqc_cmgg/modules/ngsbits/sample_gender.py:12-35 | X + Y reads are at most the accepted reads; with no X read and max_female ≥ 0 the call is female |
| NgsbitsGender.GenderXy | multiqc_cmgg/modules/ngsbits/sample_gender.py:6-44 | the read loop counts the accepted X and Y reads and calls on their ratio; the thresholds default to 0.06 and 0.09 and single-end reads are excluded by default |
| NgsbitsGender.HetxCall | multiqc_cmgg/modules/ngsbits/sample_gender.py:68-73 | female iff fraction ≥ min_female (checked first); male iff below it and ≤ max_male; unknown otherwise |
| NgsbitsGender.HetxCallMonotone | multiqc_cmgg/modules/ngsbits/sample_gender.py:68-73 | a higher fraction never turns female into something else, and a lower one never turns male into something else |
| NgsbitsGender.HetxReportSpec | multiqc_cmgg/modules/ngsbits/sample_gender.py:51-73 | het ≤ total; the fraction lies in [0, 1]; with no called variant the fraction is 0 |
| NgsbitsGender.GenderHetx | multiqc_cmgg/modules/ngsbits/sample_gender.py:47-82 | the variant loop counts called and heterozygous X variants and calls on their fraction; the thresholds default to 0.05 and 0.25 |
| NgsbitsGender.SryRegion | multiqc_cmgg/modules/ngsbits/sample_gender.py:89-98 | Ok iff the build is hg19 or hg38, else ValueError; chromosome Y; 478 or 479 bases from start to end inclusive |
| NgsbitsGender.RegionCoverageSpec | multiqc_cmgg/modules/ngsbits/sample_gender.py:106-108 | the total is exactly the sum of the aligned counts over the columns inside [start, end]; so every such column adds its count, and with none the total is 0 |
| NgsbitsGender.RegionCoverageAppend | multiqc_cmgg/modules/ngsbits/sample_gender.py:106-108 | the coverage of two runs of columns is the sum of their coverages |
| NgsbitsGender.RegionCoverageSwap | multiqc_cmgg/modules/ngsbits/sample_gender.py:106-108 | the order of the columns does not matter |
| NgsbitsGender.SryCall | multiqc_cmgg/modules/ngsbits/sample_gender.py:118 | male iff avg ≥ min_coverage, else female; never unknown |
| NgsbitsGender.SryReportSpec | multiqc_cmgg/modules/ngsbits/sample_gender.py:87-124 | ValueError iff the build is unsupported; never unknown; the region text of the build's region; a missing region gives avg 0, hence female when min_coverage > 0 |
| NgsbitsGender.GenderSry | multiqc_cmgg/modules/ngsbits/sample_gender.py:87-127 | the pileup loop sums the in-region depth and calls on its mean; the build defaults to hg38 and the threshold to 20.0 |

## Left out

- Host-framework calls are inputs of the model:
  - `find_log_files` becomes the sequence of files or reports;
  - `clean_s_name` and `f["s_name"]` become the sample name each file carries;
  - `ignore_samples` becomes an `isIgnored` predicate;
  - `add_data_source`, `add_section`, `add_software_version`, `write_data_file`, `general_stats_addcols`, the plots and logging are left out, having no effect on the data.
- `config.get_cov_thresholds` is the `threshs` parameter, and the MSH2 `sanger_threshold` configuration value is the `threshold` parameter.
- Python's `int()` and `float()` numeral grammars are the `toInt`, `toReal` and `toFloat` parameters (None where they raise ValueError).
- `round(x, n)` is the `round` parameter. Floats are reals without IEEE semantics; NaN appears only where sample_gender checks for it.
- Float-to-text rendering is left out. The MSH2 f-strings `"{freq}({counts})"` and `" - Sangeren!"` are a cell (freq, count text, Sanger flag), and `sry_region` is a (chromosome, start, end) value.
- `smooth_array` (coverage.py:492) is left out; its result is discarded by the code.
- `update_dict` with the region statistics, the general-stats header setup (coverage.py:365-392) and the report sections are left out, as presentation only.
- The per-contig map of coverage is never filled by the code, because its accumulation is commented out. The cutoff (coverage.py:498-561) is therefore modelled on its own, over a sample → contig → sum map that keeps Python's insertion order. Inside the constructor it runs on an empty map. There, the model keeps only its lookup of the cutoff key, which raises KeyError after a non-mapping configuration (ModuleSamples).
- All commented-out code of coverage.py is left out: XY coverage, plots, include/exclude glob filtering.
- The list at coverage.py:330 has `"show_hide_patterns,show_hide_color"` as one literal, so the defaulting loop visits an attribute of that name and never show_hide_patterns or show_hide_color. The model keeps this as written (ShowHideDefaults). This matters only when the colour loop raises, because lines 357-362 set all four attributes otherwise.
- Maps model Python dicts wherever the order of keys cannot be observed. The coverage statistics, the sample_gender records, the MSI tables and the config dict lose their insertion order in the model.
- `read_sample_name` is unbound in demultiplex.py: the file neither defines nor imports it, and its one call is at demultiplex.py:88, so the code as written raises NameError on the first log file found. The model supplies it as the `readName` parameter. It is given the file's directory, which `clean_s_name` sees at demultiplex.py:86, and the file's lines. It returns the name, or None, and the number of lines it consumed.
- The demultiplex `MultiqcModule.__init__` dispatches to submodules that are not shown, and is left out.
- pysam and cyvcf2 file access is replaced by record sequences:
  - reads with their flags and reference name, since `get_reference_name` is folded into the record;
  - variants with the first two alleles of the first sample's genotype, as `Option<int>`;
  - a pileup function from a region to its columns.
- Haploid and sample-less genotypes are left out.
- A pileup that raises ValueError part-way through is modelled as a region with no pileup at all (`None`). The handler resets both the total and the base count, so the result is the same.
- The rounded `y_x_ratio`, `het_fraction` and `avg_sry_coverage` are stored through the `round` parameter. Only the unrounded value decides the call.
- ngsbits/ngsbits.py imports a `parse_reports` that sample_gender.py does not define, and is left out.
- The plugin wiring (multiqc_cmgg.py, setup.py, templates) is left out as configuration only.
- The MSH2 module's per-sample merge loop (MSH2_hotspot_varcount.py:24-34) is left out. It repeats the sample_gender merge, and `parse_file` is the logic modelled.
- CoverageConfig.Float: does not model the OverflowError that Python's `float()` raises for an int too large for a double, because reals are unbounded here. Such a cutoff would escape read_config, since only ValueError is caught at coverage.py:49.
- Demultiplex.Histograms: its own contract states only the length check and validity. What it computes for each file is stated by HistogramsFail and HistogramsKeys.
- Demultiplex.FileHistogram: its own contract states only the no-marker case. The rest is in FileHistogramSpec.

=== FILE: coverage_buttons.dfy ===
/**
 * The show/hide buttons the coverage module adds to the report: one button
 * per run name (the sample name up to its first underscore), in first-seen
 * order, and a traffic-light colour for every underscore-free sample that
 * has general statistics, red when under 90% of it is covered at 20X.
 */
module CoverageButtons {
  import opened Wrappers
  import opened Dicts
  import opened CoverageDist

  const Underscore: char := '_'
  /** The general-statistics key of the 20X threshold. */
  const Pct20Key: string := "20_x_pc"
  const ShowMode: string := "show"
  const Red: string := "#d9534f"
  const Green: string := "#5cb85c"
  const PassPct: real := 90.0

  /** `s.split("_", 1)[0] if "_" in s else s`: the text before the first underscore. */
  function ButtonName(s: string): (name: string)
    ensures name <= s
    ensures Underscore !in name
    ensures Underscore in s ==> s[|name|] == Underscore
    ensures Underscore !in s ==> name == s
    decreases |s|
  {
    if s == [] || s[0] == Underscore then []
    else
      var rest := ButtonName(s[1..]);
      assert s == [s[0]] + s[1..];
      [s[0]] + rest
  }

  lemma ButtonNameSelf(s: string)
    requires Underscore !in s
    ensures ButtonName(s) == s
  {
  }

  function ButtonNames(sampleNames: seq<string>): (names: seq<string>)
    ensures |names| == |sampleNames|
    ensures forall i :: 0 <= i < |sampleNames| ==> names[i] == ButtonName(sampleNames[i])
  {
    seq(|sampleNames|, i requires 0 <= i < |sampleNames| => ButtonName(sampleNames[i]))
  }

  /** A sample whose colour is tracked: no underscore, and general statistics present. */
  predicate Tracked(s: string, genstats: map<string, GenStats>) {
    Underscore !in s && s in genstats
  }

  /** The tracked samples, in order. */
  function TrackedNames(sampleNames: seq<string>, genstats: map<string, GenStats>): (tracked: seq<string>)
    ensures forall s :: s in tracked ==> Tracked(s, genstats)
    decreases |sampleNames|
  {
    if sampleNames == [] then []
    else
      var n := |sampleNames| - 1;
      TrackedNames(sampleNames[..n], genstats) + if Tracked(sampleNames[n], genstats) then [sampleNames[n]] else []
  }

  lemma TrackedNamesSnoc(xs: seq<string>, x: string, genstats: map<string, GenStats>)
    ensures TrackedNames(xs + [x], genstats) == TrackedNames(xs, genstats) + if Tracked(x, genstats) then [x] else []
  {
    assert (xs + [x])[..|xs|] == xs;
  }

  /** A tracked sample that lacks the 20X percentage: reading it raises a KeyError. */
  predicate LacksPct20(s: string, genstats: map<string, GenStats>) {
    Tracked(s, genstats) && Pct20Key !in genstats[s].pct
  }

  /** No sample of `xs` lacks its 20X percentage. */
  ghost predicate AllHavePct20(xs: seq<string>, genstats: map<string, GenStats>) {
    forall k :: 0 <= k < |xs| ==> !LacksPct20(xs[k], genstats)
  }

  lemma AllHavePct20Snoc(xs: seq<string>, x: string, genstats: map<string, GenStats>)
    requires AllHavePct20(xs, genstats) && !LacksPct20(x, genstats)
    ensures AllHavePct20(xs + [x], genstats)
  {
  }

  /** The colour of a sample covered `pct` percent at 20X. */
  function ColorFor(pct: real): (color: string)
    ensures color == Red <==> pct < PassPct
    ensures color == Green <==> pct >= PassPct
  {
    if pct < PassPct then Red else Green
  }

  /** The button lists: names, modes and colours. */
  datatype ShowHide = ShowHide(names: seq<string>, modes: seq<string>, colors: seq<string>)

  /** The colours of the tracked names, in their order. */
  function Colors(tracked: seq<string>, genstats: map<string, GenStats>): seq<string>
    requires forall j :: 0 <= j < |tracked| ==> tracked[j] in genstats && Pct20Key in genstats[tracked[j]].pct
  {
    seq(|tracked|, j requires 0 <= j < |tracked| => ColorFor(genstats[tracked[j]].pct[Pct20Key]))
  }

  /**
   * The colour dictionary after a prefix of the samples: its keys are the
   * tracked names in first-seen order and each holds its colour.
   */
  ghost predicate ColorsSoFar(more: ODict<string, string>, tracked: seq<string>, genstats: map<string, GenStats>) {
    && more.Valid()
    && more.keys == Dedup(tracked)
    && forall k :: k in more.entries ==>
         Tracked(k, genstats) && Pct20Key in genstats[k].pct && more.entries[k] == ColorFor(genstats[k].pct[Pct20Key])
  }

  /**
   * One colour update of `more_less90`: a new name first gets "", then red
   * under 90%, else green unless it is red already. Red is never overwritten.
   */
  method TrackColor(more: ODict<string, string>, name: string, pct: real) returns (updated: ODict<string, string>)
    requires more.Valid()
    ensures updated.Valid()
    ensures name in more.entries ==> updated.keys == more.keys
    ensures name !in more.entries ==> updated.keys == more.keys + [name]
    ensures updated.entries.Keys == more.entries.Keys + {name}
    ensures forall k :: k in more.entries && k != name ==> updated.entries[k] == more.entries[k]
    ensures pct < PassPct ==> updated.entries[name] == Red
    ensures name in more.entries && more.entries[name] == Red ==> updated.entries[name] == Red
    ensures pct >= PassPct && !(name in more.entries && more.entries[name] == Red) ==> updated.entries[name] == Green
  {
    updated := more;
    if name !in updated.entries {
      updated := updated.Put(name, "");
    }
    if pct < PassPct {
      updated := updated.Put(name, Red);
    }
    if pct >= PassPct && updated.entries[name] != Red {
      updated := updated.Put(name, Green);
    }
  }

  /** `[color for color in more_less90.values()]`: the colours in key order. */
  method ColorValues(more: ODict<string, string>) returns (colors: seq<string>)
    requires more.Valid()
    ensures |colors| == |more.keys|
    ensures forall j :: 0 <= j < |colors| ==> colors[j] == more.entries[more.keys[j]]
  {
    colors := [];
    for j := 0 to |more.keys|
      invariant |colors| == j
      invariant forall m :: 0 <= m < j ==> colors[m] == more.entries[more.keys[m]]
    {
      colors := colors + [more.entries[more.keys[j]]];
    }
  }

  /** One button per new run name, each shown by default. */
  method AddButton(names: seq<string>, modes: seq<string>, ghost seen: seq<string>, name: string)
    returns (names': seq<string>, modes': seq<string>)
    requires names == Dedup(seen)
    requires |modes| == |names| && forall j :: 0 <= j < |modes| ==> modes[j] == ShowMode
    ensures names' == Dedup(seen + [name])
    ensures |modes'| == |names'| && forall j :: 0 <= j < |modes'| ==> modes'[j] == ShowMode
  {
    DedupSnoc(seen, name);
    names', modes' := names, modes;
    if name !in names {
      names', modes' := names + [name], modes + [ShowMode];
    }
  }

  /**
   * The colour bookkeeping for one sample: a tracked sample without a 20X
   * percentage raises a KeyError, any other tracked sample updates its colour.
   */
  method ColorSample(more: ODict<string, string>, tracked: seq<string>, genstats: map<string, GenStats>, s: string)
    returns (r: Result<ODict<string, string>>)
    requires ColorsSoFar(more, tracked, genstats)
    ensures r.Err? <==> LacksPct20(s, genstats)
    ensures r.Err? ==> r.error == KeyError
    ensures r.Ok? ==> ColorsSoFar(r.value, tracked + if Tracked(s, genstats) then [s] else [], genstats)
  {
    if !Tracked(s, genstats) {
      assert tracked + [] == tracked;
      return Ok(more);
    }
    if Pct20Key !in genstats[s].pct {
      return Err(KeyError);
    }
    var name := ButtonName(s);
    ButtonNameSelf(s);
    var updated := TrackColor(more, name, genstats[s].pct[Pct20Key]);
    ColorStep(more, updated, tracked, genstats, s);
    return Ok(updated);
  }

  /**
   * The constructor's loop over the distribution files: a button per run
   * name, listed once in first-seen order with mode "show", and a colour per
   * tracked sample; a KeyError when a tracked sample has no 20X percentage.
   */
  method ShowHideLists(sampleNames: seq<string>, genstats: map<string, GenStats>) returns (r: Result<ShowHide>)
    ensures r.Err? <==> exists i :: 0 <= i < |sampleNames| && LacksPct20(sampleNames[i], genstats)
    ensures r.Err? ==> r.error == KeyError
    ensures r.Ok? ==> r.value.names == Dedup(ButtonNames(sampleNames))
    ensures r.Ok? ==> |r.value.modes| == |r.value.names| && forall j :: 0 <= j < |r.value.modes| ==> r.value.modes[j] == ShowMode
    ensures r.Ok? ==> var tracked := Dedup(TrackedNames(sampleNames, genstats));
      && (forall j :: 0 <= j < |tracked| ==> tracked[j] in genstats && Pct20Key in genstats[tracked[j]].pct)
      && r.value.colors == Colors(tracked, genstats)
  {
    var names: seq<string> := [];
    var modes: seq<string> := [];
    var more: ODict<string, string> := EmptyDict();
    for i := 0 to |sampleNames|
      invariant names == Dedup(ButtonNames(sampleNames)[..i])
      invariant |modes| == |names| && forall j :: 0 <= j < |modes| ==> modes[j] == ShowMode
      invariant ColorsSoFar(more, TrackedNames(sampleNames[..i], genstats), genstats)
      invariant AllHavePct20(sampleNames[..i], genstats)
    {
      var ok;
      ok, names, modes, more := ShowHideStep(sampleNames, genstats, i, names, modes, more);
      if !ok {
        return Err(KeyError);
      }
    }
    assert ButtonNames(sampleNames)[..|sampleNames|] == ButtonNames(sampleNames);
    assert sampleNames[..|sampleNames|] == sampleNames;
    var colors := ColorValues(more);
    FinalColors(more, TrackedNames(sampleNames, genstats), genstats, colors);
    return Ok(ShowHide(names, modes, colors));
  }

  /** One pass of the file loop: the button and the colour bookkeeping of sample `i`. */
  method ShowHideStep(sampleNames: seq<string>, genstats: map<string, GenStats>, i: nat,
                      names: seq<string>, modes: seq<string>, more: ODict<string, string>)
    returns (ok: bool, names': seq<string>, modes': seq<string>, more': ODict<string, string>)
    requires i < |sampleNames|
    requires names == Dedup(ButtonNames(sampleNames)[..i])
    requires |modes| == |names| && forall j :: 0 <= j < |modes| ==> modes[j] == ShowMode
    requires ColorsSoFar(more, TrackedNames(sampleNames[..i], genstats), genstats)
    requires AllHavePct20(sampleNames[..i], genstats)
    ensures !ok <==> LacksPct20(sampleNames[i], genstats)
    ensures ok ==> names' == Dedup(ButtonNames(sampleNames)[..i + 1])
    ensures ok ==> |modes'| == |names'| && forall j :: 0 <= j < |modes'| ==> modes'[j] == ShowMode
    ensures ok ==> ColorsSoFar(more', TrackedNames(sampleNames[..i + 1], genstats), genstats)
    ensures ok ==> AllHavePct20(sampleNames[..i + 1], genstats)
  {
    ghost var allNames := ButtonNames(sampleNames);
    var s := sampleNames[i];
    assert allNames[..i + 1] == allNames[..i] + [ButtonName(s)];
    names', modes' := AddButton(names, modes, allNames[..i], ButtonName(s));
    assert sampleNames[..i + 1] == sampleNames[..i] + [s];
    TrackedNamesSnoc(sampleNames[..i], s, genstats);
    var step := ColorSample(more, TrackedNames(sampleNames[..i], genstats), genstats, s);
    if step.Err? {
      return false, names', modes', more;
    }
    AllHavePct20Snoc(sampleNames[..i], s, genstats);
    return true, names', modes', step.value;
  }

  /** The colour values, read in key order, are the colours of the tracked names. */
  lemma FinalColors(more: ODict<string, string>, tracked: seq<string>, genstats: map<string, GenStats>, colors: seq<string>)
    requires ColorsSoFar(more, tracked, genstats)
    requires |colors| == |more.keys| && forall j :: 0 <= j < |colors| ==> colors[j] == more.entries[more.keys[j]]
    ensures var d := Dedup(tracked);
      && (forall j :: 0 <= j < |d| ==> d[j] in genstats && Pct20Key in genstats[d[j]].pct)
      && colors == Colors(d, genstats)
  {
  }

  /** The colour dictionary stays in step with the tracked samples. */
  lemma ColorStep(before: ODict<string, string>, after: ODict<string, string>, tracked: seq<string>,
                  genstats: map<string, GenStats>, s: string)
    requires ColorsSoFar(before, tracked, genstats)
    requires Tracked(s, genstats) && Pct20Key in genstats[s].pct
    requires after.Valid()
    requires s in before.entries ==> after.keys == before.keys
    requires s !in before.entries ==> after.keys == before.keys + [s]
    requires after.entries.Keys == before.entries.Keys + {s}
    requires forall k :: k in before.entries && k != s ==> after.entries[k] == before.entries[k]
    requires genstats[s].pct[Pct20Key] < PassPct ==> after.entries[s] == Red
    requires s in before.entries && before.entries[s] == Red ==> after.entries[s] == Red
    requires genstats[s].pct[Pct20Key] >= PassPct && !(s in before.entries && before.entries[s] == Red) ==> after.entries[s] == Green
    ensures ColorsSoFar(after, tracked + [s], genstats)
  {
    DedupSnoc(tracked, s);
    assert s in before.entries <==> s in Dedup(tracked);
  }

  /** Each run name gets exactly one button, and the buttons follow first appearance. */
  lemma ButtonsOncePerName(sampleNames: seq<string>)
    ensures Distinct(Dedup(ButtonNames(sampleNames)))
    ensures forall s :: s in sampleNames ==> ButtonName(s) in Dedup(ButtonNames(sampleNames))
    ensures forall b :: b in Dedup(ButtonNames(sampleNames)) ==> exists s :: s in sampleNames && b == ButtonName(s)
  {
    var all := ButtonNames(sampleNames);
    forall s | s in sampleNames ensures ButtonName(s) in all {
      var i :| 0 <= i < |sampleNames| && sampleNames[i] == s;
      assert all[i] == ButtonName(s);
    }
    forall b | b in Dedup(all) ensures exists s :: s in sampleNames && b == ButtonName(s) {
      var i :| 0 <= i < |all| && all[i] == b;
      assert sampleNames[i] in sampleNames;
    }
  }

  /**
   * A tracked name is red iff its 20X percentage is under 90: every sample
   * with that name is the same general-statistics record, so once red it
   * would never turn green.
   */
  lemma ColorIsRedIffUnder90(tracked: seq<string>, genstats: map<string, GenStats>, j: int)
    requires forall j :: 0 <= j < |tracked| ==> tracked[j] in genstats && Pct20Key in genstats[tracked[j]].pct
    requires 0 <= j < |tracked|
    ensures Colors(tracked, genstats)[j] == Red <==> genstats[tracked[j]].pct[Pct20Key] < PassPct
    ensures Colors(tracked, genstats)[j] == Green <==> genstats[tracked[j]].pct[Pct20Key] >= PassPct
  {
  }
}

=== FILE: coverage_config.dfy ===
/**
 * The `mosdepth_config` section of the host configuration as the coverage
 * module reads it (read_config): defaulting of the contig lists and parsing
 * of the per-contig coverage cutoff, done in place on the configured mapping;
 * and the show/hide attributes the module defaults and then sets.
 */
module CoverageConfig {
  import opened Wrappers

  /** A value of the YAML-derived host configuration. */
  datatype CfgValue =
    | CNone
    | CBool(b: bool)
    | CInt(i: int)
    | CFloat(x: real)
    | CStr(s: string)
    | CList(items: seq<CfgValue>)
    | CDict(entries: map<string, CfgValue>)

  const IncludeKey: string := "include_contigs"
  const ExcludeKey: string := "exclude_contigs"
  const CutoffKey: string := "perchrom_fraction_cutoff"

  /** `cfg.get(key, [])`, replaced by `[]` when it is not a list. */
  function ContigList(cfg: map<string, CfgValue>, key: string): (v: CfgValue)
    ensures v.CList?
    ensures key in cfg && cfg[key].CList? ==> v == cfg[key]
    ensures !(key in cfg && cfg[key].CList?) ==> v == CList([])
  {
    if key in cfg && cfg[key].CList? then cfg[key] else CList([])
  }

  /** `', '.join(items)` raises a TypeError on a list holding anything but strings. */
  predicate JoinFails(v: CfgValue) {
    v.CList? && exists k :: 0 <= k < |v.items| && !v.items[k].CStr?
  }

  /**
   * `float(v)`: numbers and booleans convert, a string converts iff `toReal`
   * accepts it (ValueError otherwise), and anything else is a TypeError.
   */
  function Float(v: CfgValue, toReal: string -> Option<real>): (r: Result<real>)
    ensures r.Err? ==> r.error == ValueError || r.error == TypeError
    ensures r == Err(ValueError) <==> v.CStr? && toReal(v.s).None?
    ensures r == Err(TypeError) <==> v.CNone? || v.CList? || v.CDict?
  {
    match v
    case CFloat(x) => Ok(x)
    case CInt(i) => Ok(i as real)
    case CBool(b) => Ok(if b then 1.0 else 0.0)
    case CStr(s) => if toReal(s).Some? then Ok(toReal(s).value) else Err(ValueError)
    case _ => Err(TypeError)
  }

  /** The cutoff as read_config settles it: a ValueError gives 0.0, a TypeError escapes. */
  function Cutoff(cfg: map<string, CfgValue>, toReal: string -> Option<real>): (r: Result<real>)
    ensures CutoffKey !in cfg ==> r == Ok(0.0)
    ensures CutoffKey in cfg && Float(cfg[CutoffKey], toReal) == Err(ValueError) ==> r == Ok(0.0)
    ensures CutoffKey in cfg && Float(cfg[CutoffKey], toReal).Ok? ==> r == Float(cfg[CutoffKey], toReal)
    ensures r.Err? <==> CutoffKey in cfg && Float(cfg[CutoffKey], toReal) == Err(TypeError)
  {
    var v := if CutoffKey in cfg then cfg[CutoffKey] else CFloat(0.0);
    match Float(v, toReal)
    case Ok(x) => Ok(x)
    case Err(ValueError) => Ok(0.0)
    case Err(e) => Err(e)
  }

  /** What read_config leaves in the configured mapping, and what it returns or raises. */
  datatype ReadOutcome = ReadOutcome(stored: map<string, CfgValue>, result: Result<map<string, CfgValue>>)

  /**
   * read_config on a mapping: the contig lists are defaulted first (and stay
   * so even when a later step raises); the contig lists are joined for the
   * log; the cutoff is parsed and stored.
   */
  function ReadConfigDict(cfg: map<string, CfgValue>, toReal: string -> Option<real>): (o: ReadOutcome)
    // include/exclude are lists: the configured list, or [] when missing or not a list
    ensures IncludeKey in o.stored && o.stored[IncludeKey] == ContigList(cfg, IncludeKey)
    ensures ExcludeKey in o.stored && o.stored[ExcludeKey] == ContigList(cfg, ExcludeKey)
    // every other key except the cutoff is left alone
    ensures forall k :: k != IncludeKey && k != ExcludeKey && k != CutoffKey ==>
      (k in o.stored <==> k in cfg) && (k in cfg ==> o.stored[k] == cfg[k])
    // TypeError iff a contig list holds a non-string or the cutoff is not convertible
    ensures o.result.Err? <==>
      JoinFails(ContigList(cfg, IncludeKey)) || JoinFails(ContigList(cfg, ExcludeKey)) || Cutoff(cfg, toReal).Err?
    ensures o.result.Err? ==> o.result.error == TypeError
    // on success the stored mapping is returned, its cutoff a float
    ensures o.result.Ok? ==> o.result.value == o.stored
    ensures o.result.Ok? ==> CutoffKey in o.stored && o.stored[CutoffKey] == CFloat(Cutoff(cfg, toReal).value)
  {
    var withLists := cfg[IncludeKey := ContigList(cfg, IncludeKey)][ExcludeKey := ContigList(cfg, ExcludeKey)];
    if JoinFails(withLists[IncludeKey]) || JoinFails(withLists[ExcludeKey]) then
      ReadOutcome(withLists, Err(TypeError))
    else
      match Cutoff(withLists, toReal)
      case Err(e) => ReadOutcome(withLists, Err(e))
      case Ok(x) =>
        var stored := withLists[CutoffKey := CFloat(x)];
        ReadOutcome(stored, Ok(stored))
  }

  /**
   * read_config on the host's `mosdepth_config` attribute (None when it is
   * not set): a missing attribute reads as an empty mapping, a value that is
   * not a mapping returns {}, a mapping is read as ReadConfigDict says.
   */
  function ReadConfigValue(mosdepth: Option<CfgValue>, toReal: string -> Option<real>): (r: Result<map<string, CfgValue>>)
    ensures mosdepth.Some? && !mosdepth.value.CDict? ==> r == Ok(map[])
    ensures mosdepth.None? ==> r == ReadConfigDict(map[], toReal).result
    ensures mosdepth.Some? && mosdepth.value.CDict? ==> r == ReadConfigDict(mosdepth.value.entries, toReal).result
  {
    match mosdepth
    case None => ReadConfigDict(map[], toReal).result
    case Some(CDict(entries)) => ReadConfigDict(entries, toReal).result
    case Some(_) => Ok(map[])
  }

  /** The host's `mosdepth_config` after read_config: a mapping is updated in place, anything else is left. */
  function StoredConfig(mosdepth: Option<CfgValue>, toReal: string -> Option<real>): Option<CfgValue> {
    match mosdepth
    case Some(CDict(entries)) => Some(CDict(ReadConfigDict(entries, toReal).stored))
    case _ => mosdepth
  }

  /**
   * read_config raises only TypeError; when it returns, the result has the
   * cutoff key iff the attribute was missing or a mapping: a value that is
   * not a mapping gives {}, where the key is missing.
   */
  lemma ReadConfigHasCutoff(mosdepth: Option<CfgValue>, toReal: string -> Option<real>)
    ensures ReadConfigValue(mosdepth, toReal).Err? ==> ReadConfigValue(mosdepth, toReal).error == TypeError
    ensures ReadConfigValue(mosdepth, toReal).Ok? ==>
      (CutoffKey in ReadConfigValue(mosdepth, toReal).value <==> mosdepth.None? || mosdepth.value.CDict?)
  {
    if mosdepth.Some? && !mosdepth.value.CDict? {
      assert ReadConfigValue(mosdepth, toReal).value == map[];
    }
  }

  /** A cutoff that `float()` rejects with a ValueError becomes 0.0. */
  lemma UnparseableCutoffIsZero(cfg: map<string, CfgValue>, toReal: string -> Option<real>)
    requires CutoffKey in cfg && cfg[CutoffKey].CStr? && toReal(cfg[CutoffKey].s).None?
    requires !JoinFails(ContigList(cfg, IncludeKey)) && !JoinFails(ContigList(cfg, ExcludeKey))
    ensures ReadConfigDict(cfg, toReal).result.Ok?
    ensures ReadConfigDict(cfg, toReal).stored[CutoffKey] == CFloat(0.0)
  {
  }

  /** Reading the configuration twice changes nothing the second time. */
  lemma ReadConfigIdempotent(cfg: map<string, CfgValue>, toReal: string -> Option<real>)
    requires ReadConfigDict(cfg, toReal).result.Ok?
    ensures var once := ReadConfigDict(cfg, toReal).stored;
      ReadConfigDict(once, toReal) == ReadOutcome(once, Ok(once))
  {
    var once := ReadConfigDict(cfg, toReal).stored;
    assert ContigList(once, IncludeKey) == once[IncludeKey];
    assert ContigList(once, ExcludeKey) == once[ExcludeKey];
    assert Cutoff(once, toReal) == Ok(Cutoff(cfg, toReal).value);
    assert once[IncludeKey := once[IncludeKey]][ExcludeKey := once[ExcludeKey]] == once;
    assert once[CutoffKey := once[CutoffKey]] == once;
  }

  const ButtonsAttr: string := "show_hide_buttons"
  const ModeAttr: string := "show_hide_mode"
  const PatternsAttr: string := "show_hide_patterns"
  const ColorAttr: string := "show_hide_color"

  /**
   * The attribute names the show/hide defaulting loop visits. The last
   * literal names a single attribute with a comma in it, so neither
   * `show_hide_patterns` nor `show_hide_color` is visited.
   */
  const ShowHideAttrs: seq<string> := [ButtonsAttr, ModeAttr, "show_hide_patterns,show_hide_color"]

  /** An attribute's value after the defaulting: {} when it is missing or None, else unchanged. */
  function DefaultedAttr(attrs: map<string, CfgValue>, name: string): (v: CfgValue)
    ensures v != CNone
  {
    if name !in attrs || attrs[name] == CNone then CDict(map[]) else attrs[name]
  }

  /** The defaulting loop over `names`, one attribute after the other. */
  function DefaultAttrs(attrs: map<string, CfgValue>, names: seq<string>): map<string, CfgValue>
    decreases |names|
  {
    if names == [] then attrs
    else
      var front := DefaultAttrs(attrs, names[..|names| - 1]);
      var name := names[|names| - 1];
      front[name := DefaultedAttr(front, name)]
  }

  /**
   * After the loop every visited attribute is set, to {} if it was missing
   * or None and to its old value otherwise; an attribute not visited is
   * neither added nor changed.
   */
  lemma {:induction false} DefaultAttrsSpec(attrs: map<string, CfgValue>, names: seq<string>)
    ensures forall name :: name in names ==>
      name in DefaultAttrs(attrs, names) && DefaultAttrs(attrs, names)[name] == DefaultedAttr(attrs, name)
    ensures forall name :: name !in names ==>
      (name in DefaultAttrs(attrs, names) <==> name in attrs)
      && (name in attrs ==> DefaultAttrs(attrs, names)[name] == attrs[name])
    decreases |names|
  {
    if names != [] {
      var n := |names| - 1;
      DefaultAttrsSpec(attrs, names[..n]);
      assert names == names[..n] + [names[n]];
    }
  }

  /** Running the defaulting twice changes nothing more. */
  lemma DefaultAttrsIdempotent(attrs: map<string, CfgValue>, names: seq<string>)
    ensures DefaultAttrs(DefaultAttrs(attrs, names), names) == DefaultAttrs(attrs, names)
  {
    var once := DefaultAttrs(attrs, names);
    DefaultAttrsSpec(attrs, names);
    DefaultAttrsSpec(once, names);
    assert DefaultAttrs(once, names).Keys == once.Keys;
  }

  /**
   * On the host's list, show_hide_buttons and show_hide_mode end set and not
   * None, while show_hide_patterns and show_hide_color keep whatever they
   * were, missing or None included.
   */
  lemma ShowHideDefaults(attrs: map<string, CfgValue>)
    ensures var r := DefaultAttrs(attrs, ShowHideAttrs);
      ButtonsAttr in r && r[ButtonsAttr] != CNone && ModeAttr in r && r[ModeAttr] != CNone
    ensures var r := DefaultAttrs(attrs, ShowHideAttrs);
      (PatternsAttr in r <==> PatternsAttr in attrs) && (PatternsAttr in attrs ==> r[PatternsAttr] == attrs[PatternsAttr])
    ensures var r := DefaultAttrs(attrs, ShowHideAttrs);
      (ColorAttr in r <==> ColorAttr in attrs) && (ColorAttr in attrs ==> r[ColorAttr] == attrs[ColorAttr])
  {
    DefaultAttrsSpec(attrs, ShowHideAttrs);
    assert ButtonsAttr in ShowHideAttrs && ModeAttr in ShowHideAttrs;
    assert PatternsAttr !in ShowHideAttrs && ColorAttr !in ShowHideAttrs;
  }

  /** A list of strings as the host stores it. */
  function StrList(xs: seq<string>): (v: CfgValue)
    ensures v.CList? && |v.items| == |xs|
    ensures forall i :: 0 <= i < |xs| ==> v.items[i] == CStr(xs[i])
  {
    CList(seq(|xs|, i requires 0 <= i < |xs| => CStr(xs[i])))
  }

  /**
   * The host's configuration object, as far as the coverage module reads
   * and writes it. `mosdepthConfig` is None when the attribute is not set;
   * `showHide` holds the show/hide attributes that are set, by name.
   */
  class HostConfig {
    var mosdepthConfig: Option<CfgValue>
    var showHide: map<string, CfgValue>

    constructor(mosdepthConfig: Option<CfgValue>, showHide: map<string, CfgValue>)
      ensures this.mosdepthConfig == mosdepthConfig && this.showHide == showHide
    {
      this.mosdepthConfig := mosdepthConfig;
      this.showHide := showHide;
    }

    /** The loop that sets each listed show/hide attribute that is missing or None to {}. */
    method DefaultShowHide()
      modifies this
      ensures showHide == DefaultAttrs(old(showHide), ShowHideAttrs)
      ensures mosdepthConfig == old(mosdepthConfig)
    {
      for i := 0 to |ShowHideAttrs|
        invariant showHide == DefaultAttrs(old(showHide), ShowHideAttrs[..i])
        invariant mosdepthConfig == old(mosdepthConfig)
      {
        var name := ShowHideAttrs[i];
        assert ShowHideAttrs[..i + 1][..i] == ShowHideAttrs[..i];
        if name !in showHide || showHide[name] == CNone {
          showHide := showHide[name := CDict(map[])];
        } else {
          assert showHide[name := showHide[name]] == showHide;
        }
      }
      assert ShowHideAttrs[..|ShowHideAttrs|] == ShowHideAttrs;
    }

    /**
     * read_config: a missing attribute reads as a fresh empty mapping (the
     * host is left alone); a value that is not a mapping gives {}; a mapping
     * is updated in place, so the host sees the defaulted contig lists even
     * when reading then raises.
     */
    method ReadConfig(toReal: string -> Option<real>) returns (r: Result<map<string, CfgValue>>)
      modifies this
      ensures old(mosdepthConfig).None? ==>
        r == ReadConfigDict(map[], toReal).result && mosdepthConfig == old(mosdepthConfig)
      ensures old(mosdepthConfig).Some? && !old(mosdepthConfig).value.CDict? ==>
        r == Ok(map[]) && mosdepthConfig == old(mosdepthConfig)
      ensures old(mosdepthConfig).Some? && old(mosdepthConfig).value.CDict? ==>
        var o := ReadConfigDict(old(mosdepthConfig).value.entries, toReal);
        r == o.result && mosdepthConfig == Some(CDict(o.stored))
      ensures r == ReadConfigValue(old(mosdepthConfig), toReal) && mosdepthConfig == StoredConfig(old(mosdepthConfig), toReal)
      ensures showHide == old(showHide)
    {
      var cfg: map<string, CfgValue>;
      var attached: bool;
      match mosdepthConfig {
        case None =>
          cfg, attached := map[], false;
        case Some(CDict(entries)) =>
          cfg, attached := entries, true;
        case Some(_) =>
          return Ok(map[]);
      }
      ghost var original := cfg;
      cfg := cfg[IncludeKey := ContigList(cfg, IncludeKey)];
      cfg := cfg[ExcludeKey := ContigList(cfg, ExcludeKey)];
      assert cfg == original[IncludeKey := ContigList(original, IncludeKey)][ExcludeKey := ContigList(original, ExcludeKey)];
      if attached {
        mosdepthConfig := Some(CDict(cfg));
      }
      if JoinFails(cfg[IncludeKey]) || JoinFails(cfg[ExcludeKey]) {
        return Err(TypeError);
      }
      var cutoff := Cutoff(cfg, toReal);
      if cutoff.Err? {
        return Err(cutoff.error);
      }
      cfg := cfg[CutoffKey := CFloat(cutoff.value)];
      if attached {
        mosdepthConfig := Some(CDict(cfg));
      }
      return Ok(cfg);
    }

    /** The end of the constructor's show/hide bookkeeping: the lists become the report's buttons. */
    method SetShowHide(names: seq<string>, modes: seq<string>, colors: seq<string>)
      modifies this
      ensures showHide == old(showHide)[ButtonsAttr := StrList(names)][PatternsAttr := StrList(names)]
                                       [ModeAttr := StrList(modes)][ColorAttr := StrList(colors)]
      ensures mosdepthConfig == old(mosdepthConfig)
    {
      showHide := showHide[ButtonsAttr := StrList(names)];
      showHide := showHide[PatternsAttr := StrList(names)];
      showHide := showHide[ModeAttr := StrList(modes)];
      showHide := showHide[ColorAttr := StrList(colors)];
    }
  }
}

=== FILE: coverage_contigs.dfy ===
/**
 * The per-contig coverage cutoff of parse_cov_dist: contigs whose summed
 * coverage across all samples is not above `cutoff` times the grand total
 * are rejected, the others are kept with their values, and each kept value
 * is then lowered by 1 (mosdepth's depth-0 category, always 1.0, is not
 * part of the average). The per-sample, per-contig sums are Python dicts;
 * they are modelled as association lists in insertion order.
 */
module CoverageContigs {

  /** contig -> bases-fraction sum, in insertion order. */
  type ContigSums = seq<(string, real)>
  /** sample -> its contig sums, in insertion order. */
  type PerSample = seq<(string, ContigSums)>

  /** The sum of all the values of one sample. */
  function Sum(contigs: ContigSums): real
    decreases |contigs|
  {
    if contigs == [] then 0.0
    else Sum(contigs[..|contigs| - 1]) + contigs[|contigs| - 1].1
  }

  /** The sum of the values one sample holds for contig `c`. */
  function SumFor(contigs: ContigSums, c: string): real
    decreases |contigs|
  {
    if contigs == [] then 0.0
    else
      var last := contigs[|contigs| - 1];
      SumFor(contigs[..|contigs| - 1], c) + if last.0 == c then last.1 else 0.0
  }

  /** `total_cov`: the sum of every value of every sample. */
  function GrandTotal(data: PerSample): real
    decreases |data|
  {
    if data == [] then 0.0
    else GrandTotal(data[..|data| - 1]) + Sum(data[|data| - 1].1)
  }

  /** `total_cov_per_contig[c]`: the sum of contig `c` across the samples. */
  function ContigTotal(data: PerSample, c: string): real
    decreases |data|
  {
    if data == [] then 0.0
    else ContigTotal(data[..|data| - 1], c) + SumFor(data[|data| - 1].1, c)
  }

  predicate HasContig(contigs: ContigSums, c: string) {
    exists j :: 0 <= j < |contigs| && contigs[j].0 == c
  }

  /** Contig `c` occurs in some sample. */
  predicate Appears(data: PerSample, c: string) {
    exists i :: 0 <= i < |data| && HasContig(data[i].1, c)
  }

  /** The cutoff test: the contig's total is strictly above `cutoff` times the grand total. */
  predicate Passes(data: PerSample, c: string, cutoff: real) {
    ContigTotal(data, c) > GrandTotal(data) * cutoff
  }

  /** Sample `s` holds value `v` for contig `c`. */
  predicate Entry(rows: PerSample, s: string, c: string, v: real) {
    exists i :: 0 <= i < |rows| && rows[i].0 == s && (c, v) in rows[i].1
  }

  /** A read of the `defaultdict(lambda: 0)`: a missing contig counts as 0. */
  function Lookup(m: map<string, real>, c: string): real {
    if c in m then m[c] else 0.0
  }

  /** The contigs of one sample that pass, in their order. */
  function KeptContigs(contigs: ContigSums, data: PerSample, cutoff: real): ContigSums
    decreases |contigs|
  {
    if contigs == [] then []
    else
      var last := contigs[|contigs| - 1];
      KeptContigs(contigs[..|contigs| - 1], data, cutoff) + if Passes(data, last.0, cutoff) then [last] else []
  }

  /**
   * `filtered_perchrom_avg_data` for the samples `rows` of `data`: a sample
   * enters the defaultdict with its first passing contig, so one with none
   * does not appear.
   */
  function FilteredRows(rows: PerSample, data: PerSample, cutoff: real): PerSample
    decreases |rows|
  {
    if rows == [] then []
    else
      var last := rows[|rows| - 1];
      var kept := KeptContigs(last.1, data, cutoff);
      FilteredRows(rows[..|rows| - 1], data, cutoff) + if kept == [] then [] else [(last.0, kept)]
  }

  function Filtered(data: PerSample, cutoff: real): PerSample {
    FilteredRows(data, data, cutoff)
  }

  /** Every value lowered by 1, keys and order unchanged. */
  function Decremented(rows: PerSample): (out: PerSample)
    ensures |out| == |rows|
    ensures forall i :: 0 <= i < |rows| ==> out[i].0 == rows[i].0 && |out[i].1| == |rows[i].1|
  {
    seq(|rows|, i requires 0 <= i < |rows| =>
      (rows[i].0, seq(|rows[i].1|, j requires 0 <= j < |rows[i].1| => (rows[i].1[j].0, rows[i].1[j].1 - 1.0))))
  }

  // ---- loops ----

  /** The inner loop of the totals: one sample's values added to the running sums. */
  method AddSampleSums(perContig: map<string, real>, total: real, contigs: ContigSums)
    returns (perContig': map<string, real>, total': real)
    ensures total' == total + Sum(contigs)
    ensures forall c :: c in perContig' <==> c in perContig || HasContig(contigs, c)
    ensures forall c :: c in perContig' ==> perContig'[c] == Lookup(perContig, c) + SumFor(contigs, c)
  {
    perContig', total' := perContig, total;
    for j := 0 to |contigs|
      invariant total' == total + Sum(contigs[..j])
      invariant forall c :: c in perContig' <==> c in perContig || HasContig(contigs[..j], c)
      invariant forall c :: c in perContig' ==> perContig'[c] == Lookup(perContig, c) + SumFor(contigs[..j], c)
    {
      var (contig, fraction) := contigs[j];
      assert contigs[..j + 1] == contigs[..j] + [contigs[j]];
      SumsSnoc(contigs[..j], contigs[j]);
      HasContigSnoc(contigs[..j], contigs[j]);
      if contig !in perContig' {
        SumForAbsent(contigs[..j], contig);
      }
      perContig' := perContig'[contig := Lookup(perContig', contig) + fraction];
      total' := total' + fraction;
    }
    assert contigs[..|contigs|] == contigs;
  }

  lemma SumsSnoc(contigs: ContigSums, p: (string, real))
    ensures Sum(contigs + [p]) == Sum(contigs) + p.1
    ensures forall c :: SumFor(contigs + [p], c) == SumFor(contigs, c) + if p.0 == c then p.1 else 0.0
  {
    assert (contigs + [p])[..|contigs|] == contigs;
  }

  lemma HasContigSnoc(contigs: ContigSums, p: (string, real))
    ensures forall c :: HasContig(contigs + [p], c) <==> HasContig(contigs, c) || p.0 == c
  {
    assert (contigs + [p])[|contigs|].0 == p.0;
    forall c | HasContig(contigs + [p], c) && p.0 != c ensures HasContig(contigs, c) {
      var j :| 0 <= j < |contigs| + 1 && (contigs + [p])[j].0 == c;
      assert contigs[j].0 == c;
    }
    forall c | HasContig(contigs, c) ensures HasContig(contigs + [p], c) {
      var j :| 0 <= j < |contigs| && contigs[j].0 == c;
      assert (contigs + [p])[j].0 == c;
    }
  }

  lemma AppearsSnoc(data: PerSample, row: (string, ContigSums))
    ensures forall c :: Appears(data + [row], c) <==> Appears(data, c) || HasContig(row.1, c)
  {
    assert (data + [row])[|data|] == row;
    forall c | Appears(data + [row], c) && !HasContig(row.1, c) ensures Appears(data, c) {
      var i :| 0 <= i < |data| + 1 && HasContig((data + [row])[i].1, c);
      assert HasContig(data[i].1, c);
    }
    forall c | Appears(data, c) ensures Appears(data + [row], c) {
      var i :| 0 <= i < |data| && HasContig(data[i].1, c);
      assert HasContig((data + [row])[i].1, c);
    }
  }

  /**
   * The first loop of the cutoff: `total_cov_per_contig` holds every contig
   * that occurs, with its total across the samples, and `total_cov` the grand total.
   */
  method ContigTotals(data: PerSample) returns (perContig: map<string, real>, total: real)
    ensures total == GrandTotal(data)
    ensures forall c :: c in perContig <==> Appears(data, c)
    ensures forall c :: c in perContig ==> perContig[c] == ContigTotal(data, c)
  {
    perContig, total := map[], 0.0;
    for i := 0 to |data|
      invariant total == GrandTotal(data[..i])
      invariant forall c :: c in perContig <==> Appears(data[..i], c)
      invariant forall c :: c in perContig ==> perContig[c] == ContigTotal(data[..i], c)
    {
      assert data[..i + 1][..i] == data[..i];
      assert data[..i + 1] == data[..i] + [data[i]];
      AppearsSnoc(data[..i], data[i]);
      ghost var before := perContig;
      perContig, total := AddSampleSums(perContig, total, data[i].1);
      forall c | c in perContig ensures perContig[c] == ContigTotal(data[..i + 1], c) {
        if c !in before {
          ContigTotalAbsent(data[..i], c);
        }
      }
    }
    assert data[..|data|] == data;
  }

  /** A contig that occurs in no sample has total 0. */
  lemma {:induction false} ContigTotalAbsent(data: PerSample, c: string)
    requires !Appears(data, c)
    ensures ContigTotal(data, c) == 0.0
    decreases |data|
  {
    if data != [] {
      var n := |data| - 1;
      assert data == data[..n] + [data[n]];
      AppearsSnoc(data[..n], data[n]);
      ContigTotalAbsent(data[..n], c);
      SumForAbsent(data[n].1, c);
    }
  }

  lemma {:induction false} SumForAbsent(contigs: ContigSums, c: string)
    requires !HasContig(contigs, c)
    ensures SumFor(contigs, c) == 0.0
    decreases |contigs|
  {
    if contigs != [] {
      var n := |contigs| - 1;
      assert contigs == contigs[..n] + [contigs[n]];
      HasContigSnoc(contigs[..n], contigs[n]);
      SumForAbsent(contigs[..n], c);
    }
  }

  /** The inner loop of the passing set: one sample's contigs whose total is above `reqCov`. */
  method AddPassing(passing: set<string>, contigs: ContigSums, perContig: map<string, real>, reqCov: real)
    returns (passing': set<string>)
    requires forall j :: 0 <= j < |contigs| ==> contigs[j].0 in perContig
    ensures forall c :: c in passing' <==> c in passing || (HasContig(contigs, c) && perContig[c] > reqCov)
  {
    passing' := passing;
    for j := 0 to |contigs|
      invariant forall c :: c in passing' <==> c in passing || (HasContig(contigs[..j], c) && perContig[c] > reqCov)
    {
      HasContigSnoc(contigs[..j], contigs[j]);
      assert contigs[..j + 1] == contigs[..j] + [contigs[j]];
      var contig := contigs[j].0;
      if perContig[contig] > reqCov {
        if contig !in passing' {
          passing' := passing' + {contig};
        }
      }
    }
    assert contigs[..|contigs|] == contigs;
  }

  /** The second loop: the set of contigs whose total is above `reqCov`. */
  method PassingContigs(data: PerSample, perContig: map<string, real>, reqCov: real) returns (passing: set<string>)
    requires forall c :: Appears(data, c) ==> c in perContig
    ensures forall c :: c in passing <==> Appears(data, c) && perContig[c] > reqCov
  {
    passing := {};
    for i := 0 to |data|
      invariant forall c :: c in passing <==> Appears(data[..i], c) && perContig[c] > reqCov
    {
      assert data[..i + 1] == data[..i] + [data[i]];
      AppearsSnoc(data[..i], data[i]);
      forall j | 0 <= j < |data[i].1| ensures data[i].1[j].0 in perContig {
        assert HasContig(data[i].1, data[i].1[j].0);
      }
      passing := AddPassing(passing, data[i].1, perContig, reqCov);
    }
    assert data[..|data|] == data;
  }

  /** The inner loop of the filter: one sample's passing contigs, and its rejected ones. */
  method FilterSample(contigs: ContigSums, passing: set<string>, ghost data: PerSample, ghost cutoff: real)
    returns (kept: ContigSums, rejected: set<string>)
    requires forall j :: 0 <= j < |contigs| ==> (contigs[j].0 in passing <==> Passes(data, contigs[j].0, cutoff))
    ensures kept == KeptContigs(contigs, data, cutoff)
    ensures forall c :: c in rejected <==> HasContig(contigs, c) && c !in passing
  {
    kept, rejected := [], {};
    for j := 0 to |contigs|
      invariant kept == KeptContigs(contigs[..j], data, cutoff)
      invariant forall c :: c in rejected <==> HasContig(contigs[..j], c) && c !in passing
    {
      assert contigs[..j + 1][..j] == contigs[..j];
      assert contigs[..j + 1] == contigs[..j] + [contigs[j]];
      HasContigSnoc(contigs[..j], contigs[j]);
      var (contig, sum) := contigs[j];
      if contig !in passing {
        rejected := rejected + {contig};
      } else {
        kept := kept + [(contig, sum)];
      }
    }
    assert contigs[..|contigs|] == contigs;
  }

  /**
   * The third loop: the rejected contigs, and the per-sample sums of the
   * passing ones (a sample without a passing contig is left out).
   */
  method FilterContigs(data: PerSample, passing: set<string>, ghost cutoff: real)
    returns (filtered: PerSample, rejected: set<string>)
    requires forall c :: Appears(data, c) ==> (c in passing <==> Passes(data, c, cutoff))
    ensures filtered == Filtered(data, cutoff)
    ensures forall c :: c in rejected <==> Appears(data, c) && c !in passing
  {
    filtered, rejected := [], {};
    for i := 0 to |data|
      invariant filtered == FilteredRows(data[..i], data, cutoff)
      invariant forall c :: c in rejected <==> Appears(data[..i], c) && c !in passing
    {
      assert data[..i + 1][..i] == data[..i];
      assert data[..i + 1] == data[..i] + [data[i]];
      AppearsSnoc(data[..i], data[i]);
      forall j | 0 <= j < |data[i].1| ensures data[i].1[j].0 in passing <==> Passes(data, data[i].1[j].0, cutoff) {
        assert HasContig(data[i].1, data[i].1[j].0);
      }
      var kept, rejectedHere := FilterSample(data[i].1, passing, data, cutoff);
      rejected := rejected + rejectedHere;
      if kept != [] {
        filtered := filtered + [(data[i].0, kept)];
      }
    }
    assert data[..|data|] == data;
  }

  /** The correction loop: every remaining value is lowered by 1 in place. */
  method SubtractOne(rows: PerSample) returns (out: PerSample)
    ensures out == Decremented(rows)
  {
    out := rows;
    for i := 0 to |rows|
      invariant |out| == |rows|
      invariant forall k :: 0 <= k < i ==> out[k] == Decremented(rows)[k]
      invariant forall k :: i <= k < |rows| ==> out[k] == rows[k]
    {
      var row := out[i].1;
      for j := 0 to |row|
        invariant |row| == |rows[i].1|
        invariant forall m :: 0 <= m < j ==> row[m] == (rows[i].1[m].0, rows[i].1[m].1 - 1.0)
        invariant forall m :: j <= m < |row| ==> row[m] == rows[i].1[m]
      {
        row := row[j := (row[j].0, row[j].1 - 1.0)];
      }
      assert row == Decremented(rows)[i].1;
      out := out[i := (out[i].0, row)];
    }
  }

  /**
   * The cutoff and the correction together: the contigs that occur and do
   * not pass are rejected, and the passing ones are kept, lowered by 1.
   */
  method ContigCutoff(data: PerSample, cutoff: real) returns (corrected: PerSample, rejected: set<string>)
    ensures forall c :: c in rejected <==> Appears(data, c) && !Passes(data, c, cutoff)
    ensures corrected == Decremented(Filtered(data, cutoff))
  {
    var perContig, total := ContigTotals(data);
    var reqCov := total * cutoff;
    var passing := PassingContigs(data, perContig, reqCov);
    var filtered;
    filtered, rejected := FilterContigs(data, passing, cutoff);
    corrected := SubtractOne(filtered);
  }

  // ---- what the cutoff means ----

  lemma {:induction false} KeptContigsSpec(contigs: ContigSums, data: PerSample, cutoff: real, c: string, v: real)
    ensures (c, v) in KeptContigs(contigs, data, cutoff) <==> (c, v) in contigs && Passes(data, c, cutoff)
    decreases |contigs|
  {
    if contigs != [] {
      var n := |contigs| - 1;
      assert contigs == contigs[..n] + [contigs[n]];
      KeptContigsSpec(contigs[..n], data, cutoff, c, v);
    }
  }

  /** The filtered rows are the passing contigs of the rows, and none is empty. */
  lemma {:induction false} FilteredRowsSpec(rows: PerSample, data: PerSample, cutoff: real, s: string, c: string, v: real)
    ensures Entry(FilteredRows(rows, data, cutoff), s, c, v) <==> Entry(rows, s, c, v) && Passes(data, c, cutoff)
    decreases |rows|
  {
    if rows != [] {
      var n := |rows| - 1;
      var front := rows[..n];
      var last := rows[n];
      FilteredRowsSpec(front, data, cutoff, s, c, v);
      KeptContigsSpec(last.1, data, cutoff, c, v);
      var kept := KeptContigs(last.1, data, cutoff);
      var prev := FilteredRows(front, data, cutoff);
      assert rows == front + [last];
      EntrySnoc(front, last, s, c, v);
      EntrySnoc(prev, (last.0, kept), s, c, v);
      assert prev + [] == prev;
    }
  }

  lemma EntrySnoc(rows: PerSample, row: (string, ContigSums), s: string, c: string, v: real)
    ensures Entry(rows + [row], s, c, v) <==> Entry(rows, s, c, v) || (row.0 == s && (c, v) in row.1)
  {
    if Entry(rows + [row], s, c, v) {
      var i :| 0 <= i < |rows| + 1 && (rows + [row])[i].0 == s && (c, v) in (rows + [row])[i].1;
      if i < |rows| {
        assert rows[i] == (rows + [row])[i];
      }
    }
    if Entry(rows, s, c, v) {
      var i :| 0 <= i < |rows| && rows[i].0 == s && (c, v) in rows[i].1;
      assert (rows + [row])[i] == rows[i];
    }
    assert (rows + [row])[|rows|] == row;
  }

  lemma {:induction false} FilteredRowsNonEmpty(rows: PerSample, data: PerSample, cutoff: real)
    ensures forall i :: 0 <= i < |FilteredRows(rows, data, cutoff)| ==> FilteredRows(rows, data, cutoff)[i].1 != []
    decreases |rows|
  {
    if rows != [] {
      FilteredRowsNonEmpty(rows[..|rows| - 1], data, cutoff);
    }
  }

  /**
   * A contig survives in a sample iff its total across all samples is
   * strictly above `cutoff` times the grand total, and then with the value
   * that sample held; no sample is left without contigs.
   */
  lemma ContigSurvives(data: PerSample, cutoff: real, s: string, c: string, v: real)
    ensures Entry(Filtered(data, cutoff), s, c, v) <==> Entry(data, s, c, v) && Passes(data, c, cutoff)
    ensures Entry(data, s, c, v) ==> Appears(data, c)
    ensures forall i :: 0 <= i < |Filtered(data, cutoff)| ==> Filtered(data, cutoff)[i].1 != []
  {
    FilteredRowsSpec(data, data, cutoff, s, c, v);
    FilteredRowsNonEmpty(data, data, cutoff);
    if Entry(data, s, c, v) {
      var i :| 0 <= i < |data| && data[i].0 == s && (c, v) in data[i].1;
      var j :| 0 <= j < |data[i].1| && data[i].1[j] == (c, v);
      assert HasContig(data[i].1, c);
    }
  }

  /** The correction lowers every value by exactly 1 and keeps every sample and contig. */
  lemma DecrementedEntries(rows: PerSample, s: string, c: string, v: real)
    ensures Entry(Decremented(rows), s, c, v - 1.0) <==> Entry(rows, s, c, v)
  {
    var out := Decremented(rows);
    if Entry(rows, s, c, v) {
      var i :| 0 <= i < |rows| && rows[i].0 == s && (c, v) in rows[i].1;
      var j :| 0 <= j < |rows[i].1| && rows[i].1[j] == (c, v);
      assert out[i].1[j] == (c, v - 1.0);
    }
    if Entry(out, s, c, v - 1.0) {
      var i :| 0 <= i < |out| && out[i].0 == s && (c, v - 1.0) in out[i].1;
      var j :| 0 <= j < |out[i].1| && out[i].1[j] == (c, v - 1.0);
      assert rows[i].1[j] == (c, v);
    }
  }
}

=== FILE: coverage_dist.dfy ===
/**
 * Coverage-distribution statistics of the coverage module: reading the
 * `{prefix}.mosdepth.region.dist.txt` lines of a sample into its cumulative
 * distribution (depth -> fraction of bases covered at least that deep), the
 * "{t}_x_pc" threshold percentages and the median coverage.
 */
module CoverageDist {
  import opened Wrappers
  import opened PyStr
  import opened Dicts
  import CoverageConfig

  /** A cumulative coverage distribution: depth -> fraction of bases covered at least that deep. */
  type Distribution = map<int, real>

  /** The general-statistics columns of one sample. */
  datatype GenStats = GenStats(pct: map<string, real>, median: Option<int>)

  /** One distribution file found for a sample: its cleaned name and its lines, newline included. */
  datatype CovFile = CovFile(sampleName: string, lines: seq<string>)

  const TotalContig: string := "total"
  /** The exact third field that makes a line uninformative (only with its newline). */
  const ZeroFractionField: string := "0.00\n"
  const MedianFraction: real := 0.5

  // ---------------------------------------------------------------------------
  // Threshold percentages
  // ---------------------------------------------------------------------------

  /** The general-statistics key "{t}_x_pc". */
  function ThresholdKey(t: int): string {
    IntToString(t) + "_x_pc"
  }

  lemma ThresholdKeyInjective(a: int, b: int)
    requires ThresholdKey(a) == ThresholdKey(b)
    ensures a == b
  {
    var ka, kb := IntToString(a), IntToString(b);
    assert |ka| == |kb|;
    assert ka == ThresholdKey(a)[..|ka|];
    assert kb == ThresholdKey(b)[..|kb|];
    IntToStringInjective(a, b);
  }

  /** Different thresholds get different keys. */
  lemma ThresholdKeyDistinct(a: int, b: int)
    requires a != b
    ensures ThresholdKey(a) != ThresholdKey(b)
  {
    if ThresholdKey(a) == ThresholdKey(b) {
      ThresholdKeyInjective(a, b);
      assert false;
    }
  }

  /** The percentage reported for threshold `t`: the fraction at exactly depth `t`, or 0. */
  function ThresholdPct(dist: Distribution, t: int): real {
    (if t in dist then dist[t] else 0.0) * 100.0
  }

  /**
   * genstats_cov_thresholds: the "{t}_x_pc" entries, assigned in the order of
   * the thresholds.
   */
  function GenstatsCovThresholds(dist: Distribution, threshs: seq<int>): map<string, real>
    decreases |threshs|
  {
    if threshs == [] then map[]
    else
      var t := threshs[|threshs| - 1];
      GenstatsCovThresholds(dist, threshs[..|threshs| - 1])[ThresholdKey(t) := ThresholdPct(dist, t)]
  }

  /**
   * One "{t}_x_pc" entry per requested threshold, holding 100 times the
   * fraction at depth `t`, or 0 when that depth is absent.
   */
  lemma {:induction false} GenstatsHasEveryThreshold(dist: Distribution, threshs: seq<int>, t: int)
    requires t in threshs
    ensures var stats := GenstatsCovThresholds(dist, threshs);
      ThresholdKey(t) in stats && stats[ThresholdKey(t)] == ThresholdPct(dist, t)
    decreases |threshs|
  {
    var n := |threshs| - 1;
    var front := threshs[..n];
    if threshs[n] != t {
      assert threshs == front + [threshs[n]];
      GenstatsHasEveryThreshold(dist, front, t);
      ThresholdKeyDistinct(t, threshs[n]);
    }
  }

  /** Every entry belongs to one of the requested thresholds. */
  lemma {:induction false} GenstatsOnlyThresholds(dist: Distribution, threshs: seq<int>, k: string)
    requires k in GenstatsCovThresholds(dist, threshs)
    ensures exists t :: t in threshs && k == ThresholdKey(t)
    decreases |threshs|
  {
    var n := |threshs| - 1;
    var front := threshs[..n];
    assert threshs == front + [threshs[n]];
    if k != ThresholdKey(threshs[n]) {
      GenstatsOnlyThresholds(dist, front, k);
    }
  }

  lemma GenstatsSnoc(dist: Distribution, front: seq<int>, t: int)
    ensures GenstatsCovThresholds(dist, front + [t]).Keys == GenstatsCovThresholds(dist, front).Keys + {ThresholdKey(t)}
    ensures Elems(front + [t]) == Elems(front) + {t}
  {
    assert (front + [t])[..|front|] == front;
  }

  lemma CardAdd<T>(a: set<T>, x: T)
    ensures |a + {x}| == if x in a then |a| else |a| + 1
  {
    if x in a {
      assert a + {x} == a;
    }
  }

  /** There are exactly as many keys as distinct thresholds. */
  lemma {:induction false} GenstatsKeyCount(dist: Distribution, threshs: seq<int>)
    ensures |GenstatsCovThresholds(dist, threshs).Keys| == |Elems(threshs)|
    decreases |threshs|
  {
    if threshs != [] {
      var n := |threshs| - 1;
      var t := threshs[n];
      var front := threshs[..n];
      assert threshs == front + [t];
      GenstatsKeyCount(dist, front);
      GenstatsSnoc(dist, front, t);
      var keys := GenstatsCovThresholds(dist, front).Keys;
      CardAdd(keys, ThresholdKey(t));
      CardAdd(Elems(front), t);
      if t in front {
        GenstatsHasEveryThreshold(dist, front, t);
      } else {
        forall k | k in keys ensures k != ThresholdKey(t) {
          GenstatsOnlyThresholds(dist, front, k);
          var u :| u in front && k == ThresholdKey(u);
          ThresholdKeyDistinct(u, t);
        }
      }
    }
  }

  // ---------------------------------------------------------------------------
  // Median coverage
  // ---------------------------------------------------------------------------

  lemma NonEmptyHasMember(s: set<int>)
    requires s != {}
    ensures exists y :: y in s
  {
    if forall y :: y !in s {
      assert false;
    }
  }

  lemma {:induction false} MaxExists(s: set<int>)
    requires s != {}
    ensures exists m :: m in s && forall x :: x in s ==> x <= m
    decreases |s|
  {
    NonEmptyHasMember(s);
    var y :| y in s;
    if s - {y} != {} {
      MaxExists(s - {y});
      var m :| m in s - {y} && forall x :: x in s - {y} ==> x <= m;
      var top := if m < y then y else m;
      forall x | x in s ensures x <= top {
        if x != y {
          assert x in s - {y};
        }
      }
    } else {
      assert s == {y};
      assert forall x :: x in s ==> x <= y;
    }
  }

  function MaxOf(s: set<int>): (m: int)
    requires s != {}
    ensures m in s && forall x :: x in s ==> x <= m
  {
    MaxExists(s);
    var m :| m in s && forall x :: x in s ==> x <= m;
    m
  }

  /** `sorted(s, reverse=True)` for a set of distinct depths. */
  function SortedDesc(s: set<int>): (r: seq<int>)
    ensures forall i, j :: 0 <= i < j < |r| ==> r[i] > r[j]
    ensures forall x :: x in s <==> x in r
    decreases |s|
  {
    if s == {} then []
    else
      var m := MaxOf(s);
      [m] + SortedDesc(s - {m})
  }

  /** The scan with early exit: the first depth in `depths` whose fraction reaches one half. */
  function FirstAtLeastHalf(dist: Distribution, depths: seq<int>): (m: Option<int>)
    requires forall i :: 0 <= i < |depths| ==> depths[i] in dist
    ensures m.None? <==> forall i :: 0 <= i < |depths| ==> dist[depths[i]] < MedianFraction
    ensures m.Some? ==> exists k :: (0 <= k < |depths| && depths[k] == m.value
                                     && dist[m.value] >= MedianFraction
                                     && forall i :: 0 <= i < k ==> dist[depths[i]] < MedianFraction)
    decreases |depths|
  {
    if depths == [] then None
    else if dist[depths[0]] >= MedianFraction then Some(depths[0])
    else
      var m := FirstAtLeastHalf(dist, depths[1..]);
      assert m.Some? ==> exists k :: (0 < k < |depths| && depths[k] == m.value && dist[m.value] >= MedianFraction
                                      && forall i :: 0 <= i < k ==> dist[depths[i]] < MedianFraction) by {
        if m.Some? {
          var k :| 0 <= k < |depths| - 1 && depths[1..][k] == m.value && dist[m.value] >= MedianFraction
                   && forall i :: 0 <= i < k ==> dist[depths[1..][i]] < MedianFraction;
          assert forall i :: 1 <= i < k + 1 ==> depths[i] == depths[1..][i - 1];
        }
      }
      m
  }

  /**
   * Scanning the depths from the largest down finds the largest depth whose
   * fraction reaches one half, or nothing when no depth does.
   */
  lemma MedianScan(dist: Distribution, depths: seq<int>)
    requires forall i, j :: 0 <= i < j < |depths| ==> depths[i] > depths[j]
    requires forall i :: 0 <= i < |depths| ==> depths[i] in dist
    requires forall d :: d in dist ==> d in depths
    ensures var m := FirstAtLeastHalf(dist, depths);
      && (m.None? <==> forall d :: d in dist ==> dist[d] < MedianFraction)
      && (m.Some? ==> m.value in dist && dist[m.value] >= MedianFraction)
      && (m.Some? ==> forall d :: d in dist && d > m.value ==> dist[d] < MedianFraction)
  {
    var m := FirstAtLeastHalf(dist, depths);
    if m.None? {
      forall d | d in dist ensures dist[d] < MedianFraction {
        var j :| 0 <= j < |depths| && depths[j] == d;
      }
    } else {
      var k :| 0 <= k < |depths| && depths[k] == m.value && dist[m.value] >= MedianFraction
               && forall i :: 0 <= i < k ==> dist[depths[i]] < MedianFraction;
      forall d | d in dist && d > m.value ensures dist[d] < MedianFraction {
        var j :| 0 <= j < |depths| && depths[j] == d;
        if j >= k {
          assert false;
        }
      }
    }
  }

  /**
   * calc_median_coverage: no result iff no depth reaches one half; otherwise
   * the largest depth whose cumulative fraction is at least one half.
   */
  function CalcMedianCoverage(dist: Distribution): (m: Option<int>)
    ensures m.None? <==> forall d :: d in dist ==> dist[d] < MedianFraction
    ensures m.Some? ==> m.value in dist && dist[m.value] >= MedianFraction
    ensures m.Some? ==> forall d :: d in dist && d > m.value ==> dist[d] < MedianFraction
  {
    var depths := SortedDesc(dist.Keys);
    MedianScan(dist, depths);
    FirstAtLeastHalf(dist, depths)
  }

  /** The general-statistics record of one sample, as parse_cov_dist assembles it. */
  function SampleGenStats(dist: Distribution, threshs: seq<int>): GenStats {
    GenStats(GenstatsCovThresholds(dist, threshs), CalcMedianCoverage(dist))
  }

  // ---------------------------------------------------------------------------
  // The line loop of parse_cov_dist
  // ---------------------------------------------------------------------------

  /** What one line of a distribution file does. */
  datatype LineAction = Skip | Record(depth: int, fraction: real)

  /**
   * One line `contig \t depth \t fraction`: unpacking into three fields fails
   * otherwise; the exact field "0.00\n" is skipped; only "total" rows are
   * recorded, which is the only case where numbers are parsed.
   */
  function ReadLine(line: string, toInt: string -> Option<int>, toReal: string -> Option<real>): (r: Result<LineAction>)
    ensures r.Err? ==> r.error == ValueError
    ensures |Split(line, '\t')| != 3 ==> r == Err(ValueError)
    ensures |Split(line, '\t')| == 3 && Split(line, '\t')[2] == ZeroFractionField ==> r == Ok(Skip)
    ensures |Split(line, '\t')| == 3 && Split(line, '\t')[0] != TotalContig ==> r == Ok(Skip)
    ensures r.Ok? && r.value.Record? ==>
      var fields := Split(line, '\t');
      |fields| == 3 && fields[0] == TotalContig && fields[2] != ZeroFractionField
      && toInt(fields[1]) == Some(r.value.depth) && toReal(fields[2]) == Some(r.value.fraction)
    // a "total" row whose fraction is not "0.00\n" is recorded iff both numbers parse, and raises otherwise
    ensures var fields := Split(line, '\t');
      |fields| == 3 && fields[0] == TotalContig && fields[2] != ZeroFractionField ==>
        && (toInt(fields[1]).Some? && toReal(fields[2]).Some? ==>
              r == Ok(Record(toInt(fields[1]).value, toReal(fields[2]).value)))
        && (toInt(fields[1]).None? || toReal(fields[2]).None? ==> r == Err(ValueError))
    ensures var fields := Split(line, '\t');
      r == Ok(Skip) ==> |fields| == 3 && (fields[2] == ZeroFractionField || fields[0] != TotalContig)
    ensures var fields := Split(line, '\t');
      r.Err? ==> |fields| != 3 || toInt(fields[1]).None? || toReal(fields[2]).None?
  {
    var fields := Split(line, '\t');
    if |fields| != 3 then Err(ValueError)
    else if fields[2] == ZeroFractionField then Ok(Skip)
    else if fields[0] != TotalContig then Ok(Skip)
    else
      match toReal(fields[2])
      case None => Err(ValueError)
      case Some(fraction) =>
        match toInt(fields[1])
        case None => Err(ValueError)
        case Some(depth) => Ok(Record(depth, fraction))
  }

  /** What one line does to the distribution: an assignment, nothing, or an error. */
  function LineStep(line: string, toInt: string -> Option<int>, toReal: string -> Option<real>): Result<Option<(int, real)>> {
    match ReadLine(line, toInt, toReal)
    case Err(e) => Err(e)
    case Ok(Skip) => Ok(None)
    case Ok(Record(depth, fraction)) => Ok(Some((depth, fraction)))
  }

  function LineSteps(lines: seq<string>, toInt: string -> Option<int>, toReal: string -> Option<real>)
    : (steps: seq<Result<Option<(int, real)>>>)
    ensures |steps| == |lines|
    ensures forall i :: 0 <= i < |lines| ==> steps[i] == LineStep(lines[i], toInt, toReal)
  {
    seq(|lines|, i requires 0 <= i < |lines| => LineStep(lines[i], toInt, toReal))
  }

  /** The line is a recorded "total" row for depth `d`. */
  predicate RecordsDepth(line: string, toInt: string -> Option<int>, toReal: string -> Option<real>, d: int) {
    var r := ReadLine(line, toInt, toReal);
    r.Ok? && r.value.Record? && r.value.depth == d
  }

  /** The sample's distribution as the line loop of parse_cov_dist leaves it, or its error. */
  function DistributionOf(lines: seq<string>, toInt: string -> Option<int>, toReal: string -> Option<real>): Result<Distribution> {
    AssignAll(LineSteps(lines, toInt, toReal))
  }

  /**
   * The line loop of parse_cov_dist: the sample's distribution, or the
   * ValueError of the first bad line.
   */
  method ReadDistribution(lines: seq<string>, toInt: string -> Option<int>, toReal: string -> Option<real>)
    returns (r: Result<Distribution>)
    ensures r == DistributionOf(lines, toInt, toReal)
  {
    ghost var steps := LineSteps(lines, toInt, toReal);
    var dist: Distribution := map[];
    for i := 0 to |lines|
      invariant AssignAll(steps[..i]) == Ok(dist)
    {
      AssignAllPrefix(steps, i);
      var action := ReadLine(lines[i], toInt, toReal);
      match action {
        case Err(e) =>
          AssignAllStops(steps, i + 1);
          return Err(e);
        case Ok(Skip) =>
        case Ok(Record(depth, fraction)) =>
          dist := dist[depth := fraction];
      }
    }
    assert steps[..|lines|] == steps;
    return Ok(dist);
  }

  /** The line loop raises iff some line fails to unpack or to parse, and then a ValueError. */
  lemma DistributionFails(lines: seq<string>, toInt: string -> Option<int>, toReal: string -> Option<real>)
    ensures var r := DistributionOf(lines, toInt, toReal);
      && (r.Err? <==> exists i :: 0 <= i < |lines| && ReadLine(lines[i], toInt, toReal).Err?)
      && (r.Err? ==> r.error == ValueError)
  {
    var steps := LineSteps(lines, toInt, toReal);
    AssignAllSpec(steps);
    forall i | 0 <= i < |lines| ensures steps[i].Err? <==> ReadLine(lines[i], toInt, toReal).Err? {
      assert steps[i] == LineStep(lines[i], toInt, toReal);
    }
  }

  /**
   * Which depths the distribution holds: a depth is present iff some line
   * records it (a "total" row, by the contract of ReadLine), and it holds the
   * fraction of the last such line.
   */
  lemma DistributionRows(lines: seq<string>, toInt: string -> Option<int>, toReal: string -> Option<real>, d: int)
    requires DistributionOf(lines, toInt, toReal).Ok?
    ensures var dist := DistributionOf(lines, toInt, toReal).value;
      && (d in dist <==> exists i :: 0 <= i < |lines| && RecordsDepth(lines[i], toInt, toReal, d))
      && (d in dist ==>
            exists i :: (0 <= i < |lines| && ReadLine(lines[i], toInt, toReal) == Ok(Record(d, dist[d]))
                         && forall j :: i < j < |lines| ==> !RecordsDepth(lines[j], toInt, toReal, d)))
  {
    var steps := LineSteps(lines, toInt, toReal);
    AssignAllSpec(steps);
    var dist := AssignAll(steps).value;
    var performed := Performed(steps);
    AssignedLastWins(performed, d);
    forall i | 0 <= i < |lines| ensures Assigns(performed, i, d) <==> RecordsDepth(lines[i], toInt, toReal, d) {
      assert steps[i] == LineStep(lines[i], toInt, toReal);
    }
    if d in dist {
      var i :| IsLastFor(performed, i, d) && dist[d] == performed[i].value.1;
      assert steps[i] == LineStep(lines[i], toInt, toReal);
    }
  }

  // ---------------------------------------------------------------------------
  // The per-file loop of parse_cov_dist
  // ---------------------------------------------------------------------------

  /** What one file does to `genstats_by_sample`: an assignment of its statistics, or an error. */
  function FileStep(f: CovFile, threshs: seq<int>, toInt: string -> Option<int>, toReal: string -> Option<real>)
    : Result<Option<(string, GenStats)>>
  {
    match DistributionOf(f.lines, toInt, toReal)
    case Err(e) => Err(e)
    case Ok(dist) => Ok(Some((f.sampleName, SampleGenStats(dist, threshs))))
  }

  function FileSteps(files: seq<CovFile>, threshs: seq<int>, toInt: string -> Option<int>, toReal: string -> Option<real>)
    : (steps: seq<Result<Option<(string, GenStats)>>>)
    ensures |steps| == |files|
    ensures forall i :: 0 <= i < |files| ==> steps[i] == FileStep(files[i], threshs, toInt, toReal)
  {
    seq(|files|, i requires 0 <= i < |files| => FileStep(files[i], threshs, toInt, toReal))
  }

  /** The general statistics by sample name as parse_cov_dist returns them, or its error. */
  function CovDist(files: seq<CovFile>, threshs: seq<int>, toInt: string -> Option<int>, toReal: string -> Option<real>)
    : Result<map<string, GenStats>>
  {
    AssignAll(FileSteps(files, threshs, toInt, toReal))
  }

  /**
   * parse_cov_dist's loop over the sample files: the general statistics by
   * sample name, or the error of the first file that fails.
   */
  method ParseCovDist(files: seq<CovFile>, threshs: seq<int>, toInt: string -> Option<int>, toReal: string -> Option<real>)
    returns (r: Result<map<string, GenStats>>)
    ensures r == CovDist(files, threshs, toInt, toReal)
  {
    ghost var steps := FileSteps(files, threshs, toInt, toReal);
    var genstats: map<string, GenStats> := map[];
    for i := 0 to |files|
      invariant AssignAll(steps[..i]) == Ok(genstats)
    {
      AssignAllPrefix(steps, i);
      var dist := ReadDistribution(files[i].lines, toInt, toReal);
      if dist.Err? {
        AssignAllStops(steps, i + 1);
        return Err(dist.error);
      }
      genstats := genstats[files[i].sampleName := SampleGenStats(dist.value, threshs)];
    }
    assert steps[..|files|] == steps;
    return Ok(genstats);
  }

  /**
   * What parse_cov_dist yields: a ValueError iff some line of some file
   * fails; otherwise a sample is present iff some file has its name, and it
   * holds the statistics of the last such file.
   */
  lemma CovDistSamples(files: seq<CovFile>, threshs: seq<int>, toInt: string -> Option<int>, toReal: string -> Option<real>, name: string)
    ensures var r := CovDist(files, threshs, toInt, toReal);
      && (r.Err? <==> exists i :: 0 <= i < |files| && DistributionOf(files[i].lines, toInt, toReal).Err?)
      && (r.Err? ==> r.error == ValueError)
      && (r.Ok? ==> (name in r.value <==> exists i :: 0 <= i < |files| && files[i].sampleName == name))
      && (r.Ok? && name in r.value ==>
            exists i :: (0 <= i < |files| && files[i].sampleName == name
                         && DistributionOf(files[i].lines, toInt, toReal).Ok?
                         && r.value[name] == SampleGenStats(DistributionOf(files[i].lines, toInt, toReal).value, threshs)
                         && forall j :: i < j < |files| ==> files[j].sampleName != name))
  {
    CovDistFails(files, threshs, toInt, toReal);
    CovDistName(files, threshs, toInt, toReal, name);
  }

  /** parse_cov_dist raises iff some line of some file fails, and then a ValueError. */
  lemma CovDistFails(files: seq<CovFile>, threshs: seq<int>, toInt: string -> Option<int>, toReal: string -> Option<real>)
    ensures var r := CovDist(files, threshs, toInt, toReal);
      && (r.Err? <==> exists i :: 0 <= i < |files| && DistributionOf(files[i].lines, toInt, toReal).Err?)
      && (r.Err? ==> r.error == ValueError)
  {
    var steps := FileSteps(files, threshs, toInt, toReal);
    AssignAllSpec(steps);
    var r := AssignAll(steps);
    assert forall i :: 0 <= i < |files| ==> (steps[i].Err? <==> DistributionOf(files[i].lines, toInt, toReal).Err?);
    if r.Err? {
      var i :| 0 <= i < |steps| && steps[i].Err? && r.error == steps[i].error;
      DistributionFails(files[i].lines, toInt, toReal);
    }
  }

  /** When parse_cov_dist does not raise, a sample holds the statistics of its last file. */
  lemma CovDistName(files: seq<CovFile>, threshs: seq<int>, toInt: string -> Option<int>, toReal: string -> Option<real>, name: string)
    ensures var r := CovDist(files, threshs, toInt, toReal);
      && (r.Ok? ==> (name in r.value <==> exists i :: 0 <= i < |files| && files[i].sampleName == name))
      && (r.Ok? && name in r.value ==>
            exists i :: (0 <= i < |files| && files[i].sampleName == name
                         && DistributionOf(files[i].lines, toInt, toReal).Ok?
                         && r.value[name] == SampleGenStats(DistributionOf(files[i].lines, toInt, toReal).value, threshs)
                         && forall j :: i < j < |files| ==> files[j].sampleName != name))
  {
    var steps := FileSteps(files, threshs, toInt, toReal);
    AssignAllSpec(steps);
    var r := AssignAll(steps);
    if r.Ok? {
      var performed := Performed(steps);
      AssignedLastWins(performed, name);
      assert forall i :: 0 <= i < |files| ==> (Assigns(performed, i, name) <==> files[i].sampleName == name);
      if name in r.value {
        var i :| IsLastFor(performed, i, name) && r.value[name] == performed[i].value.1;
      }
    }
  }

  /**
   * The module constructor up to the sample check, given what read_config
   * returned or raised: a read_config error comes first; then the
   * distribution files are parsed; then the per-contig cutoff reads
   * `cfg["perchrom_fraction_cutoff"]` (a KeyError when read_config returned
   * {}) over contig sums that are never filled, so it changes nothing else;
   * then the ignored samples are dropped and ModuleNoSamplesFound is raised
   * when none is left.
   */
  function ModuleSamples(cfg: Result<map<string, CoverageConfig.CfgValue>>, files: seq<CovFile>, threshs: seq<int>,
                         toInt: string -> Option<int>, toReal: string -> Option<real>, isIgnored: string -> bool)
    : Result<map<string, GenStats>>
  {
    match cfg
    case Err(e) => Err(e)
    case Ok(c) =>
      match CovDist(files, threshs, toInt, toReal)
      case Err(e) => Err(e)
      case Ok(all) =>
        if CoverageConfig.CutoffKey !in c then Err(KeyError)
        else
          var kept := map s | s in all && !isIgnored(s) :: all[s];
          if kept == map[] then Err(NoSamplesFound) else Ok(kept)
  }

  /**
   * The constructor raises read_config's TypeError before reading any file;
   * then a ValueError iff some distribution line fails; then a KeyError iff
   * the configured `mosdepth_config` is not a mapping; then
   * ModuleNoSamplesFound iff every file's sample is ignored. Otherwise the
   * samples are exactly those of the files that are not ignored.
   */
  lemma ModuleSamplesSpec(mosdepth: Option<CoverageConfig.CfgValue>, files: seq<CovFile>, threshs: seq<int>,
                          toInt: string -> Option<int>, toReal: string -> Option<real>, isIgnored: string -> bool)
    ensures var cfg := CoverageConfig.ReadConfigValue(mosdepth, toReal);
      cfg.Err? ==> ModuleSamples(cfg, files, threshs, toInt, toReal, isIgnored) == Err(TypeError)
    ensures var cfg := CoverageConfig.ReadConfigValue(mosdepth, toReal);
      cfg.Ok? ==> (ModuleSamples(cfg, files, threshs, toInt, toReal, isIgnored) == Err(ValueError)
                   <==> exists i :: 0 <= i < |files| && DistributionOf(files[i].lines, toInt, toReal).Err?)
    ensures var cfg := CoverageConfig.ReadConfigValue(mosdepth, toReal);
      cfg.Ok? && CovDist(files, threshs, toInt, toReal).Ok? ==>
        (ModuleSamples(cfg, files, threshs, toInt, toReal, isIgnored) == Err(KeyError)
         <==> mosdepth.Some? && !mosdepth.value.CDict?)
    ensures var cfg := CoverageConfig.ReadConfigValue(mosdepth, toReal);
      cfg.Ok? && CovDist(files, threshs, toInt, toReal).Ok? && (mosdepth.None? || mosdepth.value.CDict?) ==>
        (ModuleSamples(cfg, files, threshs, toInt, toReal, isIgnored) == Err(NoSamplesFound)
         <==> forall i :: 0 <= i < |files| ==> isIgnored(files[i].sampleName))
    ensures var r := ModuleSamples(CoverageConfig.ReadConfigValue(mosdepth, toReal), files, threshs, toInt, toReal, isIgnored);
      r.Ok? ==> forall s :: s in r.value <==> !isIgnored(s) && exists i :: 0 <= i < |files| && files[i].sampleName == s
  {
    CoverageConfig.ReadConfigHasCutoff(mosdepth, toReal);
    ModuleSamplesOf(CoverageConfig.ReadConfigValue(mosdepth, toReal), files, threshs, toInt, toReal, isIgnored);
  }

  /** ModuleSamples for any outcome of read_config. */
  lemma ModuleSamplesOf(cfg: Result<map<string, CoverageConfig.CfgValue>>, files: seq<CovFile>, threshs: seq<int>,
                        toInt: string -> Option<int>, toReal: string -> Option<real>, isIgnored: string -> bool)
    ensures cfg.Err? ==> ModuleSamples(cfg, files, threshs, toInt, toReal, isIgnored) == Err(cfg.error)
    ensures cfg.Ok? ==> (ModuleSamples(cfg, files, threshs, toInt, toReal, isIgnored) == Err(ValueError)
                         <==> exists i :: 0 <= i < |files| && DistributionOf(files[i].lines, toInt, toReal).Err?)
    ensures cfg.Ok? && CovDist(files, threshs, toInt, toReal).Ok? ==>
      (ModuleSamples(cfg, files, threshs, toInt, toReal, isIgnored) == Err(KeyError) <==> CoverageConfig.CutoffKey !in cfg.value)
    ensures cfg.Ok? && CovDist(files, threshs, toInt, toReal).Ok? && CoverageConfig.CutoffKey in cfg.value ==>
      (ModuleSamples(cfg, files, threshs, toInt, toReal, isIgnored) == Err(NoSamplesFound)
       <==> forall i :: 0 <= i < |files| ==> isIgnored(files[i].sampleName))
    ensures var r := ModuleSamples(cfg, files, threshs, toInt, toReal, isIgnored);
      r.Ok? ==> forall s :: s in r.value <==> !isIgnored(s) && exists i :: 0 <= i < |files| && files[i].sampleName == s
  {
    var dist := CovDist(files, threshs, toInt, toReal);
    CovDistNames(files, threshs, toInt, toReal);
    if cfg.Ok? && dist.Ok? {
      var kept := map s | s in dist.value && !isIgnored(s) :: dist.value[s];
      if forall i :: 0 <= i < |files| ==> isIgnored(files[i].sampleName) {
        assert kept == map[];
      } else {
        var i :| 0 <= i < |files| && !isIgnored(files[i].sampleName);
        assert files[i].sampleName in kept;
      }
    }
  }

  /** parse_cov_dist raises only ValueError, and otherwise has exactly the files' sample names. */
  lemma CovDistNames(files: seq<CovFile>, threshs: seq<int>, toInt: string -> Option<int>, toReal: string -> Option<real>)
    ensures CovDist(files, threshs, toInt, toReal).Err? <==>
      exists i :: 0 <= i < |files| && DistributionOf(files[i].lines, toInt, toReal).Err?
    ensures CovDist(files, threshs, toInt, toReal).Err? ==> CovDist(files, threshs, toInt, toReal).error == ValueError
    ensures CovDist(files, threshs, toInt, toReal).Ok? ==>
      forall s :: s in CovDist(files, threshs, toInt, toReal).value <==> exists i :: 0 <= i < |files| && files[i].sampleName == s
  {
    var dist := CovDist(files, threshs, toInt, toReal);
    CovDistSamples(files, threshs, toInt, toReal, "");
    if dist.Ok? {
      forall s | true
        ensures s in dist.value <==> exists i :: 0 <= i < |files| && files[i].sampleName == s
      {
        CovDistSamples(files, threshs, toInt, toReal, s);
      }
    }
  }

  /**
   * The module constructor up to the sample check: read_config on the host
   * configuration (which it updates in place), then what ModuleSamples says.
   */
  method CoverageSamples(host: CoverageConfig.HostConfig, files: seq<CovFile>, threshs: seq<int>, toInt: string -> Option<int>,
                         toReal: string -> Option<real>, isIgnored: string -> bool)
    returns (r: Result<map<string, GenStats>>)
    modifies host
    ensures r == ModuleSamples(CoverageConfig.ReadConfigValue(old(host.mosdepthConfig), toReal), files, threshs, toInt, toReal, isIgnored)
    ensures host.mosdepthConfig == CoverageConfig.StoredConfig(old(host.mosdepthConfig), toReal) && host.showHide == old(host.showHide)
  {
    var cfg := host.ReadConfig(toReal);
    if cfg.Err? {
      return Err(cfg.error);
    }
    var parsed := ParseCovDist(files, threshs, toInt, toReal);
    if parsed.Err? {
      return parsed;
    }
    if CoverageConfig.CutoffKey !in cfg.value {
      return Err(KeyError);
    }
    var all := parsed.value;
    var kept := map s | s in all && !isIgnored(s) :: all[s];
    if kept == map[] {
      return Err(NoSamplesFound);
    }
    return Ok(kept);
  }
}

=== FILE: demultiplex.dfy ===
/**
 * read_histogram of the Picard demultiplexing module: each metrics file is
 * read line by line, past the sample-name header, to the "## HISTOGRAM"
 * marker; the next line must be the expected column headers; then every row
 * up to the first blank line is formatted column by column and stored under
 * its first formatted field. A sample gets its rows only if at least one row
 * was read.
 */
module Demultiplex {
  import opened Wrappers
  import opened PyStr
  import opened Dicts

  const Marker: string := "## HISTOGRAM"
  const Tab: char := '\t'

  /** A field after formatting (the formats are int, float or str in practice). */
  datatype Value = Int(i: int) | Float(x: real) | Text(s: string)

  /** A histogram row: column header -> formatted field. */
  type Row = ODict<string, Value>
  /** One sample's histogram: formatted first field -> row. */
  type Histogram = ODict<Value, Row>

  /**
   * What the opaque read_sample_name does to a file, cleaning names against
   * the file's directory: the sample name it finds, if any, and how many
   * lines it consumes from the file.
   */
  datatype NameRead = NameRead(name: Option<string>, consumed: nat)

  /** A metrics file: the directory it was found in, and its lines, line ends included. */
  datatype MetricsFile = MetricsFile(root: string, lines: seq<string>)

  // ---------------------------------------------------------------------------
  // Seeking the marker and the end of the rows
  // ---------------------------------------------------------------------------

  /** The first line at or after `from` that starts with the marker. */
  function MarkerIndex(lines: seq<string>, from: nat): (r: Option<nat>)
    requires from <= |lines|
    ensures r.None? <==> forall i {:trigger StartsWith(lines[i], Marker)} :: from <= i < |lines| ==> !StartsWith(lines[i], Marker)
    ensures r.Some? ==> from <= r.value < |lines| && StartsWith(lines[r.value], Marker)
    ensures r.Some? ==> forall i {:trigger StartsWith(lines[i], Marker)} :: from <= i < r.value ==> !StartsWith(lines[i], Marker)
    decreases |lines| - from
  {
    if from == |lines| then None
    else if StartsWith(lines[from], Marker) then Some(from)
    else MarkerIndex(lines, from + 1)
  }

  /** A line that is all whitespace: it ends the histogram. */
  predicate Blank(line: string)
    decreases |line|
  {
    line == [] || (IsSpace(line[|line| - 1]) && Blank(line[..|line| - 1]))
  }

  /** A line is blank exactly when stripping its trailing whitespace leaves nothing. */
  lemma {:induction false} BlankIffStripsEmpty(line: string)
    ensures Blank(line) <==> RStrip(line) == ""
    decreases |line|
  {
    if line != [] {
      BlankIffStripsEmpty(line[..|line| - 1]);
    }
  }

  /** `not line.rstrip()`. */
  method IsBlank(line: string) returns (b: bool)
    ensures b == Blank(line)
  {
    BlankIffStripsEmpty(line);
    b := RStrip(line) == "";
  }

  /** The index of the first blank line at or after `from`, or the number of lines. */
  function BlockEnd(lines: seq<string>, from: nat): (r: nat)
    requires from <= |lines|
    ensures from <= r <= |lines|
    decreases |lines| - from
  {
    if from == |lines| || Blank(lines[from]) then from else BlockEnd(lines, from + 1)
  }

  /** The block ends at a blank line, or at the end of the file, and holds no blank line. */
  lemma {:induction false} BlockEndSpec(lines: seq<string>, from: nat)
    requires from <= |lines|
    ensures BlockEnd(lines, from) < |lines| ==> Blank(lines[BlockEnd(lines, from)])
    ensures forall i {:trigger Blank(lines[i])} :: from <= i < BlockEnd(lines, from) ==> !Blank(lines[i])
    decreases |lines| - from
  {
    if from < |lines| && !Blank(lines[from]) {
      BlockEndSpec(lines, from + 1);
    }
  }

  // ---------------------------------------------------------------------------
  // Rows
  // ---------------------------------------------------------------------------

  /** The first `n` fields formatted, each by its own format; the first error raises. */
  function FormatFields(fields: seq<string>, formats: seq<string -> Result<Value>>, n: nat): (r: Result<seq<Value>>)
    requires n <= |fields| <= |formats|
    ensures r.Ok? ==> |r.value| == n
    decreases n
  {
    if n == 0 then Ok([])
    else
      match FormatFields(fields, formats, n - 1)
      case Err(e) => Err(e)
      case Ok(vals) =>
        match formats[n - 1](fields[n - 1])
        case Err(e) => Err(e)
        case Ok(v) => Ok(vals + [v])
  }

  /**
   * Formatting raises iff some field's format raises, with the error of
   * such a field; otherwise each value is its field formatted.
   */
  lemma {:induction false} FormatFieldsSpec(fields: seq<string>, formats: seq<string -> Result<Value>>, n: nat)
    requires n <= |fields| <= |formats|
    ensures FormatFields(fields, formats, n).Ok? ==>
      forall i :: 0 <= i < n ==> formats[i](fields[i]) == Ok(FormatFields(fields, formats, n).value[i])
    ensures FormatFields(fields, formats, n).Err? <==> exists i :: 0 <= i < n && formats[i](fields[i]).Err?
    ensures FormatFields(fields, formats, n).Err? ==>
      exists i :: 0 <= i < n && formats[i](fields[i]) == Err(FormatFields(fields, formats, n).error)
    decreases n
  {
    if n > 0 {
      FormatFieldsSpec(fields, formats, n - 1);
    }
  }

  /** Once a prefix of the fields fails to format, every longer prefix fails with the same error. */
  lemma {:induction false} FormatFieldsStops(fields: seq<string>, formats: seq<string -> Result<Value>>, i: nat, n: nat)
    requires i <= n <= |fields| <= |formats|
    requires FormatFields(fields, formats, i).Err?
    ensures FormatFields(fields, formats, n) == FormatFields(fields, formats, i)
    decreases n
  {
    if n > i {
      FormatFieldsStops(fields, formats, i, n - 1);
    }
  }

  /** `OrderedDict(zip(headers, values))`: keys in order of first occurrence. */
  function MakeRow(headers: seq<string>, values: seq<Value>): (row: Row)
    requires |headers| == |values|
    ensures row.Valid()
    ensures row.entries == Zipped(headers, values)
    ensures row.keys == Dedup(headers)
    decreases |headers|
  {
    if headers == [] then EmptyDict()
    else
      var n := |headers| - 1;
      assert headers == headers[..n] + [headers[n]];
      DedupSnoc(headers[..n], headers[n]);
      MakeRow(headers[..n], values[..n]).Put(headers[n], values[n])
  }

  /** The entries of `dict(zip(headers, values))`: a repeated header keeps its last value. */
  function Zipped(headers: seq<string>, values: seq<Value>): (m: map<string, Value>)
    requires |headers| == |values|
    ensures |m| <= |headers|
    decreases |headers|
  {
    if headers == [] then map[]
    else
      var n := |headers| - 1;
      Zipped(headers[..n], values[..n])[headers[n] := values[n]]
  }

  /** The keys are exactly the headers. */
  lemma {:induction false} ZippedKeys(headers: seq<string>, values: seq<Value>)
    requires |headers| == |values|
    ensures forall h :: h in Zipped(headers, values) <==> h in headers
    decreases |headers|
  {
    if headers != [] {
      var n := |headers| - 1;
      ZippedKeys(headers[..n], values[..n]);
      assert headers == headers[..n] + [headers[n]];
    }
  }

  /** Column `i` is the last column with its header. */
  predicate LastColumn(headers: seq<string>, i: int) {
    0 <= i < |headers| && forall j :: i < j < |headers| ==> headers[j] != headers[i]
  }

  /** Each header holds the value of its last column. */
  lemma {:induction false} ZippedLastWins(headers: seq<string>, values: seq<Value>)
    requires |headers| == |values|
    ensures forall i :: LastColumn(headers, i) ==>
      headers[i] in Zipped(headers, values) && Zipped(headers, values)[headers[i]] == values[i]
    decreases |headers|
  {
    if headers != [] {
      var n := |headers| - 1;
      ZippedLastWins(headers[..n], values[..n]);
      forall i | LastColumn(headers, i)
        ensures headers[i] in Zipped(headers, values) && Zipped(headers, values)[headers[i]] == values[i]
      {
        if i < n {
          assert headers[..n][i] == headers[i] && values[..n][i] == values[i];
          assert LastColumn(headers[..n], i);
        }
      }
    }
  }

  /**
   * One row line: split on tabs after stripping the line end; a field count
   * other than the header count fails the assert; then each field is
   * formatted, and the row is keyed by its formatted first field.
   */
  function RowStep(line: string, headers: seq<string>, formats: seq<string -> Result<Value>>)
    : (r: Result<Option<(Value, Row)>>)
    requires |formats| == |headers|
    ensures r != Ok(None)
  {
    var fields := Split(RStrip(line), Tab);
    if |fields| != |headers| then Err(AssertionError)
    else
      match FormatFields(fields, formats, |fields|)
      case Err(e) => Err(e)
      case Ok(vals) => Ok(Some((vals[0], MakeRow(headers, vals))))
  }

  /**
   * A row line fails the assert iff its field count is not the header
   * count; otherwise it raises iff some field does not format, with the
   * error of such a field; when it succeeds it is keyed by its first
   * formatted field and maps every header to the formatted field in the
   * header's last column.
   */
  lemma RowStepSpec(line: string, headers: seq<string>, formats: seq<string -> Result<Value>>)
    requires |formats| == |headers|
    ensures var fields := Split(RStrip(line), Tab);
      |fields| != |headers| ==> RowStep(line, headers, formats) == Err(AssertionError)
    ensures var fields := Split(RStrip(line), Tab);
      |fields| == |headers| ==>
        (RowStep(line, headers, formats).Err? <==> exists i :: 0 <= i < |fields| && formats[i](fields[i]).Err?)
    ensures var fields := Split(RStrip(line), Tab);
      |fields| == |headers| && RowStep(line, headers, formats).Err? ==>
        exists i :: 0 <= i < |fields| && formats[i](fields[i]) == Err(RowStep(line, headers, formats).error)
    ensures RowStep(line, headers, formats).Ok? ==>
      var fields := Split(RStrip(line), Tab);
      var row := RowStep(line, headers, formats).value.value.1;
      |fields| == |headers| && formats[0](fields[0]) == Ok(RowStep(line, headers, formats).value.value.0)
      && row.Valid() && (forall h :: h in row.entries <==> h in headers) && row.keys == Dedup(headers)
      && forall i :: LastColumn(headers, i) ==> formats[i](fields[i]) == Ok(row.entries[headers[i]])
  {
    var fields := Split(RStrip(line), Tab);
    if |fields| == |headers| {
      var f := FormatFields(fields, formats, |fields|);
      FormatFieldsSpec(fields, formats, |fields|);
      if f.Ok? {
        ZippedKeys(headers, f.value);
        ZippedLastWins(headers, f.value);
      }
    }
  }

  /** The step of one row line, as a function of the line. */
  function RowOf(headers: seq<string>, formats: seq<string -> Result<Value>>): string -> Result<Option<(Value, Row)>>
    requires |formats| == |headers|
  {
    line => RowStep(line, headers, formats)
  }

  /**
   * One file's histogram after its sample name: nothing without a marker,
   * without a line after it, or when that line is not exactly the headers;
   * otherwise the rows up to the first blank line or the end of the file.
   */
  function FileHistogram(lines: seq<string>, headers: seq<string>, formats: seq<string -> Result<Value>>)
    : (r: Result<Histogram>)
    requires |formats| == |headers|
    ensures MarkerIndex(lines, 0).None? ==> r == Ok(EmptyDict())
    ensures r.Ok? ==> r.value.Valid()
  {
    match MarkerIndex(lines, 0)
    case None => Ok(EmptyDict())
    case Some(m) =>
      if m + 1 == |lines| || Split(Strip(lines[m + 1]), Tab) != headers then Ok(EmptyDict())
      else BlockRows(lines, m + 2, headers, formats)
  }

  /** The rows from `start` up to the first blank line or the end of the file. */
  function BlockRows(lines: seq<string>, start: nat, headers: seq<string>, formats: seq<string -> Result<Value>>)
    : Result<Histogram>
    requires start <= |lines| && |formats| == |headers|
  {
    Rows(lines, start, BlockEnd(lines, start), headers, formats)
  }

  /** The result of reading the row lines `lines[start..end]`, one after the other. */
  function Rows(lines: seq<string>, start: nat, end: nat, headers: seq<string>, formats: seq<string -> Result<Value>>)
    : Result<Histogram>
    requires start <= end <= |lines| && |formats| == |headers|
  {
    AssignAllOrdered(StepsOver(lines, start, end, RowOf(headers, formats)))
  }

  /**
   * Reading row lines raises iff one of them raises (a wrong number of
   * fields, or a field that does not format), and then with the error of
   * the first such line.
   */
  lemma RowsFail(lines: seq<string>, start: nat, end: nat, headers: seq<string>, formats: seq<string -> Result<Value>>)
    requires start <= end <= |lines| && |formats| == |headers|
    ensures var row := RowOf(headers, formats);
      Rows(lines, start, end, headers, formats).Err? <==> exists i :: start <= i < end && row(lines[i]).Err?
    ensures var row := RowOf(headers, formats);
      Rows(lines, start, end, headers, formats).Err? ==>
        exists i :: start <= i < end && row(lines[i]) == Err(Rows(lines, start, end, headers, formats).error)
                    && forall j :: start <= j < i ==> row(lines[j]).Ok?
  {
    AssignAllOrderedSpec(StepsOver(lines, start, end, RowOf(headers, formats)));
    StepsOverFail(lines, start, end, RowOf(headers, formats));
  }

  /**
   * When row lines are read without error, a key is present iff some line
   * is keyed by it, and it holds the row built from the last such line: a
   * repeated key overwrites, but keeps the place of its first line.
   */
  lemma RowsKeys(lines: seq<string>, start: nat, end: nat, headers: seq<string>, formats: seq<string -> Result<Value>>, k: Value)
    requires start <= end <= |lines| && |formats| == |headers|
    requires Rows(lines, start, end, headers, formats).Ok?
    ensures var row := RowOf(headers, formats);
      k in Rows(lines, start, end, headers, formats).value.entries <==> exists i :: ItemAssigns(lines, start, end, row, i, k)
    ensures var row := RowOf(headers, formats);
      k in Rows(lines, start, end, headers, formats).value.entries ==>
        exists i :: ItemAssigns(lines, start, end, row, i, k)
                    && (forall j :: i < j ==> !ItemAssigns(lines, start, end, row, j, k))
                    && Rows(lines, start, end, headers, formats).value.entries[k] == row(lines[i]).value.value.1
    ensures Rows(lines, start, end, headers, formats).value.keys
      == Dedup(AssignedKeys(StepsOver(lines, start, end, RowOf(headers, formats))))
  {
    AssignAllOrderedSpec(StepsOver(lines, start, end, RowOf(headers, formats)));
    StepsOverKeys(lines, start, end, RowOf(headers, formats), k);
  }

  /** The loop that formats each field in place: `fields[i] = formats[i](fields[i])`. */
  method FormatRow(fields: seq<string>, formats: seq<string -> Result<Value>>) returns (r: Result<seq<Value>>)
    requires |fields| == |formats|
    ensures r == FormatFields(fields, formats, |fields|)
  {
    var vals: seq<Value> := [];
    for i := 0 to |fields|
      invariant FormatFields(fields, formats, i) == Ok(vals)
    {
      var v := formats[i](fields[i]);
      if v.Err? {
        FormatFieldsStops(fields, formats, i + 1, |fields|);
        return Err(v.error);
      }
      vals := vals + [v.value];
    }
    return Ok(vals);
  }

  /** One row line: the assert on the field count, then the formatting loop. */
  method ReadRow(line: string, headers: seq<string>, formats: seq<string -> Result<Value>>)
    returns (r: Result<Option<(Value, Row)>>)
    requires |formats| == |headers|
    ensures r == RowStep(line, headers, formats)
  {
    var fields := Split(RStrip(line), Tab);
    if |fields| != |headers| {
      return Err(AssertionError);
    }
    var vals := FormatRow(fields, formats);
    if vals.Err? {
      return Err(vals.error);
    }
    return Ok(Some((vals.value[0], MakeRow(headers, vals.value))));
  }

  /** The row-reading loop: rows from `start` until a blank line or the end of the file. */
  method ReadRows(lines: seq<string>, start: nat, headers: seq<string>, formats: seq<string -> Result<Value>>)
    returns (r: Result<Histogram>)
    requires start <= |lines| && |formats| == |headers|
    ensures r == BlockRows(lines, start, headers, formats)
  {
    BlockEndSpec(lines, start);
    r := ReadRowsTo(lines, start, BlockEnd(lines, start), headers, formats);
  }

  /** Up to the end of the block, the loop stops exactly at the end. */
  lemma BlankAtEnd(lines: seq<string>, start: nat, end: nat, j: nat)
    requires start <= j <= end <= |lines|
    requires end < |lines| ==> Blank(lines[end])
    requires forall i :: start <= i < end ==> !Blank(lines[i])
    ensures (j == |lines| || Blank(lines[j])) <==> j == end
  {
  }

  /**
   * One pass of the row loop: read line `j` and store its row, or raise
   * what it raises, which ends the whole loop.
   */
  method ReadRowInto(lines: seq<string>, start: nat, ghost end: nat, headers: seq<string>,
                     formats: seq<string -> Result<Value>>, j: nat, d: Histogram)
    returns (r: Result<Histogram>)
    requires start <= j < end <= |lines| && |formats| == |headers|
    requires AssignAllOrdered(StepsOver(lines, start, end, RowOf(headers, formats))[..j - start]) == Ok(d)
    ensures r.Err? ==> Rows(lines, start, end, headers, formats) == r
    ensures r.Ok? ==> AssignAllOrdered(StepsOver(lines, start, end, RowOf(headers, formats))[..j - start + 1]) == r
  {
    ghost var steps := StepsOver(lines, start, end, RowOf(headers, formats));
    var row := ReadRow(lines[j], headers, formats);
    assert steps[j - start] == row;
    AssignAllOrderedNext(steps, j - start, d);
    if row.Err? {
      return Err(row.error);
    }
    return Ok(d.Put(row.value.value.0, row.value.value.1));
  }

  /** The row-reading loop, given where the first blank line (or the end of the file) is. */
  method ReadRowsTo(lines: seq<string>, start: nat, ghost end: nat, headers: seq<string>, formats: seq<string -> Result<Value>>)
    returns (r: Result<Histogram>)
    requires start <= end <= |lines| && |formats| == |headers|
    requires end < |lines| ==> Blank(lines[end])
    requires forall i :: start <= i < end ==> !Blank(lines[i])
    ensures r == Rows(lines, start, end, headers, formats)
  {
    var sampleData: Histogram := EmptyDict();
    var j := start;
    ghost var steps := StepsOver(lines, start, end, RowOf(headers, formats));
    var blank := true;
    if j < |lines| {
      blank := IsBlank(lines[j]);
    }
    BlankAtEnd(lines, start, end, j);
    while !blank
      invariant start <= j <= end
      invariant blank <==> j == end
      invariant AssignAllOrdered(steps[..j - start]) == Ok(sampleData)
      decreases |lines| - j
    {
      var next := ReadRowInto(lines, start, end, headers, formats, j, sampleData);
      if next.Err? {
        return next;
      }
      sampleData := next.value;
      j := j + 1;
      if j < |lines| {
        blank := IsBlank(lines[j]);
      } else {
        blank := true;
      }
      BlankAtEnd(lines, start, end, j);
    }
    assert steps[..j - start] == steps;
    return Ok(sampleData);
  }

  /** One file after read_sample_name: seek the marker, check the headers, read the rows. */
  method ReadFileHistogram(lines: seq<string>, headers: seq<string>, formats: seq<string -> Result<Value>>)
    returns (r: Result<Histogram>)
    requires |formats| == |headers|
    ensures r == FileHistogram(lines, headers, formats)
  {
    // next(lines) until a line starts with the marker; running out ends the file
    var i := 0;
    while i < |lines| && !StartsWith(lines[i], Marker)
      invariant i <= |lines| && MarkerIndex(lines, i) == MarkerIndex(lines, 0)
      decreases |lines| - i
    {
      i := i + 1;
    }
    if i == |lines| {
      return Ok(EmptyDict());
    }
    // the header line
    if i + 1 == |lines| {
      return Ok(EmptyDict());
    }
    if headers != Split(Strip(lines[i + 1]), Tab) {
      return Ok(EmptyDict());
    }
    r := ReadRows(lines, i + 2, headers, formats);
  }

  // ---------------------------------------------------------------------------
  // All files
  // ---------------------------------------------------------------------------

  /** The lines read_sample_name leaves to the histogram reader. */
  function Remaining(lines: seq<string>, read: NameRead): seq<string> {
    lines[Min(read.consumed, |lines|)..]
  }

  /**
   * What one file does to `all_data`: nothing when its sample name is not
   * found or it has no rows; else it stores the sample's rows.
   */
  function FileStep(f: MetricsFile, readName: (string, seq<string>) -> NameRead, headers: seq<string>,
                    formats: seq<string -> Result<Value>>): Result<Option<(string, Histogram)>>
    requires |formats| == |headers|
  {
    var read := readName(f.root, f.lines);
    match read.name
    case None => Ok(None)
    case Some(s) =>
      match FileHistogram(Remaining(f.lines, read), headers, formats)
      case Err(e) => Err(e)
      case Ok(h) => if h.keys == [] then Ok(None) else Ok(Some((s, h)))
  }

  /** The step of one file, as a function of the file. */
  function FileOf(readName: (string, seq<string>) -> NameRead, headers: seq<string>, formats: seq<string -> Result<Value>>)
    : MetricsFile -> Result<Option<(string, Histogram)>>
    requires |formats| == |headers|
  {
    f => FileStep(f, readName, headers, formats)
  }

  /**
   * A file raises iff its sample name is found and reading its histogram
   * raises; it stores something iff its sample name is found and its
   * histogram has at least one row, and then it stores that histogram
   * under that name.
   */
  lemma FileStepSpec(f: MetricsFile, readName: (string, seq<string>) -> NameRead, headers: seq<string>,
                     formats: seq<string -> Result<Value>>)
    requires |formats| == |headers|
    ensures var read := readName(f.root, f.lines);
      FileStep(f, readName, headers, formats).Err? <==>
        read.name.Some? && FileHistogram(Remaining(f.lines, read), headers, formats).Err?
    ensures var read := readName(f.root, f.lines);
      var h := FileHistogram(Remaining(f.lines, read), headers, formats);
      (FileStep(f, readName, headers, formats).Ok? && FileStep(f, readName, headers, formats).value.Some?) <==>
        (read.name.Some? && h.Ok? && h.value.entries != map[])
    ensures var read := readName(f.root, f.lines);
      FileStep(f, readName, headers, formats).Ok? && FileStep(f, readName, headers, formats).value.Some? ==>
        FileStep(f, readName, headers, formats).value.value
          == (read.name.value, FileHistogram(Remaining(f.lines, read), headers, formats).value)
  {
    var read := readName(f.root, f.lines);
    var h := FileHistogram(Remaining(f.lines, read), headers, formats);
    if h.Ok? && h.value.keys != [] {
      assert h.value.keys[0] in h.value.entries;
    }
  }

  /** The first marker line is followed by a line whose stripped tab fields are exactly the headers. */
  predicate HeadersFollowMarker(lines: seq<string>, headers: seq<string>) {
    MarkerIndex(lines, 0).Some? && MarkerIndex(lines, 0).value + 1 < |lines|
    && Split(Strip(lines[MarkerIndex(lines, 0).value + 1]), Tab) == headers
  }

  /**
   * When the file has a marker line and the line after the first marker is
   * exactly the expected headers, a file's histogram is what reading the
   * rows after that line up to the first blank line gives; otherwise it is
   * empty and nothing raises.
   */
  lemma FileHistogramSpec(lines: seq<string>, headers: seq<string>, formats: seq<string -> Result<Value>>)
    requires |formats| == |headers|
    ensures HeadersFollowMarker(lines, headers) ==>
      FileHistogram(lines, headers, formats) == BlockRows(lines, MarkerIndex(lines, 0).value + 2, headers, formats)
    ensures !HeadersFollowMarker(lines, headers) ==> FileHistogram(lines, headers, formats) == Ok(EmptyDict())
    ensures var r := FileHistogram(lines, headers, formats);
      (r.Err? || r.value.entries != map[]) ==> HeadersFollowMarker(lines, headers)
  {
    var r := FileHistogram(lines, headers, formats);
    var empty: Histogram := EmptyDict();
    assert empty.entries == map[];
    if MarkerIndex(lines, 0).None? {
      assert r == Ok(empty);
    } else {
      var m := MarkerIndex(lines, 0).value;
      if m + 1 == |lines| || Split(Strip(lines[m + 1]), Tab) != headers {
        assert r == Ok(empty);
      } else {
        assert r == BlockRows(lines, m + 2, headers, formats);
      }
    }
  }

  /** `self.ignore_samples(all_data)`: the samples the host does not ignore, in their order. */
  function KeepNotIgnored(data: ODict<string, Histogram>, isIgnored: string -> bool): (kept: ODict<string, Histogram>)
    requires data.Valid()
    ensures kept.Valid()
    ensures forall s :: s in kept.entries <==> s in data.entries && !isIgnored(s)
    ensures forall s :: s in kept.entries ==> kept.entries[s] == data.entries[s]
    ensures kept.keys == Filter(data.keys, isIgnored)
  {
    var keys := Filter(data.keys, isIgnored);
    ODict(keys, map s | s in data.entries && !isIgnored(s) :: data.entries[s])
  }

  /** The elements the predicate does not hold for, in order. */
  function Filter(xs: seq<string>, isIgnored: string -> bool): (r: seq<string>)
    ensures forall x :: x in r <==> x in xs && !isIgnored(x)
    ensures Distinct(xs) ==> Distinct(r)
    decreases |xs|
  {
    if xs == [] then []
    else
      var rest := Filter(xs[1..], isIgnored);
      assert forall x :: x in xs[1..] ==> x in xs;
      if isIgnored(xs[0]) then rest else [xs[0]] + rest
  }

  /** What read_histogram returns or raises. */
  function Histograms(files: seq<MetricsFile>, readName: (string, seq<string>) -> NameRead, headers: seq<string>,
                      formats: seq<string -> Result<Value>>, isIgnored: string -> bool): (r: Result<ODict<string, Histogram>>)
    ensures |formats| != |headers| ==> r == Err(AssertionError)
    ensures r.Ok? ==> r.value.Valid()
  {
    if |formats| != |headers| then Err(AssertionError)
    else
      match AssignAllOrdered(StepsOver(files, 0, |files|, FileOf(readName, headers, formats)))
      case Err(e) => Err(e)
      case Ok(all) => Ok(KeepNotIgnored(all, isIgnored))
  }

  /**
   * With as many formats as headers, read_histogram raises iff some file
   * raises, and then with the error of the first such file.
   */
  lemma HistogramsFail(files: seq<MetricsFile>, readName: (string, seq<string>) -> NameRead, headers: seq<string>,
                       formats: seq<string -> Result<Value>>, isIgnored: string -> bool)
    requires |formats| == |headers|
    ensures var file := FileOf(readName, headers, formats);
      Histograms(files, readName, headers, formats, isIgnored).Err? <==> exists i :: 0 <= i < |files| && file(files[i]).Err?
    ensures var file := FileOf(readName, headers, formats);
      Histograms(files, readName, headers, formats, isIgnored).Err? ==>
        exists i :: 0 <= i < |files| && file(files[i]) == Err(Histograms(files, readName, headers, formats, isIgnored).error)
                    && forall j :: 0 <= j < i ==> file(files[j]).Ok?
  {
    AssignAllOrderedSpec(StepsOver(files, 0, |files|, FileOf(readName, headers, formats)));
    StepsOverFail(files, 0, |files|, FileOf(readName, headers, formats));
  }

  /**
   * When read_histogram does not raise, a sample is in the result iff it is
   * not ignored and some file stores rows under its name; it holds the
   * histogram of the last such file, and the samples are in the order of
   * their first file.
   */
  lemma HistogramsKeys(files: seq<MetricsFile>, readName: (string, seq<string>) -> NameRead, headers: seq<string>,
                       formats: seq<string -> Result<Value>>, isIgnored: string -> bool, s: string)
    requires |formats| == |headers|
    requires Histograms(files, readName, headers, formats, isIgnored).Ok?
    ensures var file := FileOf(readName, headers, formats);
      s in Histograms(files, readName, headers, formats, isIgnored).value.entries <==>
        !isIgnored(s) && exists i :: ItemAssigns(files, 0, |files|, file, i, s)
    ensures var file := FileOf(readName, headers, formats);
      s in Histograms(files, readName, headers, formats, isIgnored).value.entries ==>
        exists i :: ItemAssigns(files, 0, |files|, file, i, s)
                    && (forall j :: i < j ==> !ItemAssigns(files, 0, |files|, file, j, s))
                    && Histograms(files, readName, headers, formats, isIgnored).value.entries[s] == file(files[i]).value.value.1
    ensures Histograms(files, readName, headers, formats, isIgnored).value.keys
      == Filter(Dedup(AssignedKeys(StepsOver(files, 0, |files|, FileOf(readName, headers, formats)))), isIgnored)
  {
    AssignAllOrderedSpec(StepsOver(files, 0, |files|, FileOf(readName, headers, formats)));
    StepsOverKeys(files, 0, |files|, FileOf(readName, headers, formats), s);
  }

  /** One pass of the file loop: read file `i` and store its rows, or raise what it raises. */
  method ReadFileInto(files: seq<MetricsFile>, readName: (string, seq<string>) -> NameRead, headers: seq<string>,
                      formats: seq<string -> Result<Value>>, i: nat, d: ODict<string, Histogram>)
    returns (r: Result<ODict<string, Histogram>>)
    requires i < |files| && |formats| == |headers|
    requires AssignAllOrdered(StepsOver(files, 0, |files|, FileOf(readName, headers, formats))[..i]) == Ok(d)
    ensures r.Err? ==> AssignAllOrdered(StepsOver(files, 0, |files|, FileOf(readName, headers, formats))) == r
    ensures r.Ok? ==> AssignAllOrdered(StepsOver(files, 0, |files|, FileOf(readName, headers, formats))[..i + 1]) == r
  {
    ghost var steps := StepsOver(files, 0, |files|, FileOf(readName, headers, formats));
    assert steps[i] == FileStep(files[i], readName, headers, formats);
    AssignAllOrderedNext(steps, i, d);
    var read := readName(files[i].root, files[i].lines);
    if read.name.None? {
      return Ok(d);
    }
    var sampleData := ReadFileHistogram(Remaining(files[i].lines, read), headers, formats);
    if sampleData.Err? {
      return Err(sampleData.error);
    }
    if sampleData.value.keys != [] {
      return Ok(d.Put(read.name.value, sampleData.value));
    }
    return Ok(d);
  }

  /**
   * read_histogram: the headers and formats must pair up; then each file
   * whose sample name is found adds its rows, if any, under that name.
   */
  method ReadHistogram(files: seq<MetricsFile>, readName: (string, seq<string>) -> NameRead, headers: seq<string>,
                       formats: seq<string -> Result<Value>>, isIgnored: string -> bool)
    returns (r: Result<ODict<string, Histogram>>)
    ensures r == Histograms(files, readName, headers, formats, isIgnored)
  {
    if |formats| != |headers| {
      return Err(AssertionError);
    }
    ghost var steps := StepsOver(files, 0, |files|, FileOf(readName, headers, formats));
    var allData: ODict<string, Histogram> := EmptyDict();
    for i := 0 to |files|
      invariant AssignAllOrdered(steps[..i]) == Ok(allData)
    {
      var next := ReadFileInto(files, readName, headers, formats, i, allData);
      if next.Err? {
        return next;
      }
      allData := next.value;
    }
    assert steps[..|files|] == steps;
    return Ok(KeepNotIgnored(allData, isIgnored));
  }
}

=== FILE: dicts.dfy ===
/**
 * Python dictionaries built by successive assignments `d[k] = v`: the
 * resulting mapping, the insertion order of its keys, and the rule that a
 * later assignment to the same key wins.
 */
module Dicts {
  import opened Wrappers

  /**
   * The dictionary produced by a sequence of steps, each of which either
   * assigns `d[k] = v` (`Some((k, v))`) or leaves the dictionary alone (`None`).
   */
  function Assigned<K, V>(steps: seq<Option<(K, V)>>): map<K, V>
    decreases |steps|
  {
    if steps == [] then map[]
    else
      var prev := Assigned(steps[..|steps| - 1]);
      match steps[|steps| - 1]
      case None => prev
      case Some(kv) => prev[kv.0 := kv.1]
  }

  /** The dictionary after one more step. */
  lemma AssignedPrefix<K, V>(steps: seq<Option<(K, V)>>, i: int)
    requires 0 <= i < |steps|
    ensures Assigned(steps[..i + 1]) ==
      match steps[i]
      case None => Assigned(steps[..i])
      case Some(kv) => Assigned(steps[..i])[kv.0 := kv.1]
  {
    assert steps[..i + 1][..i] == steps[..i];
  }

  /** Step `i` assigns key `k`. */
  ghost predicate Assigns<K, V>(steps: seq<Option<(K, V)>>, i: int, k: K) {
    0 <= i < |steps| && steps[i].Some? && steps[i].value.0 == k
  }

  /** Step `i` is the last step that assigns key `k`. */
  ghost predicate IsLastFor<K, V>(steps: seq<Option<(K, V)>>, i: int, k: K) {
    Assigns(steps, i, k) && forall j :: i < j < |steps| ==> !Assigns(steps, j, k)
  }

  /**
   * A key is in the dictionary iff some step assigned it, and its value is
   * the one the last such step assigned: a repeated key overwrites the
   * earlier value.
   */
  lemma {:induction false} AssignedLastWins<K, V>(steps: seq<Option<(K, V)>>, k: K)
    ensures k in Assigned(steps) <==> exists i :: Assigns(steps, i, k)
    ensures k in Assigned(steps) ==>
      exists i :: IsLastFor(steps, i, k) && Assigned(steps)[k] == steps[i].value.1
    decreases |steps|
  {
    if steps != [] {
      var n := |steps| - 1;
      var front := steps[..n];
      AssignedLastWins(front, k);
      assert forall i :: 0 <= i < n ==> (Assigns(front, i, k) <==> Assigns(steps, i, k));
      if Assigns(steps, n, k) {
        assert IsLastFor(steps, n, k);
      } else if k in Assigned(front) {
        var i :| IsLastFor(front, i, k) && Assigned(front)[k] == front[i].value.1;
        assert IsLastFor(steps, i, k);
      }
    }
  }

  /** The steps that assign every pair of `pairs` in turn. */
  function AllAssign<K, V>(pairs: seq<(K, V)>): (steps: seq<Option<(K, V)>>)
    ensures |steps| == |pairs|
    ensures forall i :: 0 <= i < |pairs| ==> steps[i] == Some(pairs[i])
  {
    seq(|pairs|, i requires 0 <= i < |pairs| => Some(pairs[i]))
  }

  /**
   * A loop that performs one step per item and stops at the first step that
   * raises: the dictionary built so far, or the first error.
   */
  function AssignAll<K, V>(steps: seq<Result<Option<(K, V)>>>): Result<map<K, V>>
    decreases |steps|
  {
    if steps == [] then Ok(map[])
    else
      match AssignAll(steps[..|steps| - 1])
      case Err(e) => Err(e)
      case Ok(d) =>
        match steps[|steps| - 1]
        case Err(e) => Err(e)
        case Ok(None) => Ok(d)
        case Ok(Some(kv)) => Ok(d[kv.0 := kv.1])
  }

  /** The loop after one more step. */
  lemma AssignAllPrefix<K, V>(steps: seq<Result<Option<(K, V)>>>, i: int)
    requires 0 <= i < |steps|
    ensures AssignAll(steps[..i + 1]) ==
      match AssignAll(steps[..i])
      case Err(e) => Err(e)
      case Ok(d) =>
        match steps[i]
        case Err(e) => Err(e)
        case Ok(None) => Ok(d)
        case Ok(Some(kv)) => Ok(d[kv.0 := kv.1])
  {
    assert steps[..i + 1][..i] == steps[..i];
  }

  /** Once a step raises, the loop ends with that error. */
  lemma {:induction false} AssignAllStops<K, V>(steps: seq<Result<Option<(K, V)>>>, i: int)
    requires 0 <= i <= |steps| && AssignAll(steps[..i]).Err?
    ensures AssignAll(steps) == AssignAll(steps[..i])
    decreases |steps| - i
  {
    if i < |steps| {
      AssignAllPrefix(steps, i);
      AssignAllStops(steps, i + 1);
      assert steps[..i + 1][..i] == steps[..i];
    } else {
      assert steps[..i] == steps;
    }
  }

  /** The assignments of the steps that do not raise. */
  function Performed<K, V>(steps: seq<Result<Option<(K, V)>>>): (out: seq<Option<(K, V)>>)
    ensures |out| == |steps|
    ensures forall i :: 0 <= i < |steps| ==> out[i] == if steps[i].Ok? then steps[i].value else None
  {
    seq(|steps|, i requires 0 <= i < |steps| => if steps[i].Ok? then steps[i].value else None)
  }

  /**
   * The loop raises iff some step raises, and then with the error of the
   * first such step; otherwise it yields the dictionary of all the
   * assignments.
   */
  lemma {:induction false} AssignAllSpec<K, V>(steps: seq<Result<Option<(K, V)>>>)
    ensures AssignAll(steps).Err? <==> exists i :: 0 <= i < |steps| && steps[i].Err?
    ensures AssignAll(steps).Err? ==>
      exists i :: (0 <= i < |steps| && steps[i].Err? && AssignAll(steps).error == steps[i].error
                   && forall j :: 0 <= j < i ==> steps[j].Ok?)
    ensures AssignAll(steps).Ok? ==> AssignAll(steps).value == Assigned(Performed(steps))
    decreases |steps|
  {
    if steps != [] {
      var n := |steps| - 1;
      var front := steps[..n];
      AssignAllSpec(front);
      assert Performed(steps)[..n] == Performed(front);
      assert forall i :: 0 <= i < n ==> front[i] == steps[i];
    }
  }

  /** Step `i` runs and assigns key `k`. */
  ghost predicate OkAssigns<K, V>(steps: seq<Result<Option<(K, V)>>>, i: int, k: K) {
    0 <= i < |steps| && steps[i].Ok? && steps[i].value.Some? && steps[i].value.value.0 == k
  }

  /**
   * When no step raises, a key is in the dictionary iff some step assigned
   * it, with the value of the last step that did.
   */
  lemma AssignAllKeys<K(!new), V>(steps: seq<Result<Option<(K, V)>>>, k: K)
    requires AssignAll(steps).Ok?
    ensures k in AssignAll(steps).value <==> exists i :: OkAssigns(steps, i, k)
    ensures k in AssignAll(steps).value ==>
      exists i :: OkAssigns(steps, i, k) && (forall j :: i < j < |steps| ==> !OkAssigns(steps, j, k))
                  && AssignAll(steps).value[k] == steps[i].value.value.1
  {
    AssignAllSpec(steps);
    var p := Performed(steps);
    AssignedLastWins(p, k);
    assert forall i :: Assigns(p, i, k) <==> OkAssigns(steps, i, k);
  }

  /** One step per item of `xs[from..to]`, each computed by `f`. */
  function StepsOver<T, K, V>(xs: seq<T>, from: nat, to: nat, f: T -> Result<Option<(K, V)>>)
    : (steps: seq<Result<Option<(K, V)>>>)
    requires from <= to <= |xs|
    ensures |steps| == to - from
    ensures forall i :: 0 <= i < to - from ==> steps[i] == f(xs[from + i])
  {
    seq(to - from, i requires 0 <= i < to - from => f(xs[from + i]))
  }

  /** The loop over `xs[from..to]` raises iff some item's step raises, with the first such error. */
  lemma StepsOverFail<T, K, V>(xs: seq<T>, from: nat, to: nat, f: T -> Result<Option<(K, V)>>)
    requires from <= to <= |xs|
    ensures AssignAll(StepsOver(xs, from, to, f)).Err? <==> exists i :: from <= i < to && f(xs[i]).Err?
    ensures AssignAll(StepsOver(xs, from, to, f)).Err? ==>
      exists i :: from <= i < to && f(xs[i]) == Err(AssignAll(StepsOver(xs, from, to, f)).error)
                  && forall j :: from <= j < i ==> f(xs[j]).Ok?
  {
    var steps := StepsOver(xs, from, to, f);
    AssignAllSpec(steps);
    if AssignAll(steps).Err? {
      var i :| 0 <= i < |steps| && steps[i].Err? && AssignAll(steps).error == steps[i].error
               && forall j :: 0 <= j < i ==> steps[j].Ok?;
      assert f(xs[from + i]) == steps[i];
      forall j | from <= j < from + i
        ensures f(xs[j]).Ok?
      {
        assert steps[j - from].Ok?;
      }
    } else {
      forall i | from <= i < to
        ensures f(xs[i]).Ok?
      {
        assert steps[i - from].Ok?;
      }
    }
  }

  /** Item `i` of `xs[from..to]` assigns key `k`. */
  ghost predicate ItemAssigns<T, K, V>(xs: seq<T>, from: nat, to: nat, f: T -> Result<Option<(K, V)>>, i: int, k: K)
    requires to <= |xs|
  {
    from <= i < to && f(xs[i]).Ok? && f(xs[i]).value.Some? && f(xs[i]).value.value.0 == k
  }

  /**
   * When the loop over `xs[from..to]` does not raise, a key is present iff
   * some item assigns it, with the value the last such item assigns.
   */
  lemma StepsOverKeys<T, K(!new), V>(xs: seq<T>, from: nat, to: nat, f: T -> Result<Option<(K, V)>>, k: K)
    requires from <= to <= |xs|
    requires AssignAll(StepsOver(xs, from, to, f)).Ok?
    ensures k in AssignAll(StepsOver(xs, from, to, f)).value <==> exists i :: ItemAssigns(xs, from, to, f, i, k)
    ensures k in AssignAll(StepsOver(xs, from, to, f)).value ==>
      exists i :: ItemAssigns(xs, from, to, f, i, k) && (forall j :: i < j ==> !ItemAssigns(xs, from, to, f, j, k))
                  && AssignAll(StepsOver(xs, from, to, f)).value[k] == f(xs[i]).value.value.1
  {
    var steps := StepsOver(xs, from, to, f);
    AssignAllKeys(steps, k);
    if k in AssignAll(steps).value {
      var i :| OkAssigns(steps, i, k) && (forall j :: i < j < |steps| ==> !OkAssigns(steps, j, k))
               && AssignAll(steps).value[k] == steps[i].value.value.1;
      forall j | from + i < j
        ensures !ItemAssigns(xs, from, to, f, j, k)
      {
        if j < to {
          assert !OkAssigns(steps, j - from, k);
        }
      }
      assert ItemAssigns(xs, from, to, f, from + i, k);
    } else {
      forall i | ItemAssigns(xs, from, to, f, i, k)
        ensures false
      {
        assert OkAssigns(steps, i - from, k);
      }
    }
  }

  /**
   * Two runs of steps one after the other: the first error ends the loop;
   * otherwise the second run's assignments override the first run's.
   */
  lemma {:induction false} AssignAllAppend<K, V>(xs: seq<Result<Option<(K, V)>>>, ys: seq<Result<Option<(K, V)>>>)
    ensures AssignAll(xs + ys) ==
      if AssignAll(xs).Err? then AssignAll(xs)
      else if AssignAll(ys).Err? then AssignAll(ys)
      else Ok(AssignAll(xs).value + AssignAll(ys).value)
    decreases |ys|
  {
    if ys == [] {
      assert xs + ys == xs;
      if AssignAll(xs).Ok? {
        assert AssignAll(xs).value + map[] == AssignAll(xs).value;
      }
    } else {
      var n := |ys| - 1;
      AssignAllAppend(xs, ys[..n]);
      assert (xs + ys)[..|xs| + n] == xs + ys[..n];
      AssignAllPrefix(xs + ys, |xs| + n);
      assert (xs + ys)[..|xs| + n + 1] == xs + ys;
      assert (xs + ys)[|xs| + n] == ys[n];
      if AssignAll(xs).Ok? && AssignAll(ys[..n]).Ok? && ys[n].Ok? && ys[n].value.Some? {
        var kv := ys[n].value.value;
        assert (AssignAll(xs).value + AssignAll(ys[..n]).value)[kv.0 := kv.1]
            == AssignAll(xs).value + AssignAll(ys[..n]).value[kv.0 := kv.1];
      }
    }
  }

  ghost predicate Distinct<T>(xs: seq<T>) {
    forall i, j :: 0 <= i < j < |xs| ==> xs[i] != xs[j]
  }

  /**
   * The list of distinct elements of `xs`, in order of first occurrence:
   * every element is listed once, and the elements are exactly those of `xs`.
   */
  ghost function Dedup<T(!new)>(xs: seq<T>): (r: seq<T>)
    ensures Distinct(r)
    ensures forall x :: x in r <==> x in xs
    decreases |xs|
  {
    if xs == [] then []
    else
      var front := xs[..|xs| - 1];
      var prev := Dedup(front);
      assert xs == front + [xs[|xs| - 1]];
      if xs[|xs| - 1] in prev then prev else prev + [xs[|xs| - 1]]
  }

  /** Appending an element lists it at the end iff it was not listed yet. */
  lemma DedupSnoc<T(!new)>(xs: seq<T>, x: T)
    ensures Dedup(xs + [x]) == if x in Dedup(xs) then Dedup(xs) else Dedup(xs) + [x]
  {
    assert (xs + [x])[..|xs|] == xs;
  }

  /** The set of elements of `xs`. */
  ghost function Elems<T(!new)>(xs: seq<T>): (s: set<T>)
    ensures forall x :: x in s <==> x in xs
    decreases |xs|
  {
    if xs == [] then {}
    else
      assert xs == xs[..|xs| - 1] + [xs[|xs| - 1]];
      Elems(xs[..|xs| - 1]) + {xs[|xs| - 1]}
  }

  /** Whether `x` occurs in `xs` before position `i`. */
  ghost predicate SeenBefore<T>(xs: seq<T>, i: int, x: T)
    requires 0 <= i <= |xs|
  {
    x in xs[..i]
  }

  /**
   * The order of `Dedup(xs)` is the order of first occurrence: an element
   * listed before another one first occurs before it.
   */
  lemma {:induction false} DedupFirstSeenOrder<T(!new)>(xs: seq<T>, a: nat, b: nat)
    requires a < b < |Dedup(xs)|
    ensures exists i, j :: 0 <= i < j < |xs| && xs[i] == Dedup(xs)[a] && xs[j] == Dedup(xs)[b]
                           && !SeenBefore(xs, i, xs[i]) && !SeenBefore(xs, j, xs[j])
    decreases |xs|
  {
    var n := |xs| - 1;
    var front := xs[..n];
    var prev := Dedup(front);
    assert forall k :: 0 <= k <= n ==> xs[..k] == front[..k];
    if b < |prev| {
      DedupFirstSeenOrder(front, a, b);
      var i, j :| 0 <= i < j < |front| && front[i] == prev[a] && front[j] == prev[b]
                  && !SeenBefore(front, i, front[i]) && !SeenBefore(front, j, front[j]);
      assert xs[i] == front[i] && xs[j] == front[j];
    } else {
      assert Dedup(xs) == prev + [xs[n]] && b == |prev| && xs[n] !in front;
      assert a < |prev|;
      var x := prev[a];
      assert x in front;
      var i :| 0 <= i < |front| && front[i] == x;
      var i0 := FirstIndex(front, x, i);
      assert xs[i0] == front[i0];
      assert xs[..n] == front;
    }
  }

  /** The first position at which `x` occurs, given some position where it does. */
  ghost function FirstIndex<T>(xs: seq<T>, x: T, bound: nat): (i: nat)
    requires bound < |xs| && xs[bound] == x
    ensures i <= bound && xs[i] == x && x !in xs[..i]
    decreases bound
  {
    if x in xs[..bound] then
      var k :| 0 <= k < bound && xs[k] == x;
      assert xs[..k] == xs[..bound][..k];
      FirstIndex(xs, x, k)
    else bound
  }

  /** A Python dict with its keys in insertion order. */
  datatype ODict<K(==,!new), V> = ODict(keys: seq<K>, entries: map<K, V>) {

    ghost predicate Valid() {
      Distinct(keys) && (forall k :: k in entries ==> k in keys) && (forall k :: k in keys ==> k in entries)
    }

    /** `d[k] = v`: a new key goes last, an existing key keeps its place. */
    function Put(k: K, v: V): (d: ODict<K, V>)
      ensures Valid() ==> d.Valid()
      ensures d.entries == entries[k := v]
      ensures k in entries ==> d.keys == keys
      ensures k !in entries ==> d.keys == keys + [k]
    {
      if k in entries then ODict(keys, entries[k := v]) else ODict(keys + [k], entries[k := v])
    }
  }

  function EmptyDict<K(==,!new), V>(): (d: ODict<K, V>)
    ensures d.Valid() && d.keys == []
  {
    ODict([], map[])
  }

  /** The loop of `AssignAll` on an ordered dictionary: keys keep the order of their first assignment. */
  function AssignAllOrdered<K(==,!new), V>(steps: seq<Result<Option<(K, V)>>>): (r: Result<ODict<K, V>>)
    ensures r.Ok? ==> r.value.Valid()
    decreases |steps|
  {
    if steps == [] then Ok(EmptyDict())
    else
      match AssignAllOrdered(steps[..|steps| - 1])
      case Err(e) => Err(e)
      case Ok(d) =>
        match steps[|steps| - 1]
        case Err(e) => Err(e)
        case Ok(None) => Ok(d)
        case Ok(Some(kv)) => Ok(d.Put(kv.0, kv.1))
  }

  /** The keys the steps assign, in step order, repeats included. */
  ghost function AssignedKeys<K, V>(steps: seq<Result<Option<(K, V)>>>): (ks: seq<K>)
    ensures |ks| <= |steps|
    decreases |steps|
  {
    if steps == [] then []
    else
      var last := steps[|steps| - 1];
      AssignedKeys(steps[..|steps| - 1]) + if last.Ok? && last.value.Some? then [last.value.value.0] else []
  }

  /**
   * The ordered loop raises what the plain loop raises, and otherwise holds
   * the same entries, with the keys in the order of their first assignment.
   */
  lemma {:induction false} AssignAllOrderedSpec<K(!new), V>(steps: seq<Result<Option<(K, V)>>>)
    ensures AssignAllOrdered(steps).Err? <==> AssignAll(steps).Err?
    ensures AssignAllOrdered(steps).Err? ==> AssignAllOrdered(steps).error == AssignAll(steps).error
    ensures AssignAllOrdered(steps).Ok? ==> AssignAllOrdered(steps).value.entries == AssignAll(steps).value
    ensures AssignAllOrdered(steps).Ok? ==> AssignAllOrdered(steps).value.keys == Dedup(AssignedKeys(steps))
    decreases |steps|
  {
    if steps != [] {
      AssignAllOrderedSpec(steps[..|steps| - 1]);
    }
    AssignAllOrderedKeys(steps);
  }

  /** The keys of the ordered loop are the assigned keys in order of their first assignment. */
  lemma {:induction false} AssignAllOrderedKeys<K(!new), V>(steps: seq<Result<Option<(K, V)>>>)
    ensures AssignAllOrdered(steps).Ok? ==> AssignAllOrdered(steps).value.keys == Dedup(AssignedKeys(steps))
    decreases |steps|
  {
    if steps != [] && AssignAllOrdered(steps).Ok? {
      var front := steps[..|steps| - 1];
      var last := steps[|steps| - 1];
      AssignAllOrderedKeys(front);
      var d := AssignAllOrdered(front).value;
      assert d.keys == Dedup(AssignedKeys(front));
      if last.value.Some? {
        var k := last.value.value.0;
        assert AssignedKeys(steps) == AssignedKeys(front) + [k];
        DedupSnoc(AssignedKeys(front), k);
        assert k in d.entries <==> k in Dedup(AssignedKeys(front));
      } else {
        assert AssignedKeys(steps) == AssignedKeys(front);
      }
    }
  }

  /** The ordered loop after one more step. */
  lemma AssignAllOrderedPrefix<K(!new), V>(steps: seq<Result<Option<(K, V)>>>, i: int)
    requires 0 <= i < |steps|
    ensures AssignAllOrdered(steps[..i + 1]) ==
      match AssignAllOrdered(steps[..i])
      case Err(e) => Err(e)
      case Ok(d) =>
        match steps[i]
        case Err(e) => Err(e)
        case Ok(None) => Ok(d)
        case Ok(Some(kv)) => Ok(d.Put(kv.0, kv.1))
  {
    assert steps[..i + 1][..i] == steps[..i];
  }

  /** The ordered loop after one more step, from a known dictionary: a raising step ends the loop. */
  lemma AssignAllOrderedNext<K(!new), V>(steps: seq<Result<Option<(K, V)>>>, n: int, d: ODict<K, V>)
    requires 0 <= n < |steps| && AssignAllOrdered(steps[..n]) == Ok(d)
    ensures steps[n].Err? ==> AssignAllOrdered(steps) == Err(steps[n].error)
    ensures steps[n] == Ok(None) ==> AssignAllOrdered(steps[..n + 1]) == Ok(d)
    ensures steps[n].Ok? && steps[n].value.Some? ==>
      AssignAllOrdered(steps[..n + 1]) == Ok(d.Put(steps[n].value.value.0, steps[n].value.value.1))
  {
    AssignAllOrderedPrefix(steps, n);
    if steps[n].Err? {
      AssignAllOrderedStops(steps, n + 1);
    }
  }

  /** Once a step raises, the ordered loop ends with that error. */
  lemma {:induction false} AssignAllOrderedStops<K(!new), V>(steps: seq<Result<Option<(K, V)>>>, i: int)
    requires 0 <= i <= |steps| && AssignAllOrdered(steps[..i]).Err?
    ensures AssignAllOrdered(steps) == AssignAllOrdered(steps[..i])
    decreases |steps| - i
  {
    if i < |steps| {
      AssignAllOrderedPrefix(steps, i);
      AssignAllOrderedStops(steps, i + 1);
      assert steps[..i + 1][..i] == steps[..i];
    } else {
      assert steps[..i] == steps;
    }
  }
}

=== FILE: msh2_hotspot.dfy ===
/**
 * The MSH2 hotspot variant-count report (parse_file of the
 * MSH2_hotspot_varcount module): the counts of the wild type and of four
 * splice-site variants of MSH2 c.942+3, each variant turned into its
 * frequency among the reads and flagged for Sanger confirmation when the
 * frequency reaches the configured threshold.
 */
module Msh2Hotspot {
  import opened Wrappers
  import opened PyStr
  import opened Dicts

  /** The wild-type column: kept as it is, and the denominator of every frequency. */
  const WtKey: string := "MSH2_c.942+3_wt"
  const Space: char := ' '

  /**
   * A cell of the report: the text read from the file, or a variant's
   * frequency (percent, rounded to two decimals), its count as written, and
   * whether the variant needs Sanger confirmation (the " - Sangeren!" mark).
   */
  datatype Cell = Raw(text: string) | Called(freq: real, count: string, sanger: bool)

  /** `line.strip().split(" ")[1:6]`: at most five fields after the first. */
  function Fields(line: string): (r: seq<string>)
    ensures |r| <= 5
  {
    Slice(Split(Strip(line), Space), 1, 6)
  }

  /** The keys of a run of pairs, in order. */
  function Firsts(pairs: seq<(string, string)>): (r: seq<string>)
    ensures |r| == |pairs|
    ensures forall i :: 0 <= i < |pairs| ==> r[i] == pairs[i].0
  {
    seq(|pairs|, i requires 0 <= i < |pairs| => pairs[i].0)
  }

  /** The dictionary `d[key] = value` builds from the pairs, one assignment after another. */
  function RawTable(pairs: seq<(string, string)>): (d: ODict<string, string>)
    ensures d.Valid()
    decreases |pairs|
  {
    if pairs == [] then EmptyDict()
    else
      var n := |pairs| - 1;
      RawTable(pairs[..n]).Put(pairs[n].0, pairs[n].1)
  }

  /**
   * The raw dictionary lists each header once, in order of first
   * occurrence, and maps it to the value of the last column with that
   * header.
   */
  lemma {:induction false} RawTableSpec(pairs: seq<(string, string)>)
    ensures RawTable(pairs).keys == Dedup(Firsts(pairs))
    ensures RawTable(pairs).entries == Assigned(AllAssign(pairs))
    decreases |pairs|
  {
    if pairs != [] {
      var n := |pairs| - 1;
      RawTableSpec(pairs[..n]);
      assert Firsts(pairs) == Firsts(pairs[..n]) + [pairs[n].0];
      DedupSnoc(Firsts(pairs[..n]), pairs[n].0);
      assert AllAssign(pairs)[..n] == AllAssign(pairs[..n]);
      AssignedPrefix(AllAssign(pairs), n);
      assert AllAssign(pairs)[..n + 1] == AllAssign(pairs);
    }
  }

  /** The first loop of parse_file: `for key, value in zip(headers, values): parsed_data[key] = value`. */
  method ZipIntoDict(headers: seq<string>, values: seq<string>) returns (d: ODict<string, string>)
    ensures d == RawTable(Zip(headers, values))
  {
    var pairs := Zip(headers, values);
    d := EmptyDict();
    for i := 0 to |pairs|
      invariant d == RawTable(pairs[..i])
    {
      assert pairs[..i + 1][..i] == pairs[..i];
      d := d.Put(pairs[i].0, pairs[i].1);
    }
    assert pairs[..|pairs|] == pairs;
  }

  /** Every value of the raw dictionary, still text. */
  function Lift(raw: ODict<string, string>): (t: ODict<string, Cell>)
    requires raw.Valid()
    ensures t.Valid() && t.keys == raw.keys
    ensures forall k :: k in raw.entries ==> t.entries[k] == Raw(raw.entries[k])
  {
    ODict(raw.keys, map k | k in raw.entries :: Raw(raw.entries[k]))
  }

  /** `parsed_data["MSH2_c.942+3_wt"]`, if present. */
  function WtCell(t: ODict<string, Cell>): Option<Cell> {
    if WtKey in t.entries then Some(t.entries[WtKey]) else None
  }

  /**
   * One pass of the second loop for `variant` with text `counts`: the wild
   * type is kept; any other variant is `int(counts)` (ValueError), then the
   * wild type's count (KeyError when the column is missing, ValueError when
   * it is no integer), then `c / (wt + c) * 100` (ZeroDivisionError when
   * the sum is 0), rounded to two decimals and compared with the threshold.
   */
  function Score(variant: string, counts: string, wt: Option<Cell>, toInt: string -> Option<int>,
                 round: (real, nat) -> real, threshold: real): (r: Result<Cell>)
    ensures variant == WtKey ==> r == Ok(Raw(counts))
    ensures variant != WtKey && toInt(counts).None? ==> r == Err(ValueError)
    ensures variant != WtKey && toInt(counts).Some? && wt.None? ==> r == Err(KeyError)
    ensures variant != WtKey && toInt(counts).Some? && wt.Some? ==>
      var ok := wt.value.Raw? && toInt(wt.value.text).Some?;
      && (!ok ==> r == Err(ValueError))
      && (ok && toInt(wt.value.text).value + toInt(counts).value == 0 ==> r == Err(ZeroDivisionError))
      && (ok && toInt(wt.value.text).value + toInt(counts).value != 0 ==> r.Ok?)
    ensures r.Ok? && variant != WtKey ==>
      && toInt(counts).Some? && wt.Some? && wt.value.Raw? && toInt(wt.value.text).Some?
      && var c := toInt(counts).value;
         var w := toInt(wt.value.text).value;
         && w + c != 0
         && r.value == var freq := round(c as real / (w + c) as real * 100.0, 2); Called(freq, counts, freq >= threshold)
    ensures r.Err? && r.error == ZeroDivisionError ==>
      toInt(counts).Some? && wt.Some? && wt.value.Raw? && toInt(wt.value.text).Some?
      && toInt(wt.value.text).value + toInt(counts).value == 0
  {
    if variant == WtKey then Ok(Raw(counts))
    else
      match toInt(counts)
      case None => Err(ValueError)
      case Some(c) =>
        match wt
        case None => Err(KeyError)
        // int() of a cell already rewritten as "freq(count)" text
        case Some(Called(_, _, _)) => Err(ValueError)
        case Some(Raw(text)) =>
          match toInt(text)
          case None => Err(ValueError)
          case Some(w) =>
            if w + c == 0 then Err(ZeroDivisionError)
            else
              var freq := round(c as real / (w + c) as real * 100.0, 2);
              Ok(Called(freq, counts, freq >= threshold))
  }

  /**
   * The second loop after its first `n` keys: each key's cell is rewritten
   * in place, reading the wild type from the dictionary as it is by then;
   * the first error ends the parse.
   */
  function ScoreUpTo(raw: ODict<string, string>, n: nat, toInt: string -> Option<int>,
                     round: (real, nat) -> real, threshold: real): (r: Result<ODict<string, Cell>>)
    requires raw.Valid() && n <= |raw.keys|
    ensures r.Ok? ==> r.value.Valid() && r.value.keys == raw.keys
    decreases n
  {
    if n == 0 then Ok(Lift(raw))
    else
      match ScoreUpTo(raw, n - 1, toInt, round, threshold)
      case Err(e) => Err(e)
      case Ok(t) =>
        var k := raw.keys[n - 1];
        match Score(k, raw.entries[k], WtCell(t), toInt, round, threshold)
        case Err(e) => Err(e)
        case Ok(c) => Ok(t.Put(k, c))
  }

  /** What parse_file returns or raises on a report's contents. */
  function Hotspot(contents: string, toInt: string -> Option<int>, round: (real, nat) -> real, threshold: real)
    : (r: Result<ODict<string, Cell>>)
    ensures |SplitLines(contents)| < 3 ==> r == Ok(EmptyDict())
    ensures |SplitLines(contents)| == 3 ==> r == Err(IndexError)
    ensures r.Ok? ==> r.value.Valid() && |r.value.keys| <= 5
  {
    var lines := SplitLines(contents);
    if |lines| < 3 then Ok(EmptyDict())
    else if |lines| == 3 then Err(IndexError)
    else
      var raw := RawTable(Zip(Fields(lines[2]), Fields(lines[3])));
      RawTableSpec(Zip(Fields(lines[2]), Fields(lines[3])));
      DedupLength(Firsts(Zip(Fields(lines[2]), Fields(lines[3]))));
      ScoreUpTo(raw, |raw.keys|, toInt, round, threshold)
  }

  /** A list without repeats is no longer than the list. */
  lemma {:induction false} DedupLength<T(!new)>(xs: seq<T>)
    ensures |Dedup(xs)| <= |xs|
    decreases |xs|
  {
    if xs != [] {
      DedupLength(xs[..|xs| - 1]);
    }
  }

  /** parse_file: split the lines, build the raw dictionary, then rewrite each entry in place. */
  method ParseFile(contents: string, toInt: string -> Option<int>, round: (real, nat) -> real, threshold: real)
    returns (r: Result<ODict<string, Cell>>)
    ensures r == Hotspot(contents, toInt, round, threshold)
  {
    var lines := SplitLines(contents);
    if |lines| < 3 {
      return Ok(EmptyDict());
    }
    if |lines| < 4 {
      return Err(IndexError);
    }
    var raw := ZipIntoDict(Fields(lines[2]), Fields(lines[3]));
    var t := Lift(raw);
    for i := 0 to |raw.keys|
      invariant ScoreUpTo(raw, i, toInt, round, threshold) == Ok(t)
    {
      var k := raw.keys[i];
      var cell := Score(k, raw.entries[k], WtCell(t), toInt, round, threshold);
      if cell.Err? {
        ScoreStops(raw, i + 1, toInt, round, threshold);
        return Err(cell.error);
      }
      t := t.Put(k, cell.value);
    }
    return Ok(t);
  }

  /** Once a step fails, the loop ends with that error. */
  lemma {:induction false} ScoreStops(raw: ODict<string, string>, n: nat, toInt: string -> Option<int>,
                                      round: (real, nat) -> real, threshold: real)
    requires raw.Valid() && n <= |raw.keys|
    requires ScoreUpTo(raw, n, toInt, round, threshold).Err?
    ensures ScoreUpTo(raw, |raw.keys|, toInt, round, threshold) == ScoreUpTo(raw, n, toInt, round, threshold)
    decreases |raw.keys| - n
  {
    if n < |raw.keys| {
      ScoreStops(raw, n + 1, toInt, round, threshold);
    }
  }

  /** The wild-type column as the raw dictionary has it. */
  function RawWt(raw: ODict<string, string>): Option<Cell> {
    if WtKey in raw.entries then Some(Raw(raw.entries[WtKey])) else None
  }

  /** Each variant scored on its own against the raw dictionary. */
  function Alone(raw: ODict<string, string>, k: string, toInt: string -> Option<int>,
                 round: (real, nat) -> real, threshold: real): Result<Cell>
    requires k in raw.entries
  {
    Score(k, raw.entries[k], RawWt(raw), toInt, round, threshold)
  }

  /** The first `n` variants all score on their own. */
  ghost predicate AllOk(raw: ODict<string, string>, n: nat, toInt: string -> Option<int>,
                        round: (real, nat) -> real, threshold: real)
    requires raw.Valid() && n <= |raw.keys|
  {
    forall i :: 0 <= i < n ==> Alone(raw, raw.keys[i], toInt, round, threshold).Ok?
  }

  /** The first `n` cells are the variants scored on their own, the rest still text. */
  ghost predicate AloneUpTo(raw: ODict<string, string>, t: ODict<string, Cell>, n: nat, toInt: string -> Option<int>,
                            round: (real, nat) -> real, threshold: real)
    requires raw.Valid() && n <= |raw.keys|
  {
    && AllOk(raw, n, toInt, round, threshold)
    && t.Valid() && t.keys == raw.keys
    && forall i :: 0 <= i < |raw.keys| ==>
         t.entries[raw.keys[i]] == if i < n then Alone(raw, raw.keys[i], toInt, round, threshold).value
                                   else Raw(raw.entries[raw.keys[i]])
  }

  /** Variant `i` is the first among the first `n` that fails on its own, with error `e`. */
  ghost predicate FirstFailure(raw: ODict<string, string>, n: nat, e: Error, toInt: string -> Option<int>,
                               round: (real, nat) -> real, threshold: real)
    requires raw.Valid() && n <= |raw.keys|
  {
    exists i :: 0 <= i < n && AllOk(raw, i, toInt, round, threshold)
                && Alone(raw, raw.keys[i], toInt, round, threshold) == Err(e)
  }

  /**
   * Rewriting in place reads the same wild type as the raw dictionary: the
   * loop over the first `n` keys succeeds iff each of those variants scores
   * on its own, and then its cells are those scores; otherwise it fails
   * with the error of the first variant that fails.
   */
  lemma {:induction false} ScoreUpToAlone(raw: ODict<string, string>, n: nat, toInt: string -> Option<int>,
                                          round: (real, nat) -> real, threshold: real)
    requires raw.Valid() && n <= |raw.keys|
    ensures var r := ScoreUpTo(raw, n, toInt, round, threshold);
      && (r.Ok? <==> AllOk(raw, n, toInt, round, threshold))
      && (r.Ok? ==> AloneUpTo(raw, r.value, n, toInt, round, threshold))
      && (r.Err? ==> FirstFailure(raw, n, r.error, toInt, round, threshold))
    decreases n
  {
    if n > 0 {
      ScoreUpToAlone(raw, n - 1, toInt, round, threshold);
      var prev := ScoreUpTo(raw, n - 1, toInt, round, threshold);
      if prev.Ok? {
        WtUnchanged(raw, prev.value, n - 1, toInt, round, threshold);
        if Alone(raw, raw.keys[n - 1], toInt, round, threshold).Ok? {
          AloneStep(raw, prev.value, n, toInt, round, threshold);
        } else {
          assert !AllOk(raw, n, toInt, round, threshold);
          assert FirstFailure(raw, n, ScoreUpTo(raw, n, toInt, round, threshold).error, toInt, round, threshold);
        }
      } else {
        var e := prev.error;
        var i :| 0 <= i < n - 1 && AllOk(raw, i, toInt, round, threshold)
                 && Alone(raw, raw.keys[i], toInt, round, threshold) == Err(e);
        assert FirstFailure(raw, n, e, toInt, round, threshold);
      }
    }
  }

  /** One more variant scored on its own. */
  lemma AloneStep(raw: ODict<string, string>, t: ODict<string, Cell>, n: nat, toInt: string -> Option<int>,
                  round: (real, nat) -> real, threshold: real)
    requires raw.Valid() && 0 < n <= |raw.keys|
    requires AloneUpTo(raw, t, n - 1, toInt, round, threshold)
    requires Alone(raw, raw.keys[n - 1], toInt, round, threshold).Ok?
    ensures AllOk(raw, n, toInt, round, threshold)
    ensures AloneUpTo(raw, t.Put(raw.keys[n - 1], Alone(raw, raw.keys[n - 1], toInt, round, threshold).value), n, toInt, round, threshold)
  {
    DistinctIndex(raw.keys, n - 1);
  }

  /** Distinct keys: position `i` is the only place of its key. */
  lemma DistinctIndex(keys: seq<string>, i: nat)
    requires Distinct(keys) && i < |keys|
    ensures forall j :: 0 <= j < |keys| && keys[j] == keys[i] ==> j == i
  {
  }

  /** The wild type's cell stays its raw text while the other cells are rewritten. */
  lemma WtUnchanged(raw: ODict<string, string>, t: ODict<string, Cell>, n: nat, toInt: string -> Option<int>,
                    round: (real, nat) -> real, threshold: real)
    requires raw.Valid() && n <= |raw.keys|
    requires AloneUpTo(raw, t, n, toInt, round, threshold)
    ensures WtCell(t) == RawWt(raw)
  {
    if WtKey in raw.entries {
      var i :| 0 <= i < |raw.keys| && raw.keys[i] == WtKey;
    }
  }

  /** The rewrite fails iff some column fails on its own. */
  lemma TableFails(raw: ODict<string, string>, toInt: string -> Option<int>, round: (real, nat) -> real, threshold: real)
    requires raw.Valid()
    ensures ScoreUpTo(raw, |raw.keys|, toInt, round, threshold).Err? <==>
      exists k :: k in raw.entries && Alone(raw, k, toInt, round, threshold).Err?
  {
    ScoreUpToAlone(raw, |raw.keys|, toInt, round, threshold);
    if exists k :: k in raw.entries && Alone(raw, k, toInt, round, threshold).Err? {
      var k :| k in raw.entries && Alone(raw, k, toInt, round, threshold).Err?;
      var i :| 0 <= i < |raw.keys| && raw.keys[i] == k;
    }
  }

  /**
   * The rewritten table: the wild type's count is kept as written; every
   * other column is its count's percentage of wild type plus variant,
   * rounded to two decimals, with the Sanger mark iff that percentage
   * reaches the threshold.
   */
  lemma TableCells(raw: ODict<string, string>, toInt: string -> Option<int>, round: (real, nat) -> real, threshold: real)
    requires raw.Valid()
    requires ScoreUpTo(raw, |raw.keys|, toInt, round, threshold).Ok?
    ensures var t := ScoreUpTo(raw, |raw.keys|, toInt, round, threshold).value;
      && t.keys == raw.keys
      && forall k :: k in raw.entries ==>
           && Alone(raw, k, toInt, round, threshold).Ok?
           && t.entries[k] == Alone(raw, k, toInt, round, threshold).value
           && (k == WtKey ==> t.entries[k] == Raw(raw.entries[k]))
           && (k != WtKey ==>
                 && t.entries[k].Called? && t.entries[k].count == raw.entries[k]
                 && (t.entries[k].sanger <==> t.entries[k].freq >= threshold))
  {
    ScoreUpToAlone(raw, |raw.keys|, toInt, round, threshold);
    var t := ScoreUpTo(raw, |raw.keys|, toInt, round, threshold).value;
    forall k | k in raw.entries
      ensures Alone(raw, k, toInt, round, threshold).Ok? && t.entries[k] == Alone(raw, k, toInt, round, threshold).value
    {
      var i :| 0 <= i < |raw.keys| && raw.keys[i] == k;
    }
  }

  /** The frequency cell of a variant with count text `counts` against a wild-type count text `wt`. */
  ghost predicate IsFrequencyOf(cell: Cell, counts: string, wt: string, toInt: string -> Option<int>,
                                round: (real, nat) -> real, threshold: real)
  {
    && toInt(counts).Some? && toInt(wt).Some?
    && var c := toInt(counts).value;
       var w := toInt(wt).value;
       && w + c != 0
       && var freq := round(c as real / (w + c) as real * 100.0, 2);
          cell == Called(freq, counts, freq >= threshold)
  }

  /** Every column other than the wild type holds its frequency against the wild type's count. */
  lemma TableFrequencies(raw: ODict<string, string>, toInt: string -> Option<int>, round: (real, nat) -> real, threshold: real)
    requires raw.Valid()
    requires ScoreUpTo(raw, |raw.keys|, toInt, round, threshold).Ok?
    ensures var t := ScoreUpTo(raw, |raw.keys|, toInt, round, threshold).value;
      && t.entries.Keys == raw.entries.Keys
      && forall k :: k in raw.entries && k != WtKey ==>
           WtKey in raw.entries
           && IsFrequencyOf(t.entries[k], raw.entries[k], raw.entries[WtKey], toInt, round, threshold)
  {
    TableCells(raw, toInt, round, threshold);
    var t := ScoreUpTo(raw, |raw.keys|, toInt, round, threshold).value;
    forall k | k in raw.entries && k != WtKey
      ensures WtKey in raw.entries && IsFrequencyOf(t.entries[k], raw.entries[k], raw.entries[WtKey], toInt, round, threshold)
    {
      assert Alone(raw, k, toInt, round, threshold).Ok?;
    }
    assert forall k :: k in t.entries <==> k in t.keys;
  }

  /**
   * A report of four lines or more: parse_file raises iff some column of
   * the table zipped from lines 3 and 4 fails on its own; otherwise its keys
   * are the headers of line 3 in order of first occurrence, the wild type
   * keeps its text, and every other column holds the frequency of its count
   * among wild type plus variant, read from line 4 (the last column with
   * that header).
   */
  lemma HotspotTable(contents: string, toInt: string -> Option<int>, round: (real, nat) -> real, threshold: real)
    requires |SplitLines(contents)| >= 4
    ensures var lines := SplitLines(contents);
      var raw := RawTable(Zip(Fields(lines[2]), Fields(lines[3])));
      Hotspot(contents, toInt, round, threshold).Err? <==>
        exists k :: k in raw.entries && Alone(raw, k, toInt, round, threshold).Err?
    ensures var lines := SplitLines(contents);
      var pairs := Zip(Fields(lines[2]), Fields(lines[3]));
      var raw := RawTable(pairs);
      var r := Hotspot(contents, toInt, round, threshold);
      r.Ok? ==>
        && r.value.keys == Dedup(Firsts(pairs))
        && r.value.entries.Keys == raw.entries.Keys
        && (WtKey in raw.entries ==> r.value.entries[WtKey] == Raw(raw.entries[WtKey]))
        && forall k :: k in raw.entries && k != WtKey ==>
             WtKey in raw.entries
             && IsFrequencyOf(r.value.entries[k], raw.entries[k], raw.entries[WtKey], toInt, round, threshold)
  {
    var lines := SplitLines(contents);
    var pairs := Zip(Fields(lines[2]), Fields(lines[3]));
    var raw := RawTable(pairs);
    RawTableSpec(pairs);
    assert Hotspot(contents, toInt, round, threshold) == ScoreUpTo(raw, |raw.keys|, toInt, round, threshold);
    TableFails(raw, toInt, round, threshold);
    if ScoreUpTo(raw, |raw.keys|, toInt, round, threshold).Ok? {
      TableCells(raw, toInt, round, threshold);
      TableFrequencies(raw, toInt, round, threshold);
    }
  }

  /**
   * With non-negative counts and a rounding that is monotone and keeps 0
   * and 100, a frequency lies between 0 and 100 percent.
   */
  lemma FrequencyBounds(variant: string, counts: string, wt: Option<Cell>, toInt: string -> Option<int>,
                        round: (real, nat) -> real, threshold: real)
    requires forall x: real, y: real :: x <= y ==> round(x, 2) <= round(y, 2)
    requires round(0.0, 2) == 0.0 && round(100.0, 2) == 100.0
    requires toInt(counts).Some? && toInt(counts).value >= 0
    requires wt.Some? && wt.value.Raw? && toInt(wt.value.text).Some? && toInt(wt.value.text).value >= 0
    requires Score(variant, counts, wt, toInt, round, threshold).Ok? && variant != WtKey
    ensures 0.0 <= Score(variant, counts, wt, toInt, round, threshold).value.freq <= 100.0
  {
    var c := toInt(counts).value;
    var w := toInt(wt.value.text).value;
    var x := c as real / (w + c) as real * 100.0;
    assert (w + c) as real > 0.0;
    assert c as real / (w + c) as real <= 1.0;
    assert 0.0 <= x <= 100.0;
  }
}

=== FILE: msi_sensor_pro.dfy ===
/**
 * The msiSensorPro tables: parse_summary reads each sample's summary file
 * (a header line, then tab-separated site count, unstable site count and
 * percentage of unstable sites), and parse_all reads each sample's per-site
 * file (ten or more tab-separated columns per site, keyed "{chrom}_{pos}").
 * Both compare every line with the file's first line to skip the header.
 */
module MsiSensorPro {
  import opened Wrappers
  import opened PyStr
  import opened Dicts

  const Tab: char := '\t'
  /** A per-site line needs at least this many columns to be read. */
  const SiteColumns: nat := 10

  /** One report found by the host: the sample's cleaned name and the file's text. */
  datatype LogFile = LogFile(sName: string, contents: string)

  /** A sample's summary row. */
  datatype Summary = Summary(numSites: int, numUnstableSites: int, perc: real)

  /** A microsatellite site of the per-site table. */
  datatype Site = Site(chrom: string, loc: int, leftFlankBases: string, repeatTimes: int, repeatUnitBases: string,
                       rightFlankBases: string, proP: real, proQ: real, covReads: int, threshold: real)

  /** An optional value, keyed by `key` when present. */
  function Keyed<T>(key: string, r: Result<Option<T>>): (k: Result<Option<(string, T)>>)
    ensures r.Err? <==> k.Err?
    ensures r.Err? ==> k.error == r.error
    ensures r == Ok(None) <==> k == Ok(None)
    ensures r.Ok? && r.value.Some? ==> k == Ok(Some((key, r.value.value)))
  {
    match r
    case Err(e) => Err(e)
    case Ok(None) => Ok(None)
    case Ok(Some(v)) => Ok(Some((key, v)))
  }

  // ---------------------------------------------------------------------------
  // parse_summary
  // ---------------------------------------------------------------------------

  /**
   * One line of a summary file: the header text is skipped; any other line
   * must unpack into exactly three tab fields, read as int, int and float,
   * else a ValueError.
   */
  function SummaryLine(line: string, header: string, toInt: string -> Option<int>, toReal: string -> Option<real>)
    : (r: Result<Option<Summary>>)
    ensures line == header <==> r == Ok(None)
    ensures r.Err? ==> r.error == ValueError
    ensures line != header ==>
      var f := Split(line, Tab);
      && (r.Err? <==> |f| != 3 || toInt(f[0]).None? || toInt(f[1]).None? || toReal(f[2]).None?)
      && (r.Ok? ==> r.value == Some(Summary(toInt(f[0]).value, toInt(f[1]).value, toReal(f[2]).value)))
  {
    if line == header then Ok(None)
    else
      var f := Split(line, Tab);
      if |f| != 3 then Err(ValueError)
      else
        match (toInt(f[0]), toInt(f[1]), toReal(f[2]))
        case (Some(n), Some(u), Some(p)) => Ok(Some(Summary(n, u, p)))
        case _ => Err(ValueError)
  }

  /**
   * What each line of a summary file does to `data_summary`: reading the
   * first line of an empty file is an IndexError; then each line either
   * assigns the sample's row, is skipped, or raises.
   */
  function SummarySteps(f: LogFile, toInt: string -> Option<int>, toReal: string -> Option<real>)
    : (steps: seq<Result<Option<(string, Summary)>>>)
    ensures SplitLines(f.contents) == [] ==> steps == [Err(IndexError)]
    ensures SplitLines(f.contents) != [] ==> |steps| == |SplitLines(f.contents)|
  {
    var lines := SplitLines(f.contents);
    if lines == [] then [Err(IndexError)]
    else seq(|lines|, i requires 0 <= i < |lines| => Keyed(f.sName, SummaryLine(lines[i], lines[0], toInt, toReal)))
  }

  /** Line `i` of a non-empty file gives step `i`, keyed by the file's sample. */
  lemma SummaryStepsLines(f: LogFile, toInt: string -> Option<int>, toReal: string -> Option<real>)
    requires SplitLines(f.contents) != []
    ensures var lines := SplitLines(f.contents);
      forall i :: 0 <= i < |lines| ==> SummarySteps(f, toInt, toReal)[i] == Keyed(f.sName, SummaryLine(lines[i], lines[0], toInt, toReal))
  {
  }

  /** The steps of all the summary files, one file after another. */
  function AllSummarySteps(files: seq<LogFile>, toInt: string -> Option<int>, toReal: string -> Option<real>)
    : seq<Result<Option<(string, Summary)>>>
    decreases |files|
  {
    if files == [] then []
    else
      var n := |files| - 1;
      AllSummarySteps(files[..n], toInt, toReal) + SummarySteps(files[n], toInt, toReal)
  }

  /** The table parse_summary returns, or what it raises. */
  function SummaryTable(files: seq<LogFile>, toInt: string -> Option<int>, toReal: string -> Option<real>)
    : Result<map<string, Summary>>
  {
    AssignAll(AllSummarySteps(files, toInt, toReal))
  }

  /**
   * parse_summary: every line of every summary file other than the file's
   * first line assigns the sample's row.
   */
  method ParseSummary(files: seq<LogFile>, toInt: string -> Option<int>, toReal: string -> Option<real>)
    returns (r: Result<map<string, Summary>>)
    ensures r == SummaryTable(files, toInt, toReal)
  {
    var data: map<string, Summary> := map[];
    ghost var done := [];
    for i := 0 to |files|
      invariant done == AllSummarySteps(files[..i], toInt, toReal)
      invariant AssignAll(done) == Ok(data)
    {
      var next := ReadSummaryFile(data, files[i], done, toInt, toReal);
      SummaryStepsSnoc(files, i, toInt, toReal);
      done := done + SummarySteps(files[i], toInt, toReal);
      if next.Err? {
        SummaryStepsPrefix(files, i + 1, toInt, toReal);
        AssignAllErrPrefix(done, AllSummarySteps(files, toInt, toReal));
        return next;
      }
      data := next.value;
    }
    assert files[..|files|] == files;
    return Ok(data);
  }

  lemma SummaryStepsSnoc(files: seq<LogFile>, i: nat, toInt: string -> Option<int>, toReal: string -> Option<real>)
    requires i < |files|
    ensures AllSummarySteps(files[..i + 1], toInt, toReal) == AllSummarySteps(files[..i], toInt, toReal) + SummarySteps(files[i], toInt, toReal)
  {
    assert files[..i + 1][..i] == files[..i];
  }

  /** Once a run of steps raises, the steps after it change nothing. */
  lemma AssignAllErrPrefix<K, V>(done: seq<Result<Option<(K, V)>>>, all: seq<Result<Option<(K, V)>>>)
    requires AssignAll(done).Err? && done <= all
    ensures AssignAll(all) == AssignAll(done)
  {
    assert all[..|done|] == done;
    AssignAllStops(all, |done|);
  }

  /** The steps of the first files come first. */
  lemma {:induction false} SummaryStepsPrefix(files: seq<LogFile>, n: nat, toInt: string -> Option<int>, toReal: string -> Option<real>)
    requires n <= |files|
    ensures AllSummarySteps(files[..n], toInt, toReal) <= AllSummarySteps(files, toInt, toReal)
    decreases |files| - n
  {
    if n < |files| {
      SummaryStepsPrefix(files, n + 1, toInt, toReal);
      assert files[..n + 1][..n] == files[..n];
    } else {
      assert files[..n] == files;
    }
  }

  /** The line loop of one summary file, writing into `data` as it goes. */
  method ReadSummaryFile(data: map<string, Summary>, f: LogFile, ghost done: seq<Result<Option<(string, Summary)>>>,
                         toInt: string -> Option<int>, toReal: string -> Option<real>)
    returns (r: Result<map<string, Summary>>)
    requires AssignAll(done) == Ok(data)
    ensures r == AssignAll(done + SummarySteps(f, toInt, toReal))
  {
    var lines := SplitLines(f.contents);
    if lines == [] {
      EmptySummaryFile(done, f, toInt, toReal);
      return Err(IndexError);
    }
    SummaryFileSteps(done, f, toInt, toReal);
    r := ReadSummaryLines(done + SummarySteps(f, toInt, toReal), |done|, data, f.sName, lines, toInt, toReal);
  }

  /** Reading the first line of an empty file raises IndexError. */
  lemma EmptySummaryFile(done: seq<Result<Option<(string, Summary)>>>, f: LogFile,
                         toInt: string -> Option<int>, toReal: string -> Option<real>)
    requires AssignAll(done).Ok? && SplitLines(f.contents) == []
    ensures AssignAll(done + SummarySteps(f, toInt, toReal)) == Err(IndexError)
  {
    var steps := done + SummarySteps(f, toInt, toReal);
    AssignAllPrefix(steps, |done|);
    assert steps[..|done| + 1] == steps && steps[..|done|] == done;
  }

  /** The steps of a non-empty file follow those before it, one per line. */
  lemma SummaryFileSteps(done: seq<Result<Option<(string, Summary)>>>, f: LogFile,
                         toInt: string -> Option<int>, toReal: string -> Option<real>)
    requires SplitLines(f.contents) != []
    ensures var steps := done + SummarySteps(f, toInt, toReal);
      var lines := SplitLines(f.contents);
      && steps[..|done|] == done
      && |steps| == |done| + |lines|
      && LineStepsFrom(steps, |done|, f.sName, lines, toInt, toReal)
  {
    var steps := done + SummarySteps(f, toInt, toReal);
    SummaryStepsLines(f, toInt, toReal);
    assert steps[..|done|] == done;
  }

  /** From position `base` on, `steps` holds one step per line of sample `sName`'s file. */
  ghost predicate LineStepsFrom(steps: seq<Result<Option<(string, Summary)>>>, base: nat, sName: string, lines: seq<string>,
                                toInt: string -> Option<int>, toReal: string -> Option<real>)
    requires lines != [] && |steps| == base + |lines|
  {
    forall j :: 0 <= j < |lines| ==> steps[base + j] == Keyed(sName, SummaryLine(lines[j], lines[0], toInt, toReal))
  }

  /** The line loop of one non-empty summary file, whose steps come after the first `base` ones. */
  method ReadSummaryLines(ghost steps: seq<Result<Option<(string, Summary)>>>, ghost base: nat, data: map<string, Summary>,
                          sName: string, lines: seq<string>, toInt: string -> Option<int>, toReal: string -> Option<real>)
    returns (r: Result<map<string, Summary>>)
    requires lines != [] && |steps| == base + |lines| && AssignAll(steps[..base]) == Ok(data)
    requires LineStepsFrom(steps, base, sName, lines, toInt, toReal)
    ensures r == AssignAll(steps)
  {
    var header := lines[0];
    var d := data;
    for j := 0 to |lines|
      invariant AssignAll(steps[..base + j]) == Ok(d)
    {
      var next := ReadSummaryLine(steps, base + j, d, sName, lines[j], header, toInt, toReal);
      if next.Err? {
        return next;
      }
      d := next.value;
    }
    assert steps[..base + |lines|] == steps;
    return Ok(d);
  }

  /** One pass of the line loop: line `line` of sample `sName`'s file, read into `d`. */
  method ReadSummaryLine(ghost steps: seq<Result<Option<(string, Summary)>>>, ghost n: nat, d: map<string, Summary>,
                         sName: string, line: string, header: string,
                         toInt: string -> Option<int>, toReal: string -> Option<real>)
    returns (r: Result<map<string, Summary>>)
    requires n < |steps| && AssignAll(steps[..n]) == Ok(d)
    requires steps[n] == Keyed(sName, SummaryLine(line, header, toInt, toReal))
    ensures r.Err? ==> AssignAll(steps) == r
    ensures r.Ok? ==> AssignAll(steps[..n + 1]) == r
  {
    AssignAllPrefix(steps, n);
    if line == header {
      return Ok(d);
    }
    var fields := Split(line, Tab);
    if |fields| != 3 {
      AssignAllStops(steps, n + 1);
      return Err(ValueError);
    }
    var numSites := toInt(fields[0]);
    var numUnstable := toInt(fields[1]);
    var perc := toReal(fields[2]);
    if numSites.None? || numUnstable.None? || perc.None? {
      AssignAllStops(steps, n + 1);
      return Err(ValueError);
    }
    return Ok(d[sName := Summary(numSites.value, numUnstable.value, perc.value)]);
  }

  /** Line `i` is read as data: it differs from the file's first line. */
  predicate IsDataLine(lines: seq<string>, i: int) {
    0 <= i < |lines| && lines[i] != lines[0]
  }

  /** Line `i` is the file's last data line. */
  ghost predicate LastDataLine(lines: seq<string>, i: int) {
    IsDataLine(lines, i) && forall j :: i < j < |lines| ==> !IsDataLine(lines, j)
  }

  /** What one summary file alone assigns, or raises. */
  function FileSummary(f: LogFile, toInt: string -> Option<int>, toReal: string -> Option<real>): Result<map<string, Summary>> {
    AssignAll(SummarySteps(f, toInt, toReal))
  }

  /**
   * One summary file: an empty file raises IndexError; otherwise it raises
   * a ValueError iff some data line does not read as a row; else it gives
   * its sample the row of its last data line, and nothing when every line
   * repeats the header.
   */
  lemma SummaryFileSpec(f: LogFile, toInt: string -> Option<int>, toReal: string -> Option<real>)
    ensures var lines := SplitLines(f.contents);
      var r := FileSummary(f, toInt, toReal);
      && (lines == [] ==> r == Err(IndexError))
      && (lines != [] ==> (r.Err? <==> exists i :: IsDataLine(lines, i) && SummaryLine(lines[i], lines[0], toInt, toReal).Err?))
      && (lines != [] && r.Err? ==> r.error == ValueError)
      && (r.Ok? ==> r.value.Keys <= {f.sName})
      && (r.Ok? ==> (f.sName in r.value <==> exists i :: IsDataLine(lines, i)))
      && (r.Ok? && f.sName in r.value ==>
            exists i :: LastDataLine(lines, i) && SummaryLine(lines[i], lines[0], toInt, toReal) == Ok(Some(r.value[f.sName])))
  {
    var lines := SplitLines(f.contents);
    var steps := SummarySteps(f, toInt, toReal);
    AssignAllSpec(steps);
    if lines != [] {
      SummaryStepsLines(f, toInt, toReal);
      assert forall i :: 0 <= i < |lines| ==> (steps[i].Err? <==> SummaryLine(lines[i], lines[0], toInt, toReal).Err?);
      var r := AssignAll(steps);
      if r.Ok? {
        var performed := Performed(steps);
        AssignedLastWins(performed, f.sName);
        forall k | k in r.value
          ensures k == f.sName
        {
          AssignedLastWins(performed, k);
        }
        assert forall i :: 0 <= i < |lines| ==> (Assigns(performed, i, f.sName) <==> IsDataLine(lines, i));
        if f.sName in r.value {
          var i :| IsLastFor(performed, i, f.sName) && r.value[f.sName] == performed[i].value.1;
          assert LastDataLine(lines, i);
        }
      }
    }
  }

  /** The summary files so far, then one more. */
  lemma SummaryTableSnoc(files: seq<LogFile>, toInt: string -> Option<int>, toReal: string -> Option<real>)
    requires files != []
    ensures var n := |files| - 1;
      var prev := SummaryTable(files[..n], toInt, toReal);
      var last := FileSummary(files[n], toInt, toReal);
      SummaryTable(files, toInt, toReal) ==
        if prev.Err? then prev else if last.Err? then last else Ok(prev.value + last.value)
  {
    var n := |files| - 1;
    AssignAllAppend(AllSummarySteps(files[..n], toInt, toReal), SummarySteps(files[n], toInt, toReal));
  }

  /** Per-file results combined in order: the first error wins, else later keys override earlier ones. */
  function Combined<V>(rs: seq<Result<map<string, V>>>): Result<map<string, V>>
    decreases |rs|
  {
    if rs == [] then Ok(map[])
    else
      var n := |rs| - 1;
      var prev := Combined(rs[..n]);
      if prev.Err? then prev else if rs[n].Err? then rs[n] else Ok(prev.value + rs[n].value)
  }

  /** Result `i` is a success that has key `s`. */
  predicate HasKey<V>(rs: seq<Result<map<string, V>>>, i: int, s: string) {
    0 <= i < |rs| && rs[i].Ok? && s in rs[i].value
  }

  /** Combining fails iff some result does. */
  lemma {:induction false} CombinedFails<V>(rs: seq<Result<map<string, V>>>)
    ensures Combined(rs).Err? <==> exists i :: 0 <= i < |rs| && rs[i].Err?
    decreases |rs|
  {
    if rs != [] {
      var n := |rs| - 1;
      CombinedFails(rs[..n]);
      if exists i :: 0 <= i < |rs| && rs[i].Err? {
        var i :| 0 <= i < |rs| && rs[i].Err?;
        if i < n {
          assert rs[..n][i].Err?;
        }
      }
      if exists i :: 0 <= i < n && rs[..n][i].Err? {
        var i :| 0 <= i < n && rs[..n][i].Err?;
        assert rs[i].Err?;
      }
    }
  }

  /**
   * Once combined, a key is present iff some result has it, with the value
   * of the last result that has it.
   */
  lemma {:induction false} CombinedKeys<V>(rs: seq<Result<map<string, V>>>, s: string)
    requires Combined(rs).Ok?
    ensures s in Combined(rs).value <==> exists i :: HasKey(rs, i, s)
    ensures s in Combined(rs).value ==>
      exists i :: LastKey(rs, i, s) && Combined(rs).value[s] == rs[i].value[s]
    decreases |rs|
  {
    if rs != [] {
      var n := |rs| - 1;
      var front := rs[..n];
      CombinedKeys(front, s);
      assert forall i :: 0 <= i < n ==> (HasKey(front, i, s) <==> HasKey(rs, i, s));
      var r := Combined(rs).value;
      if HasKey(rs, n, s) {
        assert LastKey(rs, n, s) && r[s] == rs[n].value[s];
      } else {
        if exists i :: HasKey(rs, i, s) {
          var i :| HasKey(rs, i, s);
          assert HasKey(front, i, s);
        }
        if s in r {
          var i :| LastKey(front, i, s) && Combined(front).value[s] == front[i].value[s];
          assert LastKey(rs, i, s);
        }
      }
    }
  }

  /** Result `i` is the last one with key `s`. */
  ghost predicate LastKey<V>(rs: seq<Result<map<string, V>>>, i: int, s: string) {
    HasKey(rs, i, s) && forall j :: i < j < |rs| ==> !HasKey(rs, j, s)
  }

  /** The result of each summary file. */
  function FileSummaries(files: seq<LogFile>, toInt: string -> Option<int>, toReal: string -> Option<real>)
    : (rs: seq<Result<map<string, Summary>>>)
    ensures |rs| == |files|
    ensures forall i :: 0 <= i < |files| ==> rs[i] == FileSummary(files[i], toInt, toReal)
  {
    seq(|files|, i requires 0 <= i < |files| => FileSummary(files[i], toInt, toReal))
  }

  /** parse_summary's table is the files' own results combined in order. */
  lemma {:induction false} SummaryTableCombined(files: seq<LogFile>, toInt: string -> Option<int>, toReal: string -> Option<real>)
    ensures SummaryTable(files, toInt, toReal) == Combined(FileSummaries(files, toInt, toReal))
    decreases |files|
  {
    if files != [] {
      var n := |files| - 1;
      var rs := FileSummaries(files, toInt, toReal);
      SummaryTableCombined(files[..n], toInt, toReal);
      SummaryTableSnoc(files, toInt, toReal);
      FileSummariesPrefix(files, toInt, toReal);
      CombinedLast(rs);
    }
  }

  /** The results of all files but the last are those of the shorter list. */
  lemma FileSummariesPrefix(files: seq<LogFile>, toInt: string -> Option<int>, toReal: string -> Option<real>)
    requires files != []
    ensures FileSummaries(files, toInt, toReal)[..|files| - 1] == FileSummaries(files[..|files| - 1], toInt, toReal)
    ensures FileSummaries(files, toInt, toReal)[|files| - 1] == FileSummary(files[|files| - 1], toInt, toReal)
  {
    assert FileSummaries(files, toInt, toReal)[..|files| - 1] == FileSummaries(files[..|files| - 1], toInt, toReal);
  }

  /** Combining results: the combination of all but the last, then the last. */
  lemma CombinedLast<V>(rs: seq<Result<map<string, V>>>)
    requires rs != []
    ensures var prev := Combined(rs[..|rs| - 1]);
      Combined(rs) == if prev.Err? then prev else if rs[|rs| - 1].Err? then rs[|rs| - 1] else Ok(prev.value + rs[|rs| - 1].value)
  {
  }

  // ---------------------------------------------------------------------------
  // parse_all
  // ---------------------------------------------------------------------------

  /** The site key "{chrom}_{pos}". */
  function SiteKey(chrom: string, pos: string): string {
    chrom + "_" + pos
  }

  /**
   * One line of a per-site file: a line with fewer than ten tab fields is
   * skipped (before the header test), as is the header text; any other line
   * is a site keyed by its first two fields, its extra fields ignored, or a
   * ValueError when a numeric field does not read.
   */
  function SiteLine(line: string, header: string, toInt: string -> Option<int>, toReal: string -> Option<real>)
    : (r: Result<Option<(string, Site)>>)
    ensures r == Ok(None) <==> |Split(line, Tab)| < SiteColumns || line == header
    ensures r.Err? ==> r.error == ValueError
    ensures r.Err? ==>
      var p := Split(line, Tab);
      |p| >= SiteColumns && line != header
      && (toInt(p[1]).None? || toInt(p[3]).None? || toReal(p[6]).None? || toReal(p[7]).None? || toInt(p[8]).None? || toReal(p[9]).None?)
    ensures r.Ok? && r.value.Some? ==>
      var p := Split(line, Tab);
      && |p| >= SiteColumns && line != header
      && r.value.value.0 == SiteKey(p[0], p[1])
      && toInt(p[1]).Some? && toInt(p[3]).Some? && toReal(p[6]).Some? && toReal(p[7]).Some? && toInt(p[8]).Some? && toReal(p[9]).Some?
      && r.value.value.1 == Site(p[0], toInt(p[1]).value, p[2], toInt(p[3]).value, p[4], p[5],
                                 toReal(p[6]).value, toReal(p[7]).value, toInt(p[8]).value, toReal(p[9]).value)
  {
    var p := Split(line, Tab);
    if |p| < SiteColumns || line == header then Ok(None)
    else
      match (toInt(p[1]), toInt(p[3]), toReal(p[6]), toReal(p[7]), toInt(p[8]), toReal(p[9]))
      case (Some(loc), Some(times), Some(pp), Some(pq), Some(cov), Some(th)) =>
        Ok(Some((SiteKey(p[0], p[1]), Site(p[0], loc, p[2], times, p[4], p[5], pp, pq, cov, th))))
      case _ => Err(ValueError)
  }

  /** What each line of a per-site file does to the sample's sites. */
  function SiteSteps(f: LogFile, toInt: string -> Option<int>, toReal: string -> Option<real>)
    : (steps: seq<Result<Option<(string, Site)>>>)
    ensures SplitLines(f.contents) == [] ==> steps == [Err(IndexError)]
    ensures SplitLines(f.contents) != [] ==>
      var lines := SplitLines(f.contents);
      |steps| == |lines| && forall i :: 0 <= i < |lines| ==> steps[i] == SiteLine(lines[i], lines[0], toInt, toReal)
  {
    var lines := SplitLines(f.contents);
    if lines == [] then [Err(IndexError)]
    else seq(|lines|, i requires 0 <= i < |lines| => SiteLine(lines[i], lines[0], toInt, toReal))
  }

  /** The sites one file assigns, or what it raises. */
  function FileSites(f: LogFile, toInt: string -> Option<int>, toReal: string -> Option<real>): Result<map<string, Site>> {
    AssignAll(SiteSteps(f, toInt, toReal))
  }

  /** `data_all[s]`, a defaultdict: an absent sample reads as an empty dict. */
  function SitesOf<V>(data: map<string, map<string, V>>, s: string): map<string, V> {
    if s in data then data[s] else map[]
  }

  /**
   * A file's sites merged into the sample's: the defaultdict creates the
   * sample's entry only when a site is assigned.
   */
  function AddSites<V>(data: map<string, map<string, V>>, s: string, m: map<string, V>): map<string, map<string, V>> {
    if m == map[] then data else data[s := SitesOf(data, s) + m]
  }

  /** Per-file results in order: the first error wins, else each file's sites go to its sample. */
  function Nested<V>(rs: seq<(string, Result<map<string, V>>)>): Result<map<string, map<string, V>>>
    decreases |rs|
  {
    if rs == [] then Ok(map[])
    else
      var n := |rs| - 1;
      var prev := Nested(rs[..n]);
      if prev.Err? then prev else NestedStep(prev.value, rs[n].0, rs[n].1)
  }

  /** One file's result merged into the table. */
  function NestedStep<V>(data: map<string, map<string, V>>, s: string, res: Result<map<string, V>>)
    : Result<map<string, map<string, V>>>
  {
    if res.Err? then Err(res.error) else Ok(AddSites(data, s, res.value))
  }

  /** Each per-site file's sample and result. */
  function FileSiteResults(files: seq<LogFile>, toInt: string -> Option<int>, toReal: string -> Option<real>)
    : (rs: seq<(string, Result<map<string, Site>>)>)
    ensures |rs| == |files|
    ensures forall i :: 0 <= i < |files| ==> rs[i] == (files[i].sName, FileSites(files[i], toInt, toReal))
  {
    seq(|files|, i requires 0 <= i < |files| => (files[i].sName, FileSites(files[i], toInt, toReal)))
  }

  /** The table parse_all returns, or what it raises. */
  function SitesTable(files: seq<LogFile>, toInt: string -> Option<int>, toReal: string -> Option<real>)
    : Result<map<string, map<string, Site>>>
  {
    Nested(FileSiteResults(files, toInt, toReal))
  }

  /** One more site assigned to the sample, seen through the merged table. */
  lemma AddSitesStep<V>(data: map<string, map<string, V>>, s: string, m: map<string, V>, k: string, v: V)
    ensures AddSites(data, s, m[k := v]) == AddSites(data, s, m)[s := SitesOf(AddSites(data, s, m), s)[k := v]]
  {
    assert m[k := v] != map[] by { assert k in m[k := v]; }
    assert SitesOf(data, s) + m[k := v] == (SitesOf(data, s) + m)[k := v];
    if m == map[] {
      assert SitesOf(data, s) + m == SitesOf(data, s);
    }
  }

  /** parse_all: every site line of every per-site file is stored under its sample. */
  method ParseAll(files: seq<LogFile>, toInt: string -> Option<int>, toReal: string -> Option<real>)
    returns (r: Result<map<string, map<string, Site>>>)
    ensures r == SitesTable(files, toInt, toReal)
  {
    var data: map<string, map<string, Site>> := map[];
    ghost var rs := FileSiteResults(files, toInt, toReal);
    for i := 0 to |files|
      invariant Nested(rs[..i]) == Ok(data)
    {
      var next := ReadSitesFile(data, files[i], toInt, toReal);
      NestedSnoc(rs, i);
      if next.Err? {
        NestedStops(rs, i + 1);
        return next;
      }
      data := next.value;
    }
    assert rs[..|files|] == rs;
    return Ok(data);
  }

  lemma NestedSnoc<V>(rs: seq<(string, Result<map<string, V>>)>, i: nat)
    requires i < |rs| && Nested(rs[..i]).Ok?
    ensures Nested(rs[..i + 1]) == NestedStep(Nested(rs[..i]).value, rs[i].0, rs[i].1)
  {
    assert rs[..i + 1][..i] == rs[..i];
  }

  /** Once a file fails, the later files change nothing. */
  lemma {:induction false} NestedStops<V>(rs: seq<(string, Result<map<string, V>>)>, n: nat)
    requires n <= |rs| && Nested(rs[..n]).Err?
    ensures Nested(rs) == Nested(rs[..n])
    decreases |rs| - n
  {
    if n < |rs| {
      assert rs[..n + 1][..n] == rs[..n];
      NestedStops(rs, n + 1);
    } else {
      assert rs[..n] == rs;
    }
  }

  /** The line loop of one per-site file, writing into `data` as it goes. */
  method ReadSitesFile(data: map<string, map<string, Site>>, f: LogFile, toInt: string -> Option<int>, toReal: string -> Option<real>)
    returns (r: Result<map<string, map<string, Site>>>)
    ensures r == NestedStep(data, f.sName, FileSites(f, toInt, toReal))
  {
    ghost var steps := SiteSteps(f, toInt, toReal);
    var lines := SplitLines(f.contents);
    if lines == [] {
      AssignAllPrefix(steps, 0);
      assert steps[..1] == steps;
      return Err(IndexError);
    }
    var header := lines[0];
    var d := data;
    ghost var m: map<string, Site> := map[];
    assert AddSites(data, f.sName, m) == data;
    for j := 0 to |lines|
      invariant AssignAll(steps[..j]) == Ok(m)
      invariant d == AddSites(data, f.sName, m)
    {
      AssignAllPrefix(steps, j);
      var site := SiteLine(lines[j], header, toInt, toReal);
      match site {
        case Err(e) =>
          AssignAllStops(steps, j + 1);
          return Err(e);
        case Ok(None) =>
        case Ok(Some(kv)) =>
          AddSitesStep(data, f.sName, m, kv.0, kv.1);
          d := d[f.sName := SitesOf(d, f.sName)[kv.0 := kv.1]];
          m := m[kv.0 := kv.1];
      }
    }
    assert steps[..|lines|] == steps;
    return Ok(d);
  }

  /** Line `i` of the file is a site with key `k`. */
  ghost predicate SiteAt(lines: seq<string>, i: int, k: string, toInt: string -> Option<int>, toReal: string -> Option<real>)
    requires lines != []
  {
    0 <= i < |lines| && SiteLine(lines[i], lines[0], toInt, toReal).Ok?
    && SiteLine(lines[i], lines[0], toInt, toReal).value.Some? && SiteLine(lines[i], lines[0], toInt, toReal).value.value.0 == k
  }

  /**
   * One per-site file: an empty file raises IndexError; otherwise it raises
   * a ValueError iff some line fails to read; else a key is present iff
   * some line is a site with that key, and it holds the site of the last
   * such line.
   */
  lemma SiteFileSpec(f: LogFile, toInt: string -> Option<int>, toReal: string -> Option<real>, k: string)
    ensures var lines := SplitLines(f.contents);
      var r := FileSites(f, toInt, toReal);
      && (lines == [] ==> r == Err(IndexError))
      && (lines != [] ==> (r.Err? <==> exists i :: 0 <= i < |lines| && SiteLine(lines[i], lines[0], toInt, toReal).Err?))
      && (lines != [] && r.Err? ==> r.error == ValueError)
      && (r.Ok? ==> (k in r.value <==> exists i :: SiteAt(lines, i, k, toInt, toReal)))
      && (r.Ok? && k in r.value ==>
            exists i :: && SiteAt(lines, i, k, toInt, toReal)
                        && (forall j :: i < j < |lines| ==> !SiteAt(lines, j, k, toInt, toReal))
                        && SiteLine(lines[i], lines[0], toInt, toReal) == Ok(Some((k, r.value[k]))))
  {
    var lines := SplitLines(f.contents);
    var steps := SiteSteps(f, toInt, toReal);
    AssignAllSpec(steps);
    var r := AssignAll(steps);
    if lines != [] && r.Ok? {
      var performed := Performed(steps);
      AssignedLastWins(performed, k);
      assert forall i :: 0 <= i < |lines| ==> (Assigns(performed, i, k) <==> SiteAt(lines, i, k, toInt, toReal));
      if k in r.value {
        var i :| IsLastFor(performed, i, k) && r.value[k] == performed[i].value.1;
      }
    }
  }

  /** Merging fails iff some file's result is an error. */
  lemma {:induction false} NestedFails<V>(rs: seq<(string, Result<map<string, V>>)>)
    ensures Nested(rs).Err? <==> exists i :: 0 <= i < |rs| && rs[i].1.Err?
    decreases |rs|
  {
    if rs != [] {
      var n := |rs| - 1;
      NestedFails(rs[..n]);
      if exists i :: 0 <= i < |rs| && rs[i].1.Err? {
        var i :| 0 <= i < |rs| && rs[i].1.Err?;
        if i < n {
          assert rs[..n][i].1.Err?;
        }
      }
      if exists i :: 0 <= i < n && rs[..n][i].1.Err? {
        var i :| 0 <= i < n && rs[..n][i].1.Err?;
        assert rs[i].1.Err?;
      }
    }
  }

  /** File `i` belongs to sample `s` and its sites include key `k`. */
  predicate GivesSite<V>(rs: seq<(string, Result<map<string, V>>)>, i: int, s: string, k: string) {
    0 <= i < |rs| && rs[i].0 == s && rs[i].1.Ok? && k in rs[i].1.value
  }

  /** File `i` is the last that gives sample `s` key `k`. */
  ghost predicate LastGivesSite<V>(rs: seq<(string, Result<map<string, V>>)>, i: int, s: string, k: string) {
    GivesSite(rs, i, s, k) && forall j :: i < j < |rs| ==> !GivesSite(rs, j, s, k)
  }

  /** File `i` belongs to sample `s` and has at least one site. */
  predicate HasSites<V>(rs: seq<(string, Result<map<string, V>>)>, i: int, s: string) {
    0 <= i < |rs| && rs[i].0 == s && rs[i].1.Ok? && rs[i].1.value != map[]
  }

  /** A sample is present iff one of its files has a site: a file without sites creates no entry. */
  lemma {:induction false} NestedSamples<V>(rs: seq<(string, Result<map<string, V>>)>, s: string)
    requires Nested(rs).Ok?
    ensures s in Nested(rs).value <==> exists i :: HasSites(rs, i, s)
    decreases |rs|
  {
    if rs != [] {
      var n := |rs| - 1;
      var front := rs[..n];
      NestedSamples(front, s);
      assert forall i :: 0 <= i < n ==> (HasSites(front, i, s) <==> HasSites(rs, i, s));
      if exists i :: HasSites(rs, i, s) {
        var i :| HasSites(rs, i, s);
        if i < n {
          assert HasSites(front, i, s);
        }
      }
      var prev := Nested(front).value;
      if s in Nested(rs).value {
        if s in prev {
          var i :| HasSites(front, i, s);
          assert HasSites(rs, i, s);
        } else {
          assert HasSites(rs, n, s);
        }
      }
    }
  }

  /**
   * The merged table: a sample has a site key iff
   * one of its files has it, and the site is the one of the last such file.
   */
  lemma {:induction false} NestedKeys<V>(rs: seq<(string, Result<map<string, V>>)>, s: string, k: string)
    requires Nested(rs).Ok?
    ensures (s in Nested(rs).value && k in Nested(rs).value[s]) <==> exists i :: GivesSite(rs, i, s, k)
    ensures s in Nested(rs).value && k in Nested(rs).value[s] ==>
      exists i :: LastGivesSite(rs, i, s, k) && Nested(rs).value[s][k] == rs[i].1.value[k]
    decreases |rs|
  {
    if rs != [] {
      var n := |rs| - 1;
      var front := rs[..n];
      NestedKeys(front, s, k);
      assert forall i :: 0 <= i < n ==> front[i] == rs[i];
      assert forall i :: 0 <= i < n ==> (GivesSite(front, i, s, k) <==> GivesSite(rs, i, s, k));
      var prev := Nested(front).value;
      var r := Nested(rs).value;
      if exists i :: GivesSite(rs, i, s, k) {
        var i :| GivesSite(rs, i, s, k);
        if i < n {
          assert GivesSite(front, i, s, k);
        }
      }
      if GivesSite(rs, n, s, k) {
        assert LastGivesSite(rs, n, s, k) && r[s][k] == rs[n].1.value[k];
      } else if s in r && k in r[s] {
        var i :| LastGivesSite(front, i, s, k) && prev[s][k] == front[i].1.value[k];
        assert LastGivesSite(rs, i, s, k);
      }
    }
  }
}

=== FILE: ngsbits_gender.dfy ===
/**
 * The three ngs-bits style sex checks: the ratio of reads on chrY to reads
 * on chrX, the fraction of heterozygous calls on chrX, and the read depth
 * over the SRY gene. The alignment and variant files are replaced by the
 * sequences of records the loops iterate over; the float rendering of the
 * reported numbers is the parameter `round`.
 */
module NgsbitsGender {
  import opened Wrappers
  import opened PyStr

  /** The call a check makes. */
  datatype Gender = Female | Male | Unknown

  /** The text the check reports for a call. */
  function GenderName(g: Gender): (s: string)
    ensures s in {"female", "male", "unknown"}
  {
    match g
    case Female => "female"
    case Male => "male"
    case Unknown => "unknown"
  }

  // ---------------------------------------------------------------------------
  // Counting
  // ---------------------------------------------------------------------------

  /** The number of elements of `xs` that satisfy `p`. */
  function Count<T>(xs: seq<T>, p: T -> bool): (n: nat)
    ensures n <= |xs|
    decreases |xs|
  {
    if xs == [] then 0
    else Count(xs[..|xs| - 1], p) + (if p(xs[|xs| - 1]) then 1 else 0)
  }

  /** Counting a longer prefix adds the last element when it qualifies. */
  lemma CountPrefix<T>(xs: seq<T>, p: T -> bool, i: nat)
    requires i < |xs|
    ensures Count(xs[..i + 1], p) == Count(xs[..i], p) + (if p(xs[i]) then 1 else 0)
  {
    assert xs[..i + 1][..i] == xs[..i];
  }

  /**
   * Two kinds of element that never coincide and both belong to a third
   * kind are together no more numerous than the third kind.
   */
  lemma {:induction false} CountDisjoint<T>(xs: seq<T>, p: T -> bool, q: T -> bool, r: T -> bool)
    requires forall x :: p(x) ==> r(x)
    requires forall x :: q(x) ==> r(x) && !p(x)
    ensures Count(xs, p) + Count(xs, q) <= Count(xs, r)
    decreases |xs|
  {
    if xs != [] {
      CountDisjoint(xs[..|xs| - 1], p, q, r);
    }
  }

  /** Counting a property that implies another never counts more. */
  lemma {:induction false} CountMonotone<T>(xs: seq<T>, p: T -> bool, r: T -> bool)
    requires forall x :: p(x) ==> r(x)
    ensures Count(xs, p) <= Count(xs, r)
    decreases |xs|
  {
    if xs != [] {
      CountMonotone(xs[..|xs| - 1], p, r);
    }
  }

  /** `a / b` when `b > 0`, otherwise 0. */
  function Ratio(a: nat, b: nat): (r: real)
    ensures r >= 0.0
    ensures b > 0 ==> r * b as real == a as real
    ensures b == 0 || a == 0 ==> r == 0.0
  {
    if b > 0 then a as real / b as real else 0.0
  }

  /** A part of a whole is a fraction between 0 and 1. */
  lemma RatioAtMostOne(a: nat, b: nat)
    requires a <= b
    ensures Ratio(a, b) <= 1.0
  {
    if b > 0 {
      assert Ratio(a, b) * b as real == a as real <= b as real;
    }
  }

  // ---------------------------------------------------------------------------
  // Reads on X and Y
  // ---------------------------------------------------------------------------

  const DefaultMaxFemale: real := 0.06
  const DefaultMinMale: real := 0.09

  /** An aligned read: its flags and the name of the reference it is aligned to. */
  datatype Read = Read(isUnmapped: bool, isDuplicate: bool, isSecondary: bool, isSupplementary: bool,
                       isPaired: bool, isProperPair: bool, refName: string)

  /** A read the X/Y count looks at. */
  predicate Accepted(read: Read, includeSingleEnd: bool) {
    !read.isUnmapped && !read.isDuplicate && !read.isSecondary && !read.isSupplementary
    && (includeSingleEnd || (read.isPaired && read.isProperPair))
  }

  predicate OnX(read: Read) {
    read.refName == "X" || read.refName == "chrX"
  }

  predicate OnY(read: Read) {
    read.refName == "Y" || read.refName == "chrY"
  }

  /** A read counted on X. */
  function XRead(includeSingleEnd: bool): Read -> bool {
    read => Accepted(read, includeSingleEnd) && OnX(read)
  }

  /** A read counted on Y: the X test comes first, so it is not also on X. */
  function YRead(includeSingleEnd: bool): Read -> bool {
    read => Accepted(read, includeSingleEnd) && !OnX(read) && OnY(read)
  }

  /** The first call that matches: female at or below `maxFemale`, else male at or above `minMale`. */
  function XyCall(ratio: real, maxFemale: real, minMale: real): (g: Gender)
    ensures g == Female <==> ratio <= maxFemale
    ensures g == Male <==> maxFemale < ratio && minMale <= ratio
    ensures g == Unknown <==> maxFemale < ratio < minMale
  {
    if ratio <= maxFemale then Female
    else if ratio >= minMale then Male
    else Unknown
  }

  /** More Y relative to X never moves a call from male towards female. */
  lemma XyCallMonotone(r1: real, r2: real, maxFemale: real, minMale: real)
    requires r1 <= r2
    ensures XyCall(r2, maxFemale, minMale) == Female ==> XyCall(r1, maxFemale, minMale) == Female
    ensures XyCall(r1, maxFemale, minMale) == Male ==> XyCall(r2, maxFemale, minMale) == Male
  {
  }

  /** What gender_xy returns: the call and its `add_info`. */
  datatype XyInfo = XyInfo(gender: Gender, readsX: nat, readsY: nat, ratio: real)

  function XyReport(aligned: seq<Read>, maxFemale: real, minMale: real, includeSingleEnd: bool,
                    round: (real, nat) -> real): XyInfo
  {
    var x := Count(aligned, XRead(includeSingleEnd));
    var y := Count(aligned, YRead(includeSingleEnd));
    XyInfo(XyCall(Ratio(y, x), maxFemale, minMale), x, y, round(Ratio(y, x), 4))
  }

  /**
   * Each accepted read is counted at most once, so the two counts together
   * are at most the number of accepted reads; with no read on X the ratio
   * is 0 and the call is female whenever `maxFemale` is not negative.
   */
  lemma XyReportSpec(aligned: seq<Read>, maxFemale: real, minMale: real, includeSingleEnd: bool,
                     round: (real, nat) -> real)
    ensures var info := XyReport(aligned, maxFemale, minMale, includeSingleEnd, round);
      info.readsX + info.readsY <= Count(aligned, (read: Read) => Accepted(read, includeSingleEnd))
    ensures var info := XyReport(aligned, maxFemale, minMale, includeSingleEnd, round);
      info.readsX == 0 && maxFemale >= 0.0 ==> info.gender == Female
  {
    CountDisjoint(aligned, XRead(includeSingleEnd), YRead(includeSingleEnd),
                  (read: Read) => Accepted(read, includeSingleEnd));
  }

  /** gender_xy: the loop over the reads and the call on their ratio; the thresholds default as in Python. */
  method GenderXy(aligned: seq<Read>, round: (real, nat) -> real, maxFemale: real := DefaultMaxFemale,
                  minMale: real := DefaultMinMale, includeSingleEnd: bool := false) returns (info: XyInfo)
    ensures info == XyReport(aligned, maxFemale, minMale, includeSingleEnd, round)
  {
    var chrX: nat := 0;
    var chrY: nat := 0;
    for i := 0 to |aligned|
      invariant chrX == Count(aligned[..i], XRead(includeSingleEnd))
      invariant chrY == Count(aligned[..i], YRead(includeSingleEnd))
    {
      CountPrefix(aligned, XRead(includeSingleEnd), i);
      CountPrefix(aligned, YRead(includeSingleEnd), i);
      var read := aligned[i];
      if read.isUnmapped || read.isDuplicate || read.isSecondary || read.isSupplementary {
        continue;
      }
      if !includeSingleEnd && (!read.isPaired || !read.isProperPair) {
        continue;
      }
      if read.refName == "X" || read.refName == "chrX" {
        chrX := chrX + 1;
      } else if read.refName == "Y" || read.refName == "chrY" {
        chrY := chrY + 1;
      }
    }
    assert aligned[..|aligned|] == aligned;
    var ratio := if chrX > 0 then chrY as real / chrX as real else 0.0;
    var gender;
    if ratio <= maxFemale {
      gender := Female;
    } else if ratio >= minMale {
      gender := Male;
    } else {
      gender := Unknown;
    }
    info := XyInfo(gender, chrX, chrY, round(ratio, 4));
  }

  // ---------------------------------------------------------------------------
  // Heterozygous calls on X
  // ---------------------------------------------------------------------------

  const DefaultMaxMale: real := 0.05
  const DefaultMinFemale: real := 0.25

  /**
   * A variant record: its chromosome, its number of alternate alleles and
   * the first two alleles of the first sample's genotype (None when not
   * called).
   */
  datatype Variant = Variant(chrom: string, numAlt: int, allele0: Option<int>, allele1: Option<int>)

  /** A variant the het fraction looks at: on X, not reference-only, both alleles called. */
  predicate Called(v: Variant) {
    (v.chrom == "X" || v.chrom == "chrX") && v.numAlt != 0 && v.allele0.Some? && v.allele1.Some?
  }

  function CalledVariant(): Variant -> bool {
    v => Called(v)
  }

  /** A counted variant whose two alleles differ. */
  function HetVariant(): Variant -> bool {
    v => Called(v) && v.allele0 != v.allele1
  }

  /** Female is checked first: at or above `minFemale`; then male at or below `maxMale`. */
  function HetxCall(fraction: real, maxMale: real, minFemale: real): (g: Gender)
    ensures g == Female <==> minFemale <= fraction
    ensures g == Male <==> fraction < minFemale && fraction <= maxMale
    ensures g == Unknown <==> maxMale < fraction < minFemale
  {
    if fraction >= minFemale then Female
    else if fraction <= maxMale then Male
    else Unknown
  }

  /** More heterozygous calls never move a call from female towards male. */
  lemma HetxCallMonotone(f1: real, f2: real, maxMale: real, minFemale: real)
    requires f1 <= f2
    ensures HetxCall(f1, maxMale, minFemale) == Female ==> HetxCall(f2, maxMale, minFemale) == Female
    ensures HetxCall(f2, maxMale, minFemale) == Male ==> HetxCall(f1, maxMale, minFemale) == Male
  {
  }

  /** What gender_hetx returns: the call and its `add_info`. */
  datatype HetxInfo = HetxInfo(gender: Gender, totalSnps: nat, hetSnps: nat, fraction: real)

  function HetxReport(variants: seq<Variant>, maxMale: real, minFemale: real, round: (real, nat) -> real): HetxInfo {
    var total := Count(variants, CalledVariant());
    var het := Count(variants, HetVariant());
    HetxInfo(HetxCall(Ratio(het, total), maxMale, minFemale), total, het, round(Ratio(het, total), 4))
  }

  /**
   * There are never more heterozygous calls than counted calls, so the
   * fraction lies between 0 and 1; with no counted call it is 0.
   */
  lemma HetxReportSpec(variants: seq<Variant>, maxMale: real, minFemale: real, round: (real, nat) -> real)
    ensures var info := HetxReport(variants, maxMale, minFemale, round);
      info.hetSnps <= info.totalSnps
      && 0.0 <= Ratio(info.hetSnps, info.totalSnps) <= 1.0
    ensures var info := HetxReport(variants, maxMale, minFemale, round);
      info.totalSnps == 0 ==> info.gender == HetxCall(0.0, maxMale, minFemale)
  {
    CountMonotone(variants, HetVariant(), CalledVariant());
    var info := HetxReport(variants, maxMale, minFemale, round);
    RatioAtMostOne(info.hetSnps, info.totalSnps);
  }

  /** gender_hetx: the loop over the variants and the call on the het fraction; the thresholds default as in Python. */
  method GenderHetx(variants: seq<Variant>, round: (real, nat) -> real, maxMale: real := DefaultMaxMale,
                    minFemale: real := DefaultMinFemale)
    returns (info: HetxInfo)
    ensures info == HetxReport(variants, maxMale, minFemale, round)
  {
    var het: nat := 0;
    var total: nat := 0;
    for i := 0 to |variants|
      invariant total == Count(variants[..i], CalledVariant())
      invariant het == Count(variants[..i], HetVariant())
    {
      CountPrefix(variants, CalledVariant(), i);
      CountPrefix(variants, HetVariant(), i);
      var v := variants[i];
      if v.chrom != "X" && v.chrom != "chrX" {
        continue;
      }
      if v.numAlt == 0 {
        continue;
      }
      if v.allele0.None? || v.allele1.None? {
        continue;
      }
      total := total + 1;
      if v.allele0 != v.allele1 {
        het := het + 1;
      }
    }
    assert variants[..|variants|] == variants;
    var fraction := if total > 0 then het as real / total as real else 0.0;
    var gender;
    if fraction >= minFemale {
      gender := Female;
    } else if fraction <= maxMale {
      gender := Male;
    } else {
      gender := Unknown;
    }
    info := HetxInfo(gender, total, het, round(fraction, 4));
  }

  // ---------------------------------------------------------------------------
  // SRY coverage
  // ---------------------------------------------------------------------------

  const DefaultBuild: string := "hg38"
  const DefaultMinCoverage: real := 20.0

  /** A region of a chromosome, both ends included. */
  datatype Region = Region(chrom: string, start: int, end: int)

  /** A pileup column: a position and the number of aligned covering it. */
  datatype Column = Column(pos: int, nsegments: nat)

  /** The SRY gene on chrY in the two supported builds; any other build raises. */
  function SryRegion(build: string): (r: Result<Region>)
    ensures r.Ok? <==> build == "hg19" || build == "hg38"
    ensures r.Err? ==> r.error == ValueError
    ensures r.Ok? ==> r.value.chrom == "Y" && r.value.start <= r.value.end
    ensures r.Ok? ==> r.value.end - r.value.start + 1 == (if build == "hg19" then 478 else 479)
  {
    if build == "hg19" then Ok(Region("Y", 2781507, 2781984))
    else if build == "hg38" then Ok(Region("Y", 2782183, 2782661))
    else Err(ValueError)
  }

  /** The aligned over the columns whose position lies in the region. */
  function RegionCoverage(cols: seq<Column>, region: Region): nat
    decreases |cols|
  {
    if cols == [] then 0
    else
      var last := cols[|cols| - 1];
      RegionCoverage(cols[..|cols| - 1], region)
        + (if region.start <= last.pos <= region.end then last.nsegments else 0)
  }

  /** Summing a longer prefix adds the last column when it lies in the region. */
  lemma RegionCoveragePrefix(cols: seq<Column>, region: Region, i: nat)
    requires i < |cols|
    ensures RegionCoverage(cols[..i + 1], region)
            == RegionCoverage(cols[..i], region)
               + (if region.start <= cols[i].pos <= region.end then cols[i].nsegments else 0)
  {
    assert cols[..i + 1][..i] == cols[..i];
  }

  /** The columns whose position lies in the region, in order. */
  function InRegion(cols: seq<Column>, region: Region): (r: seq<Column>)
    ensures forall c :: c in r <==> c in cols && region.start <= c.pos <= region.end
    decreases |cols|
  {
    if cols == [] then []
    else
      assert forall c :: c in cols <==> c == cols[0] || c in cols[1..];
      (if region.start <= cols[0].pos <= region.end then [cols[0]] else []) + InRegion(cols[1..], region)
  }

  /** The sum of the aligned over all columns. */
  function SumSegments(cols: seq<Column>): nat
    decreases |cols|
  {
    if cols == [] then 0 else cols[0].nsegments + SumSegments(cols[1..])
  }

  /**
   * The total is the sum of the aligned over exactly the columns in the
   * region; so every column in the region adds its reads to the total, and
   * a pileup with no column in the region has total 0.
   */
  lemma {:induction false} RegionCoverageSpec(cols: seq<Column>, region: Region)
    ensures RegionCoverage(cols, region) == SumSegments(InRegion(cols, region))
    ensures forall i :: 0 <= i < |cols| && region.start <= cols[i].pos <= region.end ==>
              cols[i].nsegments <= RegionCoverage(cols, region)
    ensures (forall i :: 0 <= i < |cols| ==> !(region.start <= cols[i].pos <= region.end)) ==>
              RegionCoverage(cols, region) == 0
    decreases |cols|
  {
    RegionCoverageSum(cols, region);
    if cols != [] {
      RegionCoverageSpec(cols[..|cols| - 1], region);
    }
  }

  /** The total, summed from the back, is the sum over the in-region columns from the front. */
  lemma {:induction false} RegionCoverageSum(cols: seq<Column>, region: Region)
    ensures RegionCoverage(cols, region) == SumSegments(InRegion(cols, region))
    decreases |cols|
  {
    if cols != [] {
      RegionCoverageSum(cols[1..], region);
      RegionCoverageAppend([cols[0]], cols[1..], region);
      assert [cols[0]] + cols[1..] == cols;
      assert [cols[0]][..0] == [];
      if region.start <= cols[0].pos <= region.end {
        assert ([cols[0]] + InRegion(cols[1..], region))[1..] == InRegion(cols[1..], region);
      } else {
        assert [] + InRegion(cols[1..], region) == InRegion(cols[1..], region);
      }
    }
  }

  /** The total over two runs of columns is the sum of their totals. */
  lemma {:induction false} RegionCoverageAppend(a: seq<Column>, b: seq<Column>, region: Region)
    ensures RegionCoverage(a + b, region) == RegionCoverage(a, region) + RegionCoverage(b, region)
    decreases |b|
  {
    if b == [] {
      assert a + b == a;
    } else {
      assert (a + b)[..|a + b| - 1] == a + b[..|b| - 1];
      assert (a + b)[|a + b| - 1] == b[|b| - 1];
      RegionCoverageAppend(a, b[..|b| - 1], region);
    }
  }

  /** The order in which the pileup yields two runs of columns does not change the total. */
  lemma RegionCoverageSwap(a: seq<Column>, b: seq<Column>, region: Region)
    ensures RegionCoverage(a + b, region) == RegionCoverage(b + a, region)
  {
    RegionCoverageAppend(a, b, region);
    RegionCoverageAppend(b, a, region);
  }

  /** The region as the check reports it: `chrom:start-end`. */
  function RegionName(region: Region): string {
    region.chrom + ":" + IntToString(region.start) + "-" + IntToString(region.end)
  }

  /** Male at or above `minCoverage`, female below: never unknown. */
  function SryCall(avg: real, minCoverage: real): (g: Gender)
    ensures g != Unknown
    ensures g == Male <==> avg >= minCoverage
  {
    if avg >= minCoverage then Male else Female
  }

  /**
   * The mean depth over the region: the covered aligned over the region's
   * length, or 0 over 1 when the file has no such region.
   */
  function MeanCoverage(region: Region, pileup: Region -> Option<seq<Column>>): real
    requires region.start <= region.end
  {
    match pileup(region)
    case None => 0.0 / 1.0
    case Some(cols) => RegionCoverage(cols, region) as real / (region.end - region.start + 1) as real
  }

  /** What gender_sry returns: the call and its `add_info`. */
  datatype SryInfo = SryInfo(gender: Gender, avgCoverage: real, region: string, minMaleCov: real)

  function SryReport(build: string, pileup: Region -> Option<seq<Column>>, minCoverage: real,
                     round: (real, nat) -> real): Result<SryInfo>
  {
    match SryRegion(build)
    case Err(e) => Err(e)
    case Ok(region) =>
      var avg := MeanCoverage(region, pileup);
      Ok(SryInfo(SryCall(avg, minCoverage), round(avg, 2), RegionName(region), minCoverage))
  }

  /**
   * gender_sry raises iff the build is neither hg19 nor hg38; otherwise the
   * call is male or female, never unknown, and a file without the region
   * gives depth 0 and so a female call whenever `minCoverage` is positive.
   */
  lemma SryReportSpec(build: string, pileup: Region -> Option<seq<Column>>, minCoverage: real,
                      round: (real, nat) -> real)
    ensures SryReport(build, pileup, minCoverage, round).Err? <==> build != "hg19" && build != "hg38"
    ensures SryReport(build, pileup, minCoverage, round).Err? ==> SryReport(build, pileup, minCoverage, round).error == ValueError
    ensures SryReport(build, pileup, minCoverage, round).Ok? ==>
      SryReport(build, pileup, minCoverage, round).value.gender != Unknown
      && SryReport(build, pileup, minCoverage, round).value.region == RegionName(SryRegion(build).value)
    ensures SryReport(build, pileup, minCoverage, round).Ok? && pileup(SryRegion(build).value).None? && minCoverage > 0.0 ==>
      SryReport(build, pileup, minCoverage, round).value.gender == Female
  {
  }

  /** gender_sry: the loop over the pileup of the region and the call on the mean depth; build and threshold default as in Python. */
  method GenderSry(pileup: Region -> Option<seq<Column>>, round: (real, nat) -> real,
                   build: string := DefaultBuild, minCoverage: real := DefaultMinCoverage) returns (r: Result<SryInfo>)
    ensures r == SryReport(build, pileup, minCoverage, round)
  {
    var region;
    if build == "hg19" {
      region := Region("Y", 2781507, 2781984);
    } else if build == "hg38" {
      region := Region("Y", 2782183, 2782661);
    } else {
      return Err(ValueError);
    }
    var coverageTotal: nat := 0;
    var baseCount: nat := region.end - region.start + 1;
    var columns := pileup(region);
    if columns.None? {
      baseCount := 1;
      coverageTotal := 0;
    } else {
      var cols := columns.value;
      for i := 0 to |cols|
        invariant coverageTotal == RegionCoverage(cols[..i], region)
      {
        RegionCoveragePrefix(cols, region, i);
        if region.start <= cols[i].pos <= region.end {
          coverageTotal := coverageTotal + cols[i].nsegments;
        }
      }
      assert cols[..|cols|] == cols;
    }
    assert SryRegion(build) == Ok(region);
    var avg := coverageTotal as real / baseCount as real;
    assert avg == MeanCoverage(region, pileup);
    var gender := if avg >= minCoverage then Male else Female;
    r := Ok(SryInfo(gender, round(avg, 2), RegionName(region), minCoverage));
  }
}

=== FILE: pystr.dfy ===
/**
 * The Python string and list operations the parsers rely on, with the exact
 * semantics of CPython's `str.split(sep)`, `str.strip()`, `str.rstrip()`,
 * `str.splitlines()`, `str.startswith`, `str.replace`, slicing, `zip` and
 * `str(int)`.
 */
module PyStr {

  function Min(a: int, b: int): int {
    if a <= b then a else b
  }

  /** The characters for which `str.isspace()` holds: what `strip()` removes. */
  predicate IsSpace(c: char) {
    var n := c as int;
    n == 0x20 || 0x09 <= n <= 0x0D || 0x1C <= n <= 0x1F || n == 0x85 || n == 0xA0
    || n == 0x1680 || 0x2000 <= n <= 0x200A || n == 0x2028 || n == 0x2029
    || n == 0x202F || n == 0x205F || n == 0x3000
  }

  /** The line boundaries recognised by `str.splitlines()`. */
  predicate IsLineBreak(c: char) {
    var n := c as int;
    0x0A <= n <= 0x0D || 0x1C <= n <= 0x1E || n == 0x85 || n == 0x2028 || n == 0x2029
  }

  // ---------------------------------------------------------------------------
  // str.split(sep) with an explicit one-character separator
  // ---------------------------------------------------------------------------

  /** `s.split(sep)`: the fields between separators, empty fields included. */
  function Split(s: string, sep: char): (fields: seq<string>)
    ensures |fields| == multiset(s)[sep] + 1
    ensures NoSep(fields, sep)
    decreases |s|
  {
    if s == [] then [""]
    else
      assert s == [s[0]] + s[1..];
      if s[0] == sep then [""] + Split(s[1..], sep)
      else
        var rest := Split(s[1..], sep);
        [[s[0]] + rest[0]] + rest[1..]
  }

  /** `sep.join(fields)`. */
  function Join(fields: seq<string>, sep: char): string
    decreases |fields|
  {
    if fields == [] then ""
    else if |fields| == 1 then fields[0]
    else fields[0] + [sep] + Join(fields[1..], sep)
  }

  predicate NoSep(fields: seq<string>, sep: char) {
    forall i :: 0 <= i < |fields| ==> sep !in fields[i]
  }

  lemma JoinConsChar(c: char, fields: seq<string>, sep: char)
    requires |fields| >= 1
    ensures Join([[c] + fields[0]] + fields[1..], sep) == [c] + Join(fields, sep)
  {
    var g := [[c] + fields[0]] + fields[1..];
    if |fields| > 1 {
      assert g[1..] == fields[1..];
    }
  }

  lemma JoinConsEmpty(fields: seq<string>, sep: char)
    requires |fields| >= 1
    ensures Join([""] + fields, sep) == [sep] + Join(fields, sep)
  {
    assert ([""] + fields)[1..] == fields;
  }

  /** Splitting loses nothing: re-joining the fields gives the string back. */
  lemma {:induction false} SplitJoin(s: string, sep: char)
    ensures Join(Split(s, sep), sep) == s
    decreases |s|
  {
    if s != [] {
      SplitJoin(s[1..], sep);
      var rest := Split(s[1..], sep);
      if s[0] == sep {
        assert Split(s, sep) == [""] + rest;
        JoinConsEmpty(rest, sep);
      } else {
        assert Split(s, sep) == [[s[0]] + rest[0]] + rest[1..];
        JoinConsChar(s[0], rest, sep);
      }
      assert s == [s[0]] + s[1..];
    }
  }

  lemma {:induction false} SplitNoSep(p: string, sep: char)
    requires sep !in p
    ensures Split(p, sep) == [p]
    decreases |p|
  {
    if p != [] {
      assert sep !in p[1..] by {
        forall i | 0 <= i < |p[1..]| ensures p[1..][i] != sep {
          assert p[1..][i] == p[i + 1];
        }
      }
      SplitNoSep(p[1..], sep);
      assert [p[0]] + p[1..] == p;
    }
  }

  lemma {:induction false} SplitAfterField(p: string, sep: char, t: string)
    requires sep !in p
    ensures Split(p + [sep] + t, sep) == [p] + Split(t, sep)
    decreases |p|
  {
    var s := p + [sep] + t;
    if p == [] {
      assert s[1..] == t;
    } else {
      assert s[1..] == p[1..] + [sep] + t;
      assert sep !in p[1..] by {
        forall i | 0 <= i < |p[1..]| ensures p[1..][i] != sep {
          assert p[1..][i] == p[i + 1];
        }
      }
      SplitAfterField(p[1..], sep, t);
      assert [p[0]] + p[1..] == p;
    }
  }

  /** Joining separator-free fields and splitting again gives the fields back. */
  lemma {:induction false} JoinSplit(fields: seq<string>, sep: char)
    requires |fields| >= 1 && NoSep(fields, sep)
    ensures Split(Join(fields, sep), sep) == fields
    decreases |fields|
  {
    if |fields| == 1 {
      SplitNoSep(fields[0], sep);
    } else {
      assert NoSep(fields[1..], sep) by {
        forall i | 0 <= i < |fields[1..]| ensures sep !in fields[1..][i] {
          assert fields[1..][i] == fields[i + 1];
        }
      }
      JoinSplit(fields[1..], sep);
      assert sep !in fields[0];
      SplitAfterField(fields[0], sep, Join(fields[1..], sep));
      assert [fields[0]] + fields[1..] == fields;
    }
  }

  // ---------------------------------------------------------------------------
  // str.rstrip(), str.lstrip(), str.strip() with no argument
  // ---------------------------------------------------------------------------

  /** `s.rstrip()`: the longest prefix of `s` that does not end in whitespace. */
  function RStrip(s: string): (r: string)
    ensures r <= s
    ensures r == [] || !IsSpace(r[|r| - 1])
    ensures forall i :: |r| <= i < |s| ==> IsSpace(s[i])
    decreases |s|
  {
    if s != [] && IsSpace(s[|s| - 1]) then RStrip(s[..|s| - 1]) else s
  }

  /** `s.lstrip()`: the longest suffix of `s` that does not start with whitespace. */
  function LStrip(s: string): (r: string)
    ensures |r| <= |s| && r == s[|s| - |r|..]
    ensures r == [] || !IsSpace(r[0])
    ensures forall i :: 0 <= i < |s| - |r| ==> IsSpace(s[i])
    decreases |s|
  {
    if s != [] && IsSpace(s[0]) then LStrip(s[1..]) else s
  }

  /** `s.strip()`. */
  function Strip(s: string): string {
    LStrip(RStrip(s))
  }

  // ---------------------------------------------------------------------------
  // str.splitlines()
  // ---------------------------------------------------------------------------

  /** Index of the first line boundary in `s`, or `|s|` when there is none. */
  function LineEnd(s: string): (i: nat)
    ensures i <= |s|
    ensures forall j :: 0 <= j < i ==> !IsLineBreak(s[j])
    ensures i < |s| ==> IsLineBreak(s[i])
    decreases |s|
  {
    if s == [] || IsLineBreak(s[0]) then 0 else 1 + LineEnd(s[1..])
  }

  /**
   * `s.splitlines()`: the lines without their terminators; "\r\n" is one
   * boundary, and a final terminator does not start an empty line.
   */
  function SplitLines(s: string): (lines: seq<string>)
    ensures s == [] <==> lines == []
    ensures forall k :: 0 <= k < |lines| ==> forall c :: c in lines[k] ==> !IsLineBreak(c)
    decreases |s|
  {
    if s == [] then []
    else
      var i := LineEnd(s);
      if i == |s| then [s]
      else
        var next := if s[i] == '\r' && i + 1 < |s| && s[i + 1] == '\n' then i + 2 else i + 1;
        [s[..i]] + SplitLines(s[next..])
  }

  // ---------------------------------------------------------------------------
  // startswith, replace, slicing, zip, str(int)
  // ---------------------------------------------------------------------------

  predicate StartsWith(s: string, prefix: string) {
    prefix <= s
  }

  /** Whether `pat` occurs in `s` at some position. */
  predicate Contains(s: string, pat: string)
    decreases |s|
  {
    pat <= s || (s != [] && Contains(s[1..], pat))
  }

  /**
   * `s.replace(pat, rep)`: every non-overlapping occurrence of `pat`, scanning
   * from the left, is replaced by `rep` (an empty `pat` matches between
   * every two characters and at both ends).
   */
  function Replace(s: string, pat: string, rep: string): string
    decreases |s|
  {
    if pat == [] then
      if s == [] then rep else rep + [s[0]] + Replace(s[1..], pat, rep)
    else if pat <= s then rep + Replace(s[|pat|..], pat, rep)
    else if s == [] then []
    else [s[0]] + Replace(s[1..], pat, rep)
  }

  /** A string in which the pattern does not occur is left as it is. */
  lemma {:induction false} ReplaceAbsent(s: string, pat: string, rep: string)
    requires !Contains(s, pat)
    ensures Replace(s, pat, rep) == s
    decreases |s|
  {
    if s != [] {
      ReplaceAbsent(s[1..], pat, rep);
      assert [s[0]] + s[1..] == s;
    }
  }

  /**
   * A non-empty pattern at the end of a string, occurring nowhere before that
   * last position, is removed by replacing it with "".
   */
  lemma {:induction false} ReplaceSuffix(s: string, pat: string)
    requires pat != [] && !Contains((s + pat)[..|s| + |pat| - 1], pat)
    ensures Replace(s + pat, pat, "") == s
    decreases |s|
  {
    var t := s + pat;
    if s == [] {
      assert t == pat && t[|pat|..] == [];
    } else {
      var front := t[..|s| + |pat| - 1];
      assert front[..|pat|] == t[..|pat|];
      assert !(pat <= front);
      assert !(pat <= t);
      assert t[1..] == s[1..] + pat;
      assert (s[1..] + pat)[..|s[1..]| + |pat| - 1] == front[1..];
      ReplaceSuffix(s[1..], pat);
      assert [s[0]] + s[1..] == s;
    }
  }

  /** The Python slice `s[lo:hi]` for non-negative bounds (clamped to the length). */
  function Slice<T>(s: seq<T>, lo: nat, hi: nat): (r: seq<T>)
    ensures |r| == if lo < hi && lo < |s| then Min(hi, |s|) - lo else 0
    ensures forall i :: 0 <= i < |r| ==> r[i] == s[lo + i]
  {
    if lo >= |s| || lo >= hi then [] else s[lo..Min(hi, |s|)]
  }

  /** `list(zip(a, b))`: pairs up to the shorter length. */
  function Zip<A, B>(a: seq<A>, b: seq<B>): (r: seq<(A, B)>)
    ensures |r| == Min(|a|, |b|)
    ensures forall i :: 0 <= i < |r| ==> r[i] == (a[i], b[i])
  {
    seq(Min(|a|, |b|), i requires 0 <= i < Min(|a|, |b|) => (a[i], b[i]))
  }

  function DigitChar(d: nat): (c: char)
    requires d < 10
  {
    (48 + d) as char
  }

  /** `str(n)` for a natural number: its decimal digits, most significant first. */
  function NatToString(n: nat): (s: string)
    ensures |s| >= 1
    ensures n >= 10 ==> |s| >= 2
    ensures forall i :: 0 <= i < |s| ==> '0' <= s[i] <= '9'
    decreases n
  {
    if n < 10 then [DigitChar(n)] else NatToString(n / 10) + [DigitChar(n % 10)]
  }

  /** `str(i)` for an integer. */
  function IntToString(i: int): (s: string)
    ensures |s| >= 1
    ensures s[0] == '-' <==> i < 0
  {
    if i < 0 then "-" + NatToString(-i) else NatToString(i)
  }

  /** Different numbers have different decimal renderings. */
  lemma {:induction false} NatToStringInjective(a: nat, b: nat)
    requires NatToString(a) == NatToString(b)
    ensures a == b
    decreases a
  {
    var s := NatToString(a);
    if a >= 10 && b >= 10 {
      assert s[|s| - 1] == DigitChar(a % 10) == DigitChar(b % 10);
      assert s[..|s| - 1] == NatToString(a / 10) == NatToString(b / 10);
      NatToStringInjective(a / 10, b / 10);
    } else if a < 10 && b < 10 {
      assert DigitChar(a) == s[0] == DigitChar(b);
    }
  }

  lemma IntToStringInjective(a: int, b: int)
    requires IntToString(a) == IntToString(b)
    ensures a == b
  {
    if a < 0 {
      assert IntToString(a)[1..] == NatToString(-a);
      assert IntToString(b)[1..] == NatToString(-b);
      NatToStringInjective(-a, -b);
    } else {
      NatToStringInjective(a, b);
    }
  }
}

=== FILE: sample_gender.dfy ===
/**
 * The sex-prediction table: each method's two-line TSV report becomes a
 * record, the records of one sample from the three methods are merged, and
 * a majority vote over the three per-method calls gives the calculated sex
 * and its certainty.
 */
module SampleGender {
  import opened Wrappers
  import opened PyStr
  import opened Dicts

  /** A Python float as `float()` may return it. */
  datatype PyFloat = Finite(x: real) | Infinite(positive: bool) | NaN

  /** A table cell: a number or a string. */
  datatype Cell = Number(n: PyFloat) | Text(s: string)

  type Record = map<string, Cell>

  /** A report file as the host finds it: its sample name and its text. */
  datatype LogFile = LogFile(sName: string, contents: string)

  const Tab: char := '\t'
  const NotAvailable: string := "N/A"
  const Male: string := "M"
  const Female: string := "F"
  /** `paramdict`: a metric column and the name the method's call column takes. */
  const Renames: seq<(string, string)> :=
    [("reads_chry", "gender_xy"), ("het_fraction", "gender_hetx"), ("coverage_sry", "gender_sry")]
  /** `method_dict`: the search key of each method's reports and the suffix of their sample names. */
  const MethodKeys: seq<(string, string)> :=
    [("sample_gender/xy", "_xy"), ("sample_gender/hetx", "_hetx"), ("sample_gender/sry", "_sry")]
  const GenderMethods: seq<string> := ["gender_xy", "gender_hetx", "gender_sry"]
  const CertaintyKey: string := "certainty"
  const CalcGenderKey: string := "calc_gender"

  // ---------------------------------------------------------------------------
  // parse_file
  // ---------------------------------------------------------------------------

  /** `line.strip().split("\t")[1:6]`: the columns 2 to 6 of a line. */
  function Fields(line: string): (fields: seq<string>)
    ensures |fields| <= 5
  {
    Slice(Split(Strip(line), Tab), 1, 6)
  }

  /** "male" becomes "M", "female" becomes "F", anything else is kept. */
  function Abbreviate(v: string): (a: string)
    ensures v == "male" ==> a == Male
    ensures v == "female" ==> a == Female
    ensures v != "male" && v != "female" ==> a == v
  {
    if v == "male" then Male else if v == "female" then Female else v
  }

  /**
   * The renaming loop over `paramdict`: for each metric in turn, when it is
   * among the current headers the first header takes its call name.
   */
  function RenameFirst(headers: seq<string>, renames: seq<(string, string)>): (r: seq<string>)
    ensures |r| == |headers|
    ensures |headers| > 0 ==> r[1..] == headers[1..]
    decreases |renames|
  {
    if renames == [] then headers
    else
      var h := if renames[0].0 in headers then headers[0 := renames[0].1] else headers;
      RenameFirst(h, renames[1..])
  }

  /** The index in `renames` of the last metric that occurs among `rest`, if any. */
  function LastIn(rest: seq<string>, renames: seq<(string, string)>): (k: Option<nat>)
    ensures k.Some? ==> k.value < |renames| && renames[k.value].0 in rest
    ensures k.Some? ==> forall j :: k.value < j < |renames| ==> renames[j].0 !in rest
    ensures k.None? ==> forall j :: 0 <= j < |renames| ==> renames[j].0 !in rest
    decreases |renames|
  {
    if renames == [] then None
    else if renames[|renames| - 1].0 in rest then Some(|renames| - 1)
    else LastIn(rest, renames[..|renames| - 1])
  }

  /** The index in `renames` of metric `h`, if it is one. */
  function IndexOf(h: string, renames: seq<(string, string)>): (k: Option<nat>)
    ensures k.Some? ==> k.value < |renames| && renames[k.value].0 == h
    ensures k.None? ==> forall j :: 0 <= j < |renames| ==> renames[j].0 != h
    decreases |renames|
  {
    if renames == [] then None
    else if renames[|renames| - 1].0 == h then Some(|renames| - 1)
    else IndexOf(h, renames[..|renames| - 1])
  }

  /**
   * The name the first column ends with: the call name of the last metric
   * (in `paramdict` order) among the other columns; failing that, the call
   * name of the first column itself when it is a metric; otherwise unchanged.
   */
  function ExpectedFirst(first: string, rest: seq<string>, renames: seq<(string, string)>): string {
    match LastIn(rest, renames)
    case Some(k) => renames[k].1
    case None =>
      match IndexOf(first, renames)
      case Some(k) => renames[k].1
      case None => first
  }

  /**
   * The renaming loop gives the first header its expected name, and leaves
   * the others alone. A metric in the first column is not seen any more
   * once an earlier metric has renamed that column.
   */
  lemma {:induction false} RenameFirstSpec(headers: seq<string>, renames: seq<(string, string)>)
    requires |headers| > 0
    requires forall j, m :: 0 <= j < |renames| && 0 <= m < |renames| ==> renames[j].0 != renames[m].1
    requires forall j, m :: 0 <= j < m < |renames| ==> renames[j].0 != renames[m].0
    ensures RenameFirst(headers, renames)[0] == ExpectedFirst(headers[0], headers[1..], renames)
    ensures RenameFirst(headers, renames)[1..] == headers[1..]
    decreases |renames|
  {
    if renames != [] {
      var h := if renames[0].0 in headers then headers[0 := renames[0].1] else headers;
      assert h[1..] == headers[1..];
      RenameFirstSpec(h, renames[1..]);
      assert renames[0].0 in headers <==> renames[0].0 in headers[1..] || renames[0].0 == headers[0] by {
        assert headers == [headers[0]] + headers[1..];
      }
      ExpectedFirstStep(headers[0], headers[1..], renames);
    }
  }

  /** One step of the renaming loop keeps the expected name of the first column. */
  lemma ExpectedFirstStep(first: string, rest: seq<string>, renames: seq<(string, string)>)
    requires renames != []
    requires forall j, m :: 0 <= j < |renames| && 0 <= m < |renames| ==> renames[j].0 != renames[m].1
    requires forall j, m :: 0 <= j < m < |renames| ==> renames[j].0 != renames[m].0
    ensures var first' := if renames[0].0 in rest || renames[0].0 == first then renames[0].1 else first;
      ExpectedFirst(first', rest, renames[1..]) == ExpectedFirst(first, rest, renames)
  {
    LastInCons(rest, renames);
    IndexOfCons(first, renames);
    if renames[0].0 in rest || renames[0].0 == first {
      IndexOfCall(renames);
    }
  }

  /** A call name is not a metric. */
  lemma IndexOfCall(renames: seq<(string, string)>)
    requires renames != []
    requires forall j, m :: 0 <= j < |renames| && 0 <= m < |renames| ==> renames[j].0 != renames[m].1
    ensures IndexOf(renames[0].1, renames[1..]).None?
  {
  }

  lemma LastInCons(rest: seq<string>, renames: seq<(string, string)>)
    requires renames != []
    ensures LastIn(rest, renames) ==
      match LastIn(rest, renames[1..])
      case Some(k) => Some(k + 1)
      case None => if renames[0].0 in rest then Some(0) else None
  {
    var a := LastIn(rest, renames);
    var b := LastIn(rest, renames[1..]);
    if b.Some? {
      assert renames[b.value + 1].0 in rest;
    }
  }

  lemma IndexOfCons(h: string, renames: seq<(string, string)>)
    requires renames != []
    requires forall j, m :: 0 <= j < m < |renames| ==> renames[j].0 != renames[m].0
    ensures IndexOf(h, renames) ==
      match IndexOf(h, renames[1..])
      case Some(k) => Some(k + 1)
      case None => if renames[0].0 == h then Some(0) else None
  {
    var a := IndexOf(h, renames);
    var b := IndexOf(h, renames[1..]);
    if b.Some? {
      assert renames[b.value + 1].0 == h;
    }
  }

  /** `float(value)`, with a NaN shown as "N/A" and a non-numeral kept as text. */
  function Coerce(value: string, toFloat: string -> Option<PyFloat>): (c: Cell)
    ensures toFloat(value).None? ==> c == Text(value)
    ensures toFloat(value) == Some(NaN) ==> c == Text(NotAvailable)
    ensures toFloat(value).Some? && !toFloat(value).value.NaN? ==> c == Number(toFloat(value).value)
    ensures c.Number? ==> !c.n.NaN?
  {
    match toFloat(value)
    case None => Text(value)
    case Some(NaN) => Text(NotAvailable)
    case Some(f) => Number(f)
  }

  /** The header/value pairs of a report, after abbreviation and renaming, as zip pairs them. */
  function Pairs(headers: seq<string>, values: seq<string>): (pairs: seq<(string, string)>)
    requires values != []
    ensures |pairs| == Min(|headers|, |values|)
  {
    Zip(RenameFirst(headers, Renames), values[0 := Abbreviate(values[0])])
  }

  /** The assignments `parsed_data[key] = ...`, one per pair. */
  function CellSteps(pairs: seq<(string, string)>, toFloat: string -> Option<PyFloat>): (steps: seq<Option<(string, Cell)>>)
    ensures |steps| == |pairs|
    ensures forall i :: 0 <= i < |pairs| ==> steps[i] == Some((pairs[i].0, Coerce(pairs[i].1, toFloat)))
  {
    seq(|pairs|, i requires 0 <= i < |pairs| => Some((pairs[i].0, Coerce(pairs[i].1, toFloat))))
  }

  /**
   * parse_file: fewer than two lines give {}; otherwise the columns of the
   * first two lines are paired.
   */
  function ParseFile(contents: string, toFloat: string -> Option<PyFloat>): (r: Result<Record>)
    ensures |SplitLines(contents)| < 2 ==> r == Ok(map[])
    ensures r.Err? <==> |SplitLines(contents)| >= 2 && Fields(SplitLines(contents)[1]) == []
    ensures r.Err? ==> r.error == IndexError
    ensures r.Ok? ==> |r.value| <= 5
  {
    var lines := SplitLines(contents);
    if |lines| < 2 then Ok(map[]) else ParseColumns(Fields(lines[0]), Fields(lines[1]), toFloat)
  }

  /**
   * The header and value columns made into a record: a row without values
   * leaves nothing to abbreviate (IndexError); otherwise the columns are
   * paired and each value coerced.
   */
  function ParseColumns(headers: seq<string>, values: seq<string>, toFloat: string -> Option<PyFloat>): (r: Result<Record>)
    ensures r.Err? <==> values == []
    ensures r.Err? ==> r.error == IndexError
    ensures r.Ok? ==> |r.value| <= |values|
  {
    if values == [] then Err(IndexError)
    else
      var steps := CellSteps(Pairs(headers, values), toFloat);
      AssignedKeys(steps);
      Ok(Assigned(steps))
  }

  /** The dictionary has at most one key per assignment. */
  lemma {:induction false} AssignedKeys<K, V>(steps: seq<Option<(K, V)>>)
    ensures |Assigned(steps)| <= |steps|
    decreases |steps|
  {
    if steps != [] {
      AssignedKeys(steps[..|steps| - 1]);
    }
  }

  /**
   * The record of a report with values: a key is present iff it is one of
   * the paired headers, and it holds the coerced value of the last column
   * with that header.
   */
  lemma ParseColumnsEntries(headers: seq<string>, values: seq<string>, toFloat: string -> Option<PyFloat>, k: string)
    requires values != []
    ensures var pairs := Pairs(headers, values);
      var rec := ParseColumns(headers, values, toFloat).value;
      && (k in rec <==> exists i :: 0 <= i < |pairs| && pairs[i].0 == k)
      && (k in rec ==> exists i :: 0 <= i < |pairs| && pairs[i].0 == k && rec[k] == Coerce(pairs[i].1, toFloat)
                                   && forall j :: i < j < |pairs| ==> pairs[j].0 != k)
  {
    var pairs := Pairs(headers, values);
    var steps := CellSteps(pairs, toFloat);
    AssignedLastWins(steps, k);
    if k in Assigned(steps) {
      var i :| IsLastFor(steps, i, k) && Assigned(steps)[k] == steps[i].value.1;
      forall j | i < j < |pairs| ensures pairs[j].0 != k {
        assert !Assigns(steps, j, k);
      }
    }
    if exists i :: 0 <= i < |pairs| && pairs[i].0 == k {
      var i :| 0 <= i < |pairs| && pairs[i].0 == k;
      assert Assigns(steps, i, k);
    }
  }

  // ---------------------------------------------------------------------------
  // the per-sample merge (the constructor's file loop)
  // ---------------------------------------------------------------------------

  /** The reports of every method, in `method_dict` order, each with its method's suffix. */
  function Flat(methods: seq<(string, string)>, filesFor: string -> seq<LogFile>): seq<(string, LogFile)>
    decreases |methods|
  {
    if methods == [] then []
    else Tagged(filesFor(methods[0].0), methods[0].1) + Flat(methods[1..], filesFor)
  }

  function Tagged(files: seq<LogFile>, ext: string): (r: seq<(string, LogFile)>)
    ensures |r| == |files|
    ensures forall i :: 0 <= i < |files| ==> r[i] == (ext, files[i])
  {
    seq(|files|, i requires 0 <= i < |files| => (ext, files[i]))
  }

  /** The sample name of a report: its name with every occurrence of the method suffix removed. */
  function SampleName(log: (string, LogFile)): string {
    Replace(log.1.sName, log.0, "")
  }

  /** The samples the host does not ignore. */
  function KeepNotIgnored(data: map<string, Record>, isIgnored: string -> bool): (kept: map<string, Record>)
    ensures forall s :: s in kept <==> s in data && !isIgnored(s)
    ensures forall s :: s in kept ==> kept[s] == data[s]
  {
    map s | s in data && !isIgnored(s) :: data[s]
  }

  /** One report merged in: a new sample takes the record, a known one is updated with it. */
  function MergeOne(data: map<string, Record>, name: string, parsed: Record, isIgnored: string -> bool): map<string, Record> {
    var merged := if name in data then data[name] + parsed else parsed;
    KeepNotIgnored(data[name := merged], isIgnored)
  }

  /** parse_file as the merge applies it. */
  function Parser(toFloat: string -> Option<PyFloat>): string -> Result<Record> {
    contents => ParseFile(contents, toFloat)
  }

  /**
   * The merge of the reports `logs`, in order, into `acc`; a report that
   * fails to parse raises, and nothing after it is merged.
   */
  function MergeFrom(acc: Result<map<string, Record>>, logs: seq<(string, LogFile)>, parse: string -> Result<Record>,
                     isIgnored: string -> bool): Result<map<string, Record>>
    decreases |logs|
  {
    if logs == [] || acc.Err? then acc
    else
      match parse(logs[0].1.contents)
      case Err(e) => Err(e)
      case Ok(parsed) => MergeFrom(Ok(MergeOne(acc.value, SampleName(logs[0]), parsed, isIgnored)), logs[1..], parse, isIgnored)
  }

  /** Merging two runs of reports is merging the first, then the second. */
  lemma {:induction false} MergeFromAppend(acc: Result<map<string, Record>>, xs: seq<(string, LogFile)>,
                                           ys: seq<(string, LogFile)>, parse: string -> Result<Record>, isIgnored: string -> bool)
    ensures MergeFrom(acc, xs + ys, parse, isIgnored) == MergeFrom(MergeFrom(acc, xs, parse, isIgnored), ys, parse, isIgnored)
    decreases |xs|
  {
    if xs == [] {
      assert xs + ys == ys;
    } else if acc.Ok? {
      assert (xs + ys)[0] == xs[0] && (xs + ys)[1..] == xs[1..] + ys;
      match parse(xs[0].1.contents)
      case Err(e) =>
        MergeFromErr(e, ys, parse, isIgnored);
      case Ok(parsed) =>
        MergeFromAppend(Ok(MergeOne(acc.value, SampleName(xs[0]), parsed, isIgnored)), xs[1..], ys, parse, isIgnored);
    } else {
      MergeFromErr(acc.error, ys, parse, isIgnored);
    }
  }

  lemma MergeFromErr(e: Error, logs: seq<(string, LogFile)>, parse: string -> Result<Record>, isIgnored: string -> bool)
    ensures MergeFrom(Err(e), logs, parse, isIgnored) == Err(e)
  {
  }

  /** Report `i` is one of sample `s` and its record has key `k`. */
  ghost predicate Provides(logs: seq<(string, LogFile)>, parse: string -> Result<Record>, i: int, s: string, k: string) {
    && 0 <= i < |logs| && SampleName(logs[i]) == s
    && parse(logs[i].1.contents).Ok? && k in parse(logs[i].1.contents).value
  }

  /** Report `i` is the last one that gives sample `s` key `k`. */
  ghost predicate LastProvider(logs: seq<(string, LogFile)>, parse: string -> Result<Record>, i: int, s: string, k: string) {
    Provides(logs, parse, i, s, k) && forall j :: i < j < |logs| ==> !Provides(logs, parse, j, s, k)
  }

  /** A sample is in the merged table iff it is not ignored and was there already or has a report. */
  lemma {:induction false} MergeFromSamples(acc: map<string, Record>, logs: seq<(string, LogFile)>,
                                            parse: string -> Result<Record>, isIgnored: string -> bool, s: string)
    requires forall t :: t in acc ==> !isIgnored(t)
    requires MergeFrom(Ok(acc), logs, parse, isIgnored).Ok?
    ensures s in MergeFrom(Ok(acc), logs, parse, isIgnored).value <==>
      !isIgnored(s) && (s in acc || exists i :: 0 <= i < |logs| && SampleName(logs[i]) == s)
    decreases |logs|
  {
    if logs != [] {
      var parsed := parse(logs[0].1.contents).value;
      var acc' := MergeOne(acc, SampleName(logs[0]), parsed, isIgnored);
      MergeFromSamples(acc', logs[1..], parse, isIgnored, s);
      if exists i :: 0 <= i < |logs| && SampleName(logs[i]) == s {
        var i :| 0 <= i < |logs| && SampleName(logs[i]) == s;
        if i > 0 {
          assert SampleName(logs[1..][i - 1]) == s;
        }
      }
      if exists i :: 0 <= i < |logs[1..]| && SampleName(logs[1..][i]) == s {
        var i :| 0 <= i < |logs[1..]| && SampleName(logs[1..][i]) == s;
        assert SampleName(logs[i + 1]) == s;
      }
    }
  }

  /** One report merged in: the sample's record gains the report's keys, with the report's values. */
  lemma MergeOneRecord(acc: map<string, Record>, name: string, parsed: Record, isIgnored: string -> bool, s: string, k: string)
    requires !isIgnored(s)
    ensures s in MergeOne(acc, name, parsed, isIgnored) <==> s in acc || name == s
    ensures s in MergeOne(acc, name, parsed, isIgnored) ==>
      var rec := MergeOne(acc, name, parsed, isIgnored)[s];
      && (k in rec <==> (s in acc && k in acc[s]) || (name == s && k in parsed))
      && (name == s && k in parsed ==> rec[k] == parsed[k])
      && (k in rec && !(name == s && k in parsed) ==> rec[k] == acc[s][k])
  {
  }

  /** The first report, seen from the rest of the run. */
  lemma MergeFromStep(acc: map<string, Record>, logs: seq<(string, LogFile)>, parse: string -> Result<Record>,
                      isIgnored: string -> bool, s: string, k: string)
    requires logs != [] && parse(logs[0].1.contents).Ok?
    ensures var parsed := parse(logs[0].1.contents).value;
      && MergeFrom(Ok(acc), logs, parse, isIgnored)
         == MergeFrom(Ok(MergeOne(acc, SampleName(logs[0]), parsed, isIgnored)), logs[1..], parse, isIgnored)
      && (Provides(logs, parse, 0, s, k) <==> SampleName(logs[0]) == s && k in parsed)
      && (forall i :: 0 <= i < |logs| - 1 ==> (Provides(logs[1..], parse, i, s, k) <==> Provides(logs, parse, i + 1, s, k)))
      && ((exists i :: Provides(logs, parse, i, s, k)) <==>
            Provides(logs, parse, 0, s, k) || exists i :: Provides(logs[1..], parse, i, s, k))
  {
    if exists i :: Provides(logs, parse, i, s, k) {
      var i :| Provides(logs, parse, i, s, k);
      if i > 0 {
        assert Provides(logs[1..], parse, i - 1, s, k);
      }
    }
    if exists i :: Provides(logs[1..], parse, i, s, k) {
      var i :| Provides(logs[1..], parse, i, s, k);
      assert Provides(logs, parse, i + 1, s, k);
    }
  }

  /**
   * A sample's merged record has a key iff it had it already or one of the
   * sample's reports has it.
   */
  lemma {:induction false} MergeFromKeys(acc: map<string, Record>, logs: seq<(string, LogFile)>,
                                         parse: string -> Result<Record>, isIgnored: string -> bool, s: string, k: string)
    requires forall t :: t in acc ==> !isIgnored(t)
    requires MergeFrom(Ok(acc), logs, parse, isIgnored).Ok?
    requires s in MergeFrom(Ok(acc), logs, parse, isIgnored).value
    ensures k in MergeFrom(Ok(acc), logs, parse, isIgnored).value[s] <==>
      (s in acc && k in acc[s]) || exists i :: Provides(logs, parse, i, s, k)
    decreases |logs|
  {
    if logs != [] {
      var parsed := parse(logs[0].1.contents).value;
      var acc' := MergeOne(acc, SampleName(logs[0]), parsed, isIgnored);
      MergeFromStep(acc, logs, parse, isIgnored, s, k);
      MergeFromKeys(acc', logs[1..], parse, isIgnored, s, k);
      MergeFromSamples(acc, logs, parse, isIgnored, s);
      MergeOneRecord(acc, SampleName(logs[0]), parsed, isIgnored, s, k);
    }
  }

  /**
   * Later reports override earlier ones: when some report of the sample has
   * the key, the merged value is the one of the last such report.
   */
  lemma {:induction false} MergeFromOverrides(acc: map<string, Record>, logs: seq<(string, LogFile)>,
                                              parse: string -> Result<Record>, isIgnored: string -> bool, s: string, k: string, i0: int)
    requires forall t :: t in acc ==> !isIgnored(t)
    requires MergeFrom(Ok(acc), logs, parse, isIgnored).Ok?
    requires s in MergeFrom(Ok(acc), logs, parse, isIgnored).value
    requires Provides(logs, parse, i0, s, k)
    ensures k in MergeFrom(Ok(acc), logs, parse, isIgnored).value[s]
    ensures exists i :: LastProvider(logs, parse, i, s, k)
                        && MergeFrom(Ok(acc), logs, parse, isIgnored).value[s][k] == parse(logs[i].1.contents).value[k]
    decreases |logs|
  {
    MergeFromKeys(acc, logs, parse, isIgnored, s, k);
    var parsed := parse(logs[0].1.contents).value;
    var acc' := MergeOne(acc, SampleName(logs[0]), parsed, isIgnored);
    MergeFromStep(acc, logs, parse, isIgnored, s, k);
    if exists i :: Provides(logs[1..], parse, i, s, k) {
      var i1 :| Provides(logs[1..], parse, i1, s, k);
      MergeFromOverrides(acc', logs[1..], parse, isIgnored, s, k, i1);
      var i :| LastProvider(logs[1..], parse, i, s, k)
               && MergeFrom(Ok(acc'), logs[1..], parse, isIgnored).value[s][k] == parse(logs[1..][i].1.contents).value[k];
      assert LastProvider(logs, parse, i + 1, s, k);
    } else {
      MergeFromOverridesFirst(acc, logs, parse, isIgnored, s, k);
    }
  }

  /** When only the first report of the sample has the key, the merged value is that report's. */
  lemma MergeFromOverridesFirst(acc: map<string, Record>, logs: seq<(string, LogFile)>,
                                parse: string -> Result<Record>, isIgnored: string -> bool, s: string, k: string)
    requires forall t :: t in acc ==> !isIgnored(t)
    requires MergeFrom(Ok(acc), logs, parse, isIgnored).Ok?
    requires s in MergeFrom(Ok(acc), logs, parse, isIgnored).value
    requires |logs| > 0 && Provides(logs, parse, 0, s, k)
    requires !exists i :: Provides(logs[1..], parse, i, s, k)
    requires k in MergeFrom(Ok(acc), logs, parse, isIgnored).value[s]
    ensures LastProvider(logs, parse, 0, s, k)
    ensures MergeFrom(Ok(acc), logs, parse, isIgnored).value[s][k] == parse(logs[0].1.contents).value[k]
  {
    var parsed := parse(logs[0].1.contents).value;
    var acc' := MergeOne(acc, SampleName(logs[0]), parsed, isIgnored);
    MergeFromStep(acc, logs, parse, isIgnored, s, k);
    forall j | 0 < j < |logs|
      ensures !Provides(logs, parse, j, s, k)
    {
      assert !Provides(logs[1..], parse, j - 1, s, k);
    }
    MergeFromSamples(acc, logs, parse, isIgnored, s);
    MergeOneRecord(acc, SampleName(logs[0]), parsed, isIgnored, s, k);
    MergeFromKept(acc', logs[1..], parse, isIgnored, s, k);
  }

  /** A key no report of the sample has keeps the value the sample had already. */
  lemma {:induction false} MergeFromKept(acc: map<string, Record>, logs: seq<(string, LogFile)>,
                                         parse: string -> Result<Record>, isIgnored: string -> bool, s: string, k: string)
    requires forall t :: t in acc ==> !isIgnored(t)
    requires MergeFrom(Ok(acc), logs, parse, isIgnored).Ok?
    requires s in acc && k in acc[s]
    requires forall i :: !Provides(logs, parse, i, s, k)
    ensures s in MergeFrom(Ok(acc), logs, parse, isIgnored).value
    ensures k in MergeFrom(Ok(acc), logs, parse, isIgnored).value[s]
    ensures MergeFrom(Ok(acc), logs, parse, isIgnored).value[s][k] == acc[s][k]
    decreases |logs|
  {
    if logs != [] {
      var parsed := parse(logs[0].1.contents).value;
      var acc' := MergeOne(acc, SampleName(logs[0]), parsed, isIgnored);
      MergeFromStep(acc, logs, parse, isIgnored, s, k);
      MergeOneRecord(acc, SampleName(logs[0]), parsed, isIgnored, s, k);
      MergeFromKept(acc', logs[1..], parse, isIgnored, s, k);
    }
  }

  /** Every report of every method, from an empty table. */
  function MergeAll(filesFor: string -> seq<LogFile>, toFloat: string -> Option<PyFloat>, isIgnored: string -> bool)
    : Result<map<string, Record>>
  {
    MergeFrom(Ok(map[]), Flat(MethodKeys, filesFor), Parser(toFloat), isIgnored)
  }

  /**
   * The constructor's loop over the methods and their reports: each report
   * is parsed and merged into the sample's record, and ignored samples are
   * dropped after every report.
   */
  method MergeReports(filesFor: string -> seq<LogFile>, toFloat: string -> Option<PyFloat>, isIgnored: string -> bool)
    returns (r: Result<map<string, Record>>)
    ensures r == MergeAll(filesFor, toFloat, isIgnored)
  {
    var data: map<string, Record> := map[];
    assert MethodKeys[0..] == MethodKeys;
    for m := 0 to |MethodKeys|
      invariant MergeFrom(Ok(data), Flat(MethodKeys[m..], filesFor), Parser(toFloat), isIgnored) == MergeAll(filesFor, toFloat, isIgnored)
    {
      var (searchKey, extension) := MethodKeys[m];
      var files := filesFor(searchKey);
      assert MethodKeys[m..][1..] == MethodKeys[m + 1..];
      MergeFromAppend(Ok(data), Tagged(files, extension), Flat(MethodKeys[m + 1..], filesFor), Parser(toFloat), isIgnored);
      var step := MergeFiles(data, files, extension, toFloat, isIgnored);
      if step.Err? {
        MergeFromErr(step.error, Flat(MethodKeys[m + 1..], filesFor), Parser(toFloat), isIgnored);
        return step;
      }
      data := step.value;
    }
    return Ok(data);
  }

  /** The inner loop: the reports of one method merged in turn. */
  method MergeFiles(data: map<string, Record>, files: seq<LogFile>, extension: string,
                    toFloat: string -> Option<PyFloat>, isIgnored: string -> bool)
    returns (r: Result<map<string, Record>>)
    ensures r == MergeFrom(Ok(data), Tagged(files, extension), Parser(toFloat), isIgnored)
  {
    var acc := data;
    assert files[0..] == files;
    for j := 0 to |files|
      invariant MergeFrom(Ok(acc), Tagged(files[j..], extension), Parser(toFloat), isIgnored)
             == MergeFrom(Ok(data), Tagged(files, extension), Parser(toFloat), isIgnored)
    {
      TaggedCons(files, extension, j);
      var sName := Replace(files[j].sName, extension, "");
      var parsed := ParseFile(files[j].contents, toFloat);
      if parsed.Err? {
        return Err(parsed.error);
      }
      acc := MergeInto(acc, sName, parsed.value, isIgnored);
    }
    return Ok(acc);
  }

  /**
   * One report merged into the samples: a new sample takes the parsed
   * record itself (so updating it with that record changes nothing), a known
   * one is updated with it; then the ignored samples are dropped.
   */
  method MergeInto(data: map<string, Record>, sName: string, parsed: Record, isIgnored: string -> bool)
    returns (data': map<string, Record>)
    ensures data' == MergeOne(data, sName, parsed, isIgnored)
  {
    data' := data;
    if sName !in data' {
      data' := data'[sName := parsed];
    }
    if sName in data' {
      UpdateSelf(parsed);
      data' := data'[sName := data'[sName] + parsed];
    }
    assert data' == data[sName := if sName in data then data[sName] + parsed else parsed];
    data' := KeepNotIgnored(data', isIgnored);
  }

  /** `d.update(d)` leaves `d` as it is. */
  lemma UpdateSelf(d: Record)
    ensures d + d == d
  {
  }

  lemma TaggedCons(files: seq<LogFile>, ext: string, j: nat)
    requires j < |files|
    ensures Tagged(files[j..], ext) == [(ext, files[j])] + Tagged(files[j + 1..], ext)
  {
  }

  // ---------------------------------------------------------------------
  // The vote: each sample's sex is the majority of the three methods

  /** The record has a result for each of the three methods. */
  ghost predicate HasVotes(rec: Record) {
    forall i :: 0 <= i < |GenderMethods| ==> GenderMethods[i] in rec
  }

  /** How many of `methods` report `answer`. */
  function CountOf(rec: Record, methods: seq<string>, answer: string): (n: nat)
    requires forall i :: 0 <= i < |methods| ==> methods[i] in rec
    ensures n <= |methods|
    ensures n == 0 <==> forall i :: 0 <= i < |methods| ==> rec[methods[i]] != Text(answer)
    decreases |methods|
  {
    if methods == [] then 0
    else
      var n := |methods| - 1;
      CountOf(rec, methods[..n], answer) + if rec[methods[n]] == Text(answer) then 1 else 0
  }

  /** A method reports at most one of two different labels, so the counts add up to at most the number of methods. */
  lemma {:induction false} CountsBounded(rec: Record, methods: seq<string>, a: string, b: string)
    requires forall i :: 0 <= i < |methods| ==> methods[i] in rec
    requires a != b
    ensures CountOf(rec, methods, a) + CountOf(rec, methods, b) <= |methods|
    decreases |methods|
  {
    if methods != [] {
      CountsBounded(rec, methods[..|methods| - 1], a, b);
    }
  }

  /** The counts only read the methods' own keys. */
  lemma {:induction false} CountOfOtherKeys(rec: Record, rec': Record, methods: seq<string>, answer: string)
    requires forall i :: 0 <= i < |methods| ==> methods[i] in rec && methods[i] in rec' && rec'[methods[i]] == rec[methods[i]]
    ensures CountOf(rec', methods, answer) == CountOf(rec, methods, answer)
    decreases |methods|
  {
    if methods != [] {
      CountOfOtherKeys(rec, rec', methods[..|methods| - 1], answer);
    }
  }

  /**
   * The counting loop of one sample: a KeyError at the first method the
   * record lacks, otherwise the number of "M" and of "F" results.
   */
  method CountVotes(rec: Record) returns (r: Result<(nat, nat)>)
    ensures r.Err? <==> !HasVotes(rec)
    ensures r.Err? ==> r.error == KeyError
    ensures r.Ok? ==> r.value == (CountOf(rec, GenderMethods, Male), CountOf(rec, GenderMethods, Female))
  {
    var countM, countF := 0, 0;
    for i := 0 to |GenderMethods|
      invariant forall j :: 0 <= j < i ==> GenderMethods[j] in rec
      invariant countM == CountOf(rec, GenderMethods[..i], Male)
      invariant countF == CountOf(rec, GenderMethods[..i], Female)
    {
      var m := GenderMethods[i];
      if m !in rec {
        return Err(KeyError);
      }
      assert GenderMethods[..i + 1][..i] == GenderMethods[..i];
      if rec[m] == Text(Male) {
        countM := countM + 1;
      }
      if rec[m] == Text(Female) {
        countF := countF + 1;
      }
    }
    assert GenderMethods[..|GenderMethods|] == GenderMethods;
    return Ok((countM, countF));
  }

  /**
   * The call: "M" when at least as many methods say "M" as "F" (a tie,
   * even 0 to 0, goes to "M"), else "F"; the certainty is the share of the
   * three methods that back the call.
   */
  function Decide(countM: nat, countF: nat): (r: (string, real))
    ensures r.0 == Male || r.0 == Female
    ensures r.0 == Male <==> countM >= countF
    ensures r.0 == Male ==> r.1 * 3.0 == countM as real
    ensures r.0 == Female ==> r.1 * 3.0 == countF as real
  {
    if countM >= countF then (Male, countM as real / 3.0)
    else (Female, countF as real / 3.0)
  }

  /** A sample's record with the vote added. */
  function Voted(rec: Record): (r: Record)
    requires HasVotes(rec)
    ensures r.Keys == rec.Keys + {CertaintyKey, CalcGenderKey}
    ensures forall k :: k in rec && k != CertaintyKey && k != CalcGenderKey ==> r[k] == rec[k]
    ensures r[CalcGenderKey] == Text(Male) || r[CalcGenderKey] == Text(Female)
  {
    var d := Decide(CountOf(rec, GenderMethods, Male), CountOf(rec, GenderMethods, Female));
    rec[CertaintyKey := Number(Finite(d.1))][CalcGenderKey := Text(d.0)]
  }

  /**
   * The call is "M" iff "M" has at least as many votes as "F", and the
   * certainty is 0, 1/3, 2/3 or 1: the winner's share of the three votes.
   */
  lemma VoteOutcome(rec: Record)
    requires HasVotes(rec)
    ensures var cM := CountOf(rec, GenderMethods, Male);
      var cF := CountOf(rec, GenderMethods, Female);
      && (Voted(rec)[CalcGenderKey] == Text(Male) <==> cM >= cF)
      && Voted(rec)[CertaintyKey] == Number(Finite((if cM >= cF then cM else cF) as real / 3.0))
      && Voted(rec)[CertaintyKey].n.x in {0.0, 1.0 / 3.0, 2.0 / 3.0, 1.0}
  {
    CountsBounded(rec, GenderMethods, Male, Female);
  }

  /** Two methods out of three agreeing carry the vote with certainty at least 2/3. */
  lemma MajorityWins(rec: Record, answer: string)
    requires HasVotes(rec)
    requires answer == Male || answer == Female
    requires CountOf(rec, GenderMethods, answer) >= 2
    ensures Voted(rec)[CalcGenderKey] == Text(answer)
    ensures Voted(rec)[CertaintyKey].n.x >= 2.0 / 3.0
  {
    CountsBounded(rec, GenderMethods, Male, Female);
  }

  /** Voting again changes nothing: the vote does not read its own keys. */
  lemma VoteIdempotent(rec: Record)
    requires HasVotes(rec)
    ensures HasVotes(Voted(rec)) && Voted(Voted(rec)) == Voted(rec)
  {
    var once := Voted(rec);
    CountOfOtherKeys(rec, once, GenderMethods, Male);
    CountOfOtherKeys(rec, once, GenderMethods, Female);
  }

  /**
   * The loop over all samples: each record gets its vote, or the loop
   * raises a KeyError as soon as a sample lacks one of the methods.
   */
  method VoteAll(data: map<string, Record>) returns (r: Result<map<string, Record>>)
    ensures r.Err? <==> exists s :: s in data && !HasVotes(data[s])
    ensures r.Err? ==> r.error == KeyError
    ensures r.Ok? ==> r.value.Keys == data.Keys && forall s :: s in data ==> r.value[s] == Voted(data[s])
  {
    var out := data;
    var remaining := data.Keys;
    while remaining != {}
      invariant remaining <= data.Keys && out.Keys == data.Keys
      invariant forall s :: s in data && s !in remaining ==> HasVotes(data[s]) && out[s] == Voted(data[s])
      decreases |remaining|
    {
      var s :| s in remaining;
      var votes := CountVotes(data[s]);
      if votes.Err? {
        return Err(votes.error);
      }
      var d := Decide(votes.value.0, votes.value.1);
      out := out[s := data[s][CertaintyKey := Number(Finite(d.1))][CalcGenderKey := Text(d.0)]];
      remaining := remaining - {s};
    }
    return Ok(out);
  }

  /**
   * The module's table: every report merged, then each sample's vote; a
   * report that fails to parse or a sample without all three methods raises.
   */
  method SexPrediction(filesFor: string -> seq<LogFile>, toFloat: string -> Option<PyFloat>, isIgnored: string -> bool)
    returns (r: Result<map<string, Record>>)
    ensures MergeAll(filesFor, toFloat, isIgnored).Err? ==> r == MergeAll(filesFor, toFloat, isIgnored)
    ensures MergeAll(filesFor, toFloat, isIgnored).Ok? ==>
      var merged := MergeAll(filesFor, toFloat, isIgnored).value;
      && (r.Err? <==> exists s :: s in merged && !HasVotes(merged[s]))
      && (r.Err? ==> r.error == KeyError)
      && (r.Ok? ==> r.value.Keys == merged.Keys && forall s :: s in merged ==> r.value[s] == Voted(merged[s]))
  {
    var merged := MergeReports(filesFor, toFloat, isIgnored);
    if merged.Err? {
      return merged;
    }
    r := VoteAll(merged.value);
  }
}

=== FILE: wrappers.dfy ===
/** Option and Result values, and the Python exceptions the parsers can raise. */
module Wrappers {

  datatype Option<+T> = None | Some(value: T)

  /** The exceptions that escape the modelled code. */
  datatype Error =
    | ValueError         // int()/float() of a bad numeral, unpacking the wrong number of fields
    | IndexError         // indexing past the end of a list
    | KeyError           // a missing dictionary key
    | ZeroDivisionError  // division by zero
    | AssertionError     // a failed `assert`
    | TypeError          // float() of a value that is neither a number nor a string
    | NoSamplesFound     // the host's ModuleNoSamplesFound: the module has nothing to report

  /** The outcome of code that either returns a value or raises. */
  datatype Result<+T> = Ok(value: T) | Err(error: Error)
}
